=== FILE: README.md ===
# Hivemind / Citrine core, modelled in Dafny

Hivemind and its successor Citrine run neural-network "packages" behind a local daemon. A desktop UI and a
command-line client sit in front of the daemon. This project models the sequential logic at the heart of
those programs as pure Dafny functions over sequences, maps and strings, and proves what each piece promises.

- **Browser bridge** (`js_bridge/client.js`): the request router, which hands out ids, keeps callbacks and
  dispatches replies, and the image-tensor codec, which packs RGBA pixels into base64 text and back.
- **Command-line parser** (`cli_io.py`): `key=value` splitting, the `name`/`.name`/`[n]` key grammar,
  building the nested document, turning index dicts into lists, and value coercion.
- **Daemon configuration** (`config.py`): the recursive merge of user settings over the defaults, and
  dotted-key lookup.
- **Jobs** (`parallel.py`, both daemons): the `AsyncFuture` state machine, run one step at a time, its
  `to_dict` report, the job cache, the commit rule and the janitor's purge rule.
- **Calling a package function** (`validator.py`, `call.py`): the tensor shape/dtype checker and the
  classification and error wrapping of the package's input/output hooks.
- **`truncate_str`** in both daemons.
- **Indices**: the `|`-separated package repository index with its lazy loading, search and lookup; the UIs'
  package-to-interface and interface indices; wanted-interface lists; the choice of archive source; view
  paths.
- **Package installation**: install-spec dispatch (`localfile` > `url`+`hash` > `name`), schema selection,
  the client's request payload, route registration in `AioServer`, and the copy plan of
  `storage/package.py`.
- **Registries** of functions and endpoints (`core/functions.py`, `core.py`).
- **UI settings** (`config.py` of the UI): typed `set` with bool coercion, and the transient store.
- **XML widget attributes** (`qt_xml.py`): positional `argN` collection, attribute partitioning, and value
  conversion.

Supporting modules:

- `Wrappers`: `Option` and `Result`.
- `Text`: split, strip, join, `os.path.join`.
- `PyInt`: Python's `int()` on text and `str()` on integers.
- `Dicts`: insertion-ordered dicts as association lists.
- `PyValue`: JSON-like Python values.

Effects are parameters or outputs. The network, the file system, the database and the clock all enter as
function arguments, for example `isFile`, `fetched: Option<string>` or `now: int`. File-system effects come
back as a list. Exceptions become `Result` errors carrying the source's messages.

## Model

| member | source | states |
|---|---|---|
| BridgeRouter.Init | hivemind-ui/hivemind_ui/js_bridge/client.js:10-11 | a new client has counter 0, no pending callbacks, nothing sent, nothing delivered |
| BridgeRouter.Send | hivemind-ui/hivemind_ui/js_bridge/client.js:19-29 | a send uses the current counter as its id and increments it; it emits exactly one envelope `{cmd, params, id}`; it stores the callback under that id; no other callback or delivery changes |
| BridgeRouter.SendValid | hivemind-ui/hivemind_ui/js_bridge/client.js:19-29 | sending keeps the invariant: every id sent or pending is below the counter, and the envelopes carry ids 0..n-1 in order |
| BridgeRouter.Receive | hivemind-ui/hivemind_ui/js_bridge/client.js:31-44 | a failure reply changes nothing; a success reply for a registered id invokes that id's callback with the results; a success reply for an unknown id is an error (calling `undefined`) |
| BridgeRouter.ReceiveKeepsPending | hivemind-ui/hivemind_ui/js_bridge/client.js:36-39 | a reply never removes a pending callback, because the delete targets the literal key `'id'`; counter and sent envelopes are also unchanged |
| BridgeRouter.SendAllIds | hivemind-ui/hivemind_ui/js_bridge/client.js:19-29 | a run of sends gives the i-th command id `start + i`, stores its callback under that id, and keeps earlier callbacks and envelopes |
| BridgeRouter.FreshIdsInOrder | hivemind-ui/hivemind_ui/js_bridge/client.js:10-29 | from a new client, ids are 0, 1, 2, ... in send order; they strictly increase, are never reused, and each maps to its own callback |
| BridgeRouter.ReceiveAllDelivers | hivemind-ui/hivemind_ui/js_bridge/client.js:34-39 | replies for registered ids, in any order relative to sends, invoke exactly the callbacks stored under their ids, in reply order |
| BridgeRouter.RepeatedReplyRedelivers | hivemind-ui/hivemind_ui/js_bridge/client.js:37-39 | the same success reply twice calls the same callback twice |
| BridgeRouter.UnknownIdFails | hivemind-ui/hivemind_ui/js_bridge/client.js:37-39 | a success reply whose id was never handed out is an error, whatever was sent before |
| BridgeRouter.FileUrl | hivemind-ui/hivemind_ui/js_bridge/client.js:113-117 | a result URL is an `http://` URL ending in `/result/` and the key |
| BridgeRouter.FileUrlRoundTrip | hivemind-ui/hivemind_ui/js_bridge/client.js:115 | server, port and key can be read back from the URL when the server name has no `:` |
| ImageCodec.SextetValue | hivemind-ui/hivemind_ui/js_bridge/client.js:192-196 | the decoder's alphabet lookup yields a 6-bit value for every character |
| ImageCodec.AlphabetSymbols | hivemind-ui/hivemind_ui/js_bridge/client.js:146 | the alphabet has 64 symbols, in the order of section 4 of RFC 4648 |
| ImageCodec.SymbolInverse | hivemind-ui/hivemind_ui/js_bridge/client.js:192-198 | decoding a symbol gives back the 6-bit value that chose it, and no symbol is `=` |
| ImageCodec.PackUnpack | hivemind-ui/hivemind_ui/js_bridge/client.js:203-208 | the decoder's bit unpacking inverts the encoder's bit packing for any three bytes |
| ImageCodec.EncodeGroup | hivemind-ui/hivemind_ui/js_bridge/client.js:155-166 | every group of up to three bytes becomes exactly four characters |
| ImageCodec.EncodeBytes | hivemind-ui/hivemind_ui/js_bridge/client.js:147-167 | the encoded text length is a multiple of four |
| ImageCodec.Encode | hivemind-ui/hivemind_ui/js_bridge/client.js:126-179 | anything other than a canvas or img throws; a canvas or img with zero width or height fails with `IndexSizeError` in `getImageData`; otherwise dtype is `uint8` and shape is `[height, width, 4 if alpha else 3]`, with alpha defaulting to false; an img uses its natural size |
| ImageCodec.CreateImageData | hivemind-ui/hivemind_ui/js_bridge/client.js:190 | a zero dimension throws; otherwise the buffer is zeroed RGBA of the absolute dimensions |
| ImageCodec.FillImage | hivemind-ui/hivemind_ui/js_bridge/client.js:197-214 | a zero dimension throws; otherwise the filled image has the absolute dimensions and an RGBA buffer of exactly 4·width·height bytes |
| ImageCodec.DecodeAsWritten | hivemind-ui/hivemind_ui/js_bridge/client.js:181-215 | as the source is written: a non-`uint8` dtype throws before any buffer exists; the image has width `shape[0]` and height `shape[1]` |
| ImageCodec.Decode | hivemind-ui/hivemind_ui/js_bridge/client.js:181-215 | the decoder with width `shape[1]` and height `shape[0]`; the dtype check and error cases are the same |
| ImageCodec.EncodeAlphaIsBase64 | hivemind-ui/hivemind_ui/js_bridge/client.js:147-166 | with alpha, the encoding of the whole RGBA stream is standard base64 |
| ImageCodec.Base64Length | hivemind-ui/hivemind_ui/js_bridge/client.js:155-166 | base64 output is 4·⌈n/3⌉ characters |
| ImageCodec.Base64PaddingAtEnd | hivemind-ui/hivemind_ui/js_bridge/client.js:157-166 | `=` appears only in the last two positions |
| ImageCodec.FullGroupUnpadded | hivemind-ui/hivemind_ui/js_bridge/client.js:157-166 | a group of three real bytes has no `=` |
| ImageCodec.EncodeOpaqueLayout | hivemind-ui/hivemind_ui/js_bridge/client.js:147-166 | without alpha, each 4-byte pixel gives exactly 4 characters and no `=` |
| ImageCodec.DecodeGroup | hivemind-ui/hivemind_ui/js_bridge/client.js:197-213 | each 4-character group decodes to its three bytes, plus 255 when the tensor has no alpha channel |
| ImageCodec.DecodeEncodeOpaque | hivemind-ui/hivemind_ui/js_bridge/client.js:197-213 | decoding an alpha-free encoding gives every RGB byte back, with every alpha byte 255 |
| ImageCodec.PadDecodesToZero | hivemind-ui/hivemind_ui/js_bridge/client.js:198-201 | `=` decodes as the sextet 0, so padding contributes zero bits |
| ImageCodec.DecodeOneByte | hivemind-ui/hivemind_ui/js_bridge/client.js:203-209 | a padded one-byte group still writes three bytes, the extra two being 0, because the `'='` tests never fire |
| ImageCodec.DecodeTwoBytes | hivemind-ui/hivemind_ui/js_bridge/client.js:203-209 | a padded two-byte group writes three bytes, the last being 0 |
| ImageCodec.DecodeEncodeAlpha | hivemind-ui/hivemind_ui/js_bridge/client.js:197-213 | decoding the base64 of any byte stream gives the stream back, followed by one zero per `=` |
| ImageCodec.RoundTripOpaque | hivemind-ui/hivemind_ui/js_bridge/client.js:147-213 | encoding a canvas without alpha and decoding gives the same image with every alpha byte 255 |
| ImageCodec.RoundTripAlpha | hivemind-ui/hivemind_ui/js_bridge/client.js:126-214 | encoding a canvas with alpha and decoding gives the image back exactly; the padding zeros fall past the buffer's end |
| ImageCodec.DecodeAsWrittenTransposes | hivemind-ui/hivemind_ui/js_bridge/client.js:186-190 | the decoder as written returns every encoded image with its width and height swapped, so no non-square image comes back as encoded |
| ImageCodec.RedPixelExample | hivemind-ui/hivemind_ui/js_bridge/client.js:147-213 | `[255,0,0,255]` with alpha encodes to `"/wAA/w=="` and decodes back to `[255,0,0,255]` |
| CliIo.ParseKv | citrine-client/citrine_client/cli/cli_io.py:13-22 | succeeds iff every argument has `=`; otherwise the error names the first argument without one; splits at the first `=` (key has no `=`); order and length are kept |
| CliIo.SplitAtEquals | citrine-client/citrine_client/cli/cli_io.py:18-21 | the split at the first `=` is unique: key and value are determined by the argument |
| CliIo.ParseKey | citrine-client/citrine_client/cli/cli_io.py:29-41 | a key outside the grammar raises with that key; an accepted key yields at least one token |
| CliIo.ParseGroupIsGroup | citrine-client/citrine_client/cli/cli_io.py:25-26 | what the parser reads at the start of a key is one alternative of the regex, and its token |
| CliIo.ParsedHasGroups | citrine-client/citrine_client/cli/cli_io.py:26-31 | every key the parser accepts splits into groups of the regex |
| CliIo.GroupsCons | citrine-client/citrine_client/cli/cli_io.py:26 | a group at the start may omit the `.`; later groups must not |
| CliIo.ParseGroupOfGroup | citrine-client/citrine_client/cli/cli_io.py:25-41 | a group followed by `.`, `[` or the end is read as exactly that group |
| CliIo.GroupsParse | citrine-client/citrine_client/cli/cli_io.py:29-41 | groups of the regex, concatenated, parse back to one token per group |
| CliIo.ParseKeyGrammar | citrine-client/citrine_client/cli/cli_io.py:26-31 | a key is accepted iff it fully matches `((^\|\.)[a-zA-Z]+[a-zA-Z0-9]?\|\[[0-9]+\])+`, written as a split into groups |
| CliIo.ParseKeyGroups | citrine-client/citrine_client/cli/cli_io.py:29-41 | an accepted key yields one token per group: the name without its `.`, or `int` of the index digits, leading zeros allowed |
| CliIo.ParseKeyLeadingZeros | citrine-client/citrine_client/cli/cli_io.py:38 | `a[007]` parses to name `a` and index 7 |
| CliIo.ParseGroupsNames | citrine-client/citrine_client/cli/cli_io.py:32-41 | every name token of a parsed key is a valid name |
| CliIo.ParseRenderTokens | citrine-client/citrine_client/cli/cli_io.py:32-41 | parsing the text of any valid token list gives that token list back |
| CliIo.ParseKeyRender | citrine-client/citrine_client/cli/cli_io.py:29-41 | `_parse_key` inverts rendering: `name`, `.name` and `[n]` come back as name, name and integer tokens, in key order |
| CliIo.ParseKeyRejects | citrine-client/citrine_client/cli/cli_io.py:25-31 | the empty key, a name with `_`, a name ending in two digits, and a non-numeric index are all rejected with the key |
| CliIo.ParseKeyExample | citrine-client/citrine_client/cli/cli_io.py:29-41 | `a[0].b` parses to name `a`, index 0, name `b` |
| CliIo.ParseCliOutputs | citrine-client/citrine_client/cli/cli_io.py:139-140 | gives one `(tokens, key, value)` triple per argument, in order; key and value rebuild the argument; the tokens are the key's parse |
| CliIo.ParseKeys | citrine-client/citrine_client/cli/cli_io.py:169-171 | parses every key of the flattened arguments, keeping each raw key and value in order |
| CliIo.ParseValue | citrine-client/citrine_client/cli/cli_io.py:60-106 | integer text becomes that integer first; other non-float text without `@` stays unchanged; only `@` values can fail |
| CliIo.TransformLists | citrine-client/citrine_client/cli/cli_io.py:44-57 | `{}` stays `{}`; a dict keyed exactly 0..n-1 becomes a list of length n; any other dict keeps its keys |
| CliIo.TransformItems | citrine-client/citrine_client/cli/cli_io.py:51-52 | the list built from an index dict has one element per remaining index |
| CliIo.TransformEntries | citrine-client/citrine_client/cli/cli_io.py:53-57 | a dict that is not an index range keeps exactly its keys, in order |
| CliIo.TransformItemsAt | citrine-client/citrine_client/cli/cli_io.py:51-52 | element j of the list is the transformed value stored under integer key j, so the list is in index order |
| CliIo.ChildDict | citrine-client/citrine_client/cli/cli_io.py:176-178 | descending fails exactly when the key already holds something that is not a dict |
| CliIo.Insert | citrine-client/citrine_client/cli/cli_io.py:172-178 | after an insert, the first token of the path is present |
| CliIo.InsertThenLookup | citrine-client/citrine_client/cli/cli_io.py:172-178 | after an insert, the path leads to the raw value; top-level keys other than the path's first are untouched |
| CliIo.InsertKeepsOtherPaths | citrine-client/citrine_client/cli/cli_io.py:169-178 | an insert leaves the value at every path that differs from its own at some position unchanged, nested siblings included (`a.b=1` then `a.c=2` keeps `a.b`) |
| CliIo.ParseCliInputs | citrine-client/citrine_client/cli/cli_io.py:143-179 | any argument without `=` makes the whole parse fail with the missing-`=` error |
| CliIo.LaterArgumentWins | citrine-client/citrine_client/cli/cli_io.py:167 | of two arguments with the same key, the flattened dict keeps only the later value |
| DaemonConfig.Merge | hivemind-daemon/hivemind_daemon/config.py:26-43 | merging `None` gives the base; a non-dict base gives the merge side; a dict base with a non-dict merge side raises; two dicts merge to a dict |
| DaemonConfig.MergeEntries | hivemind-daemon/hivemind_daemon/config.py:32-37 | the merged entries of the base's keys follow the base's key order |
| DaemonConfig.OnlyIn | hivemind-daemon/hivemind_daemon/config.py:33 | exactly the merge side's keys that the base lacks, each with its own value |
| DaemonConfig.MergeFailsIffClash | hivemind-daemon/hivemind_daemon/config.py:26-43 | the merge raises iff somewhere a dict in the base meets a non-dict, non-None value in the merge side |
| DaemonConfig.MergeEntriesFailsIffClash | hivemind-daemon/hivemind_daemon/config.py:35-36 | the loop over the base keys raises iff one of its recursive merges clashes |
| DaemonConfig.MergeKeysUnion | hivemind-daemon/hivemind_daemon/config.py:32-37 | the merged dict's key set is the union of both key sets |
| DaemonConfig.MergeValueAt | hivemind-daemon/hivemind_daemon/config.py:32-37 | each base key holds the recursive merge of both values; a key only in the merge side holds its value unchanged |
| DaemonConfig.MergeWithEmpty | hivemind-daemon/hivemind_daemon/config.py:27-37 | merging a dict with `{}` gives the same dict |
| DaemonConfig.MergeIdempotent | hivemind-daemon/hivemind_daemon/config.py:26-43 | merging a well-formed value with itself gives it back |
| DaemonConfig.Step | hivemind-daemon/hivemind_daemon/config.py:72 | one lookup step succeeds iff the value is a dict holding the key, and then gives that key's value |
| DaemonConfig.DescendAppend | hivemind-daemon/hivemind_daemon/config.py:69-73 | looking up a longer path is looking up its first part and then the rest |
| DaemonConfig.GetConfigPath | hivemind-daemon/hivemind_daemon/config.py:68-73 | `get_config` splits the key on `.` and descends one level per segment |
| DaemonConfig.MissingSegmentRaises | hivemind-daemon/hivemind_daemon/config.py:71-72 | the first segment missing from the dict reached so far raises `KeyError` with that segment |
| DaemonConfig.GetConfigTwo | hivemind-daemon/hivemind_daemon/config.py:68-73 | `a.b` is the lookup of `a` followed by the lookup of `b` |
| DaemonConfig.Defaults | hivemind-daemon/hivemind_daemon/config.py:10-17 | the defaults hold `serve` (host and port), `storage_path` and `worker_threads`, in that order |
| DaemonConfig.DefaultPort | hivemind-daemon/hivemind_daemon/config.py:46-58 | with no user file the configuration is the defaults, and `serve.port` is 5402 |
| DaemonConfig.DefaultServePort | hivemind-daemon/hivemind_daemon/config.py:10-17 | any configuration whose `serve` section is the default one gives port 5402 |
| DaemonConfig.MergeServeSection | hivemind-daemon/hivemind_daemon/config.py:32-37 | a user `serve` section with only a port keeps the default host |
| DaemonConfig.MergeDefaults | hivemind-daemon/hivemind_daemon/config.py:46-58 | a user file changing only the port leaves every other default in place |
| DaemonConfig.UserPortKeepsDefaultHost | hivemind-daemon/hivemind_daemon/config.py:46-58 | with a user port of 6000, `serve.port` is 6000 and `serve.host` is still `127.0.0.1` |
| DaemonConfig.MergedServeLookups | hivemind-daemon/hivemind_daemon/config.py:68-73 | dotted lookups through the merged `serve` section find the user port and the default host |
| Jobs.Label | citrine-daemon/citrine_daemon/server/parallel.py:29-44 | `get_msg` gives every state a label, and different states get different labels |
| Jobs.Create | citrine-daemon/citrine_daemon/server/parallel.py:52-74 | a new future is INITIALIZED, with no error and no expiry, and is registered in the job cache under its uid; other entries are kept |
| Jobs.GetFuture | citrine-daemon/citrine_daemon/server/parallel.py:143-146 | `get_future` returns the cached future, or raises `NoSuchJob` with the uid iff the uid is absent |
| Jobs.CreateThenGet | hivemind-daemon/hivemind_daemon/server/parallel.py:59-66 | a created future can be fetched back by its uid and starts INITIALIZED; other uids fetch as before |
| Jobs.Finish | citrine-daemon/citrine_daemon/server/parallel.py:83-92 | a return gives DONE with the value; an ordinary exception gives ERROR with it; `JobInterrupted` is recorded without changing the state |
| Jobs.Run | citrine-daemon/citrine_daemon/server/parallel.py:76-94 | `run` changes nothing unless the future is INITIALIZED; otherwise it moves to RUNNING and then finishes |
| Jobs.Interrupt | citrine-daemon/citrine_daemon/server/parallel.py:100-105 | RUNNING or INITIALIZED becomes INTERRUPTED; DONE, ERROR and INTERRUPTED are left alone; nothing else changes |
| Jobs.RunFollowsDiagram | hivemind-daemon/hivemind_daemon/server/parallel.py:57-80 | `run` follows the transitions documented in `__init__` and ends in the state its outcome dictates |
| Jobs.RunOnce | hivemind-daemon/hivemind_daemon/server/parallel.py:68-70 | running a future again changes nothing |
| Jobs.InterruptedBeforeStartNeverRuns | citrine-daemon/citrine_daemon/server/parallel.py:76-105 | a future interrupted before a worker takes it is never run and stays INTERRUPTED |
| Jobs.InterruptIdempotent | hivemind-daemon/hivemind_daemon/server/parallel.py:88-93 | interrupting twice is interrupting once |
| Jobs.FinalStatesStay | citrine-daemon/citrine_daemon/server/parallel.py:76-105 | DONE, ERROR and INTERRUPTED are left alone by both `run` and `interrupt` |
| Jobs.InterruptDuringRun | hivemind-daemon/hivemind_daemon/server/parallel.py:68-93 | interrupting a running job that then raises `JobInterrupted` ends INTERRUPTED with that exception recorded |
| Jobs.LateReturnOverridesInterrupt | hivemind-daemon/hivemind_daemon/server/parallel.py:57-93 | if the function returns after an interrupt, the state becomes DONE, a transition the `__init__` comment does not document |
| Jobs.ToDict | citrine-daemon/citrine_daemon/server/parallel.py:114-124 | the report starts with `uid`, `status` (the `get_msg` label) and `data`, and has at most two more keys |
| Jobs.ToDictFields | hivemind-daemon/hivemind_daemon/server/parallel.py:102-112 | `error` is present iff an exception was recorded; `result` is present iff the value is truthy |
| Jobs.FailedJobReport | citrine-daemon/citrine_daemon/server/parallel.py:89-124 | a job that raised reports status `Error`, the exception and no result |
| Jobs.FalsyResultOmitted | hivemind-daemon/hivemind_daemon/server/parallel.py:108-111 | a job that returned `0` reports `Done` but no `result` key |
| Jobs.WorkerProcess | citrine-daemon/citrine_daemon/server/parallel.py:153-168 | a worker runs the job, commits iff the final state is DONE, and sets the expiry to now + 60 s |
| Jobs.CommitOnlyWhenDone | citrine-daemon/citrine_daemon/server/parallel.py:165 | a fresh job's database work is committed iff its function returned |
| Jobs.PurgeIds | citrine-daemon/citrine_daemon/server/parallel.py:176-181 | the janitor collects exactly the uids whose expiry is set and already past |
| Jobs.JanitorRemovesExactlyExpired | citrine-daemon/citrine_daemon/server/parallel.py:171-183 | after a janitor pass, expired jobs are gone and every other job is still there unchanged |
| Jobs.FinishedJobLifetime | citrine-daemon/citrine_daemon/server/parallel.py:166-183 | a processed job counts as expired at time t iff t is more than 60 s after it finished |
| TensorValidator.Ints | citrine-daemon/citrine_daemon/core/validator.py:24-29 | the integers of a shape list, position by position |
| TensorValidator.FirstMismatch | citrine-daemon/citrine_daemon/core/validator.py:77-82 | a reported position has a fixed expected dimension that differs from the actual one |
| TensorValidator.FirstMismatchNone | citrine-daemon/citrine_daemon/core/validator.py:77-82 | no mismatch is found iff every expected dimension is `None` or equal to the actual one |
| TensorValidator.Validate | citrine-daemon/citrine_daemon/core/validator.py:37-93 | `None` is skipped and nothing else is; a value that does not fit the tensor schema is rejected by the schema |
| TensorValidator.TensorDocFields | citrine-daemon/citrine_daemon/core/validator.py:15-30 | a tensor document carries its dtype and its shape as an integer list |
| TensorValidator.AcceptedIffConforms | citrine-daemon/citrine_daemon/core/validator.py:64-88 | a document with an allowed dtype is accepted iff rank, every fixed dimension, and dtype match what is expected |
| TensorValidator.RankCheckedBeforeDtype | citrine-daemon/citrine_daemon/core/validator.py:71-88 | a rank error is the one reported even when the dtype is also wrong |
| TensorValidator.DimsCheckedBeforeDtype | citrine-daemon/citrine_daemon/core/validator.py:77-88 | a wrong fixed dimension is the one reported even when the dtype is also wrong |
| TensorValidator.MissingShapeRaises | citrine-daemon/citrine_daemon/core/validator.py:71-72 | a document without `shape` against an expected shape raises `KeyError` |
| TensorValidator.UnknownDtypeFailsSchema | citrine-daemon/citrine_daemon/core/validator.py:8-20 | a dtype outside the twelve allowed names is rejected by the schema, before any other check |
| TensorValidator.NoExpectationsAcceptsSchemaFits | citrine-daemon/citrine_daemon/core/validator.py:67-88 | with no expectations, every document fitting the schema is accepted |
| TensorValidator.WildcardDimension | citrine-daemon/citrine_daemon/core/validator.py:77-82 | a `None` expected dimension accepts any actual size |
| ModelCall.Guard | citrine-daemon/citrine_daemon/core/call.py:29-37 | a hook's result passes through; a `CitrineException` is re-raised unchanged; any other exception becomes `PackageError` |
| ModelCall.Classify | citrine-daemon/citrine_daemon/core/call.py:39-51 | accepts exactly a dict, or a 2-tuple whose first element is a dict; a dict gives no context, a tuple gives its second element as context; anything else is the format `PackageError` |
| ModelCall.Call | citrine-daemon/citrine_daemon/core/call.py:17-70 | an input that fails the function's validator raises `ValidationError` with its errors |
| ModelCall.DictInputNoContext | citrine-daemon/citrine_daemon/core/call.py:39-62 | a dict from `process_input` is the model input, and `process_output` gets no context |
| ModelCall.ContextReachesOutput | citrine-daemon/citrine_daemon/core/call.py:43-62 | the second element of a `(dict, ctx)` tuple is passed to `process_output` |
| ModelCall.BadShapeIsFormatError | citrine-daemon/citrine_daemon/core/call.py:50-51 | any other return shape raises the format `PackageError` |
| ModelCall.InputHookErrors | citrine-daemon/citrine_daemon/core/call.py:29-37 | an input hook's `CitrineException` is re-raised; any other exception is wrapped with the package and function names |
| ModelCall.ModelErrorsPropagate | citrine-daemon/citrine_daemon/core/call.py:53-55 | whatever checking, finding or running the model raises reaches the caller unchanged, and `process_output` is not run |
| ModelCall.ValidatedDocumentIsProcessed | citrine-daemon/citrine_daemon/core/call.py:23-27 | after validation, the hooks see the validator's normalised document instead of the raw inputs |
| ModelCall.HasVarPositional | citrine-daemon/citrine_daemon/core/call.py:84-86 | the scan finds a `*args` parameter iff one exists |
| ModelCall.WantsContextIff | citrine-daemon/citrine_daemon/core/call.py:80-87 | an output hook wants the context iff it has more than one parameter or a `*args` |
| Truncate.PrefixSlice | citrine-daemon/citrine_daemon/util.py:24-25 | Python's `s[:n]`: a negative n counts from the end, and the slice never fails |
| Truncate.ShortTextUnchanged | citrine-daemon/citrine_daemon/util.py:24-27 | text no longer than maxlength is returned unchanged |
| Truncate.LongTextCut | citrine-daemon/citrine_daemon/util.py:24-25 | longer text becomes its first maxlength−3 characters followed by `...`, exactly maxlength long |
| Truncate.CutBound | citrine-daemon/citrine_daemon/util.py:10-25 | with maxlength ≥ 3 the result never exceeds maxlength |
| Truncate.CutIdempotent | hivemind-daemon/hivemind_daemon/util.py:15-18 | with maxlength ≥ 3, truncating again with the same bound changes nothing |
| Truncate.SmallBoundOverflows | hivemind-daemon/hivemind_daemon/util.py:5-16 | below 3 the bound is broken, and a second truncation changes the text again |
| Truncate.CitrineTruncate | citrine-daemon/citrine_daemon/util.py:9-27 | `str`'s text is cut; after an ordinary exception from `str`, `repr`'s text is cut; the call raises exactly when `str` raises a `CitrineException`, or `str` fails and `repr` raises one |
| Truncate.HivemindTruncate | hivemind-daemon/hivemind_daemon/util.py:4-18 | uses `str`, else `repr`, else the unrepresentable message, and then cuts |
| Truncate.VersionsAgree | hivemind-daemon/hivemind_daemon/util.py:4-18 | the two daemons' versions agree whenever no daemon exception is raised |
| IndexRows.ParseLines | citrine-daemon/citrine_daemon/package/repo.py:16-18 | rows are split on `\|` in order; loading stops at the first row without exactly the expected field count, keeping the rows before it |
| IndexRows.FieldsOfLine | hivemind-daemon/hivemind_daemon/package/repo.py:17 | fields without `\|` joined by `\|` split back into the same fields |
| IndexRows.PipeInNameBreaksRecord | citrine-daemon/citrine_daemon/package/repo.py:17 | a name containing `\|` makes a four-field row, which the three-name unpacking rejects |
| IndexRows.GroupGet | citrine-ui/citrine_ui/interface_pkg/interface_pkg.py:232-237 | a key gets the list of all its rows' values in order; an unlisted key is absent |
| IndexRows.Lazy | citrine-daemon/citrine_daemon/package/repo.py:21-26 | a loaded index is returned without fetching; a failed fetch raises, leaving the index unset or, in the repositories, empty |
| IndexRows.LoadedOnce | hivemind-daemon/hivemind_daemon/package/repo.py:22-25 | once loaded, later calls return the same index whatever a fetch would return |
| PackageRepo.BuildLines | citrine-daemon/citrine_daemon/package/repo.py:16-18 | the built index has one entry per name |
| PackageRepo.GetIndex | citrine-daemon/citrine_daemon/package/repo.py:21-26 | the index is pulled only while unset; a failed pull leaves `{}` behind and raises `RepositoryError` naming the URL |
| PackageRepo.Matching | citrine-daemon/citrine_daemon/package/repo.py:31-33 | a search returns at most as many names as the index holds |
| PackageRepo.MatchingIff | citrine-daemon/citrine_daemon/package/repo.py:29-33 | a name is found iff it is indexed and contains the query, both lower-cased |
| PackageRepo.EmptyQueryMatchesAll | citrine-daemon/citrine_daemon/package/repo.py:32 | the empty query returns every name, in index order |
| PackageRepo.SearchPackage | citrine-daemon/citrine_daemon/package/repo.py:29-33 | searching loads the index as `_get_index` does, and fails exactly when loading fails |
| PackageRepo.IndexLookup | citrine-daemon/citrine_daemon/package/repo.py:36-40 | a known name gives its `(url, hash)`; an unknown name raises `PackageInstallError` naming it |
| PackageRepo.LaterLineOverrides | hivemind-daemon/hivemind_daemon/package/repo.py:16-18 | of two rows for the same name, the later one's url and hash win |
| PackageRepo.LookupFindsLastLine | hivemind-daemon/hivemind_daemon/package/repo.py:21-28 | after a well-formed pull, lookup gives the last row for the name, or raises when it has none |
| PackageRepo.FailedPullNotRetried | citrine-daemon/citrine_daemon/package/repo.py:21-40 | after a failed pull the index stays `{}`, so later lookups say "Could not find package" without pulling again |
| PackageRepo.LookupIgnoresLaterFetch | hivemind-daemon/hivemind_daemon/package/repo.py:23-25 | once loaded, what the network would return no longer matters |
| Interfaces.FileLines | hivemind-ui/hivemind_ui/interface_pkg/interface_pkg.py:213-214 | the lines read from a file contain no `\n`; joined back with `\n` (plus the final one, if the file ends with it) they are the file; an empty file has no lines |
| IndexRows.FetchedLines | citrine-ui/citrine_ui/interface_pkg/interface_pkg.py:228 | a downloaded index has at least one line, no line holds a newline, and the lines joined with newlines are the stripped text |
| Interfaces.BuildGroupedIndex | citrine-ui/citrine_ui/interface_pkg/interface_pkg.py:232-237 | the package-interface index is built in full iff every line has exactly two `|`-separated fields |
| Interfaces.BuildSingleIndex | hivemind-ui/hivemind_ui/interface_pkg/interface_pkg.py:216-219 | one entry per package; built in full iff every line has exactly two `|`-separated fields |
| Interfaces.WantedGrouped | citrine-ui/citrine_ui/interface_pkg/interface_pkg.py:168-176 | the first installed package's interfaces come first; nothing is wanted iff no installed package lists an interface |
| Interfaces.AvailablePairs | citrine-ui/citrine_ui/interface_pkg/interface_pkg.py:155-165 | every available pair names an installed package and one of the interfaces the index lists for that same package |
| Interfaces.AvailablePairsComplete | citrine-ui/citrine_ui/interface_pkg/interface_pkg.py:159-164 | conversely, every interface an installed package lists appears paired with that package |
| Interfaces.ViewRoot | citrine-ui/citrine_ui/interface_pkg/interface_pkg.py:89-92 | a view's root starts, as text, with the interface directory's path: the split segments are never absolute, so `os.path.join` never restarts; `..` segments are not resolved, so the path may still point outside the directory |
| Interfaces.GetPage | citrine-ui/citrine_ui/interface_pkg/interface_pkg.py:114-115 | a relative page lies under the view's root and ends with the page name |
| Interfaces.BuildInterfaceIndex | citrine-ui/citrine_ui/interface_pkg/interface_pkg.py:254-257 | the interface index has one entry per name |
| Interfaces.GroupedIndex | citrine-ui/citrine_ui/interface_pkg/interface_pkg.py:220-239 | fetched only while unset; a failed download raises and leaves it unset |
| Interfaces.DownloadedInterfaceIndex | citrine-ui/citrine_ui/interface_pkg/interface_pkg.py:242-259 | fetched only while unset; a failed download raises and leaves it unset |
| Interfaces.SingleIndex | hivemind-ui/hivemind_ui/interface_pkg/interface_pkg.py:203-221 | read only while unset; a failed read raises and leaves it unset |
| Interfaces.FileInterfaceIndex | hivemind-ui/hivemind_ui/interface_pkg/interface_pkg.py:224-242 | read only while unset; a failed read raises and leaves it unset |
| Interfaces.GroupedIndexLists | citrine-ui/citrine_ui/interface_pkg/interface_pkg.py:232-237 | with well-formed lines, a package lists exactly its lines' interfaces, in line order |
| Interfaces.SingleIndexLastWins | hivemind-ui/hivemind_ui/interface_pkg/interface_pkg.py:216-219 | a package maps to the interface of its last line |
| Interfaces.InterfaceIndexLastWins | hivemind-ui/hivemind_ui/interface/interface.py:224-227 | an interface maps to the `(url, hash)` of its last line |
| Interfaces.WantedGroupedIff | citrine-ui/citrine_ui/interface_pkg/interface_pkg.py:168-176 | an interface is wanted iff some installed package lists it in the index |
| Interfaces.AvailableMatchesWanted | citrine-ui/citrine_ui/interface_pkg/interface_pkg.py:155-165 | the available `(package, interface)` pairs carry exactly the wanted interfaces, in the same order |
| Interfaces.WantedSingle | hivemind-ui/hivemind_ui/interface/interface.py:165-173 | never more wanted interfaces than installed packages |
| Interfaces.WantedSingleIff | hivemind-ui/hivemind_ui/interface_pkg/interface_pkg.py:178-186 | an interface is wanted iff it is the index entry of some installed package |
| Interfaces.WantedSingleAllIndexed | hivemind-ui/hivemind_ui/interface/interface.py:165-173 | with every package indexed, the i-th wanted interface is the i-th package's entry |
| Interfaces.ChooseSource | citrine-ui/citrine_ui/interface_pkg/interface_pkg.py:134-137 | a URL starting with `/` is used as a local path; any other is downloaded with its hash |
| Interfaces.InstallSource | citrine-ui/citrine_ui/interface_pkg/interface_pkg.py:132-138 | installing an interface missing from the index raises `KeyError`; otherwise the source is chosen from its entry |
| Interfaces.SyncPlan | hivemind-ui/hivemind_ui/interface_pkg/interface_pkg.py:123-130 | synchronising installs the source of each wanted interface in order; it stops with `KeyError` at the first wanted interface missing from the index, after installing every one before it, and otherwise installs one source per wanted interface |
| Interfaces.SyncPlanOkIff | hivemind-ui/hivemind_ui/interface/interface.py:124-131 | synchronising runs to the end without an error iff every wanted interface is in the index |
| Interfaces.LoadViews | citrine-ui/citrine_ui/interface_pkg/interface_pkg.py:87-94 | one view per metadata entry, in order, with its name and page |
| Interfaces.ViewPaths | hivemind-ui/hivemind_ui/interface_pkg/interface_pkg.py:84-111 | for plain segments, a view's root is the interface directory, `/` and the root; the page adds `/` and the page name |
| Interfaces.AbsolutePageIgnoresRoot | citrine-ui/citrine_ui/interface_pkg/interface_pkg.py:114-115 | a page written as an absolute path ignores the root |
| InstallSpec.InstallCommand | citrine-daemon/citrine_daemon/server/api/package.py:32-50 | picks localfile, then url with hash, then name, else nothing; the chosen kwargs carry the spec's fields and `activate` unchanged |
| InstallSpec.UrlWithoutHashFallsThrough | citrine-daemon/citrine_daemon/server/util.py:137-149 | a url without a hash never selects the URL installer: it falls through to name, or to nothing |
| InstallSpec.ChooseSchema | citrine-daemon/citrine_daemon/server/api/package.py:67-93 | the schema is chosen by the first of localfile, url, name the document mentions (a key of an object, a substring of a string, an element of an array); with none, `ValidationError`; a number, boolean or `null` raises `TypeError` |
| InstallSpec.Document | citrine-daemon/citrine_daemon/server/api/package.py:53-66 | a form without `specfile` is `InvalidInput`; a body or specfile that is not JSON is `ValidationError`; otherwise the decoded value |
| InstallSpec.PackageInstallSpec | citrine-daemon/citrine_daemon/server/api/package.py:53-96 | the result is the decoded document exactly when it is an object fitting the schema its own fields select; a decoding error is passed on; a non-iterable document, or a string or array that selects a schema, fails with an exception that is not the daemon's own; any other refusal is `ValidationError` |
| InstallSpec.NonObjectMentioningFieldCrashes | citrine-daemon/citrine_daemon/server/api/package.py:67-96 | `"xnamex"`, `["url"]` and `null` crash the endpoint; `""` is refused with `ValidationError` |
| InstallSpec.ValidatedSpecHasCommand | citrine-daemon/citrine_daemon/server/api/package.py:104-107 | a spec that passed validation always selects an installer, so the `InternalError` branch is unreachable |
| InstallSpec.ValidatedSpecIsExclusive | citrine-daemon/citrine_daemon/server/util.py:99-127 | a validated spec has only the fields of its schema: localfile excludes url and name, and url excludes name |
| InstallSpec.QueueInstall | citrine-daemon/citrine_daemon/server/api/package.py:116-120 | a queued install always has `activate` true; a failed spec is the error raised |
| InstallSpec.FetchAndInstallAgree | citrine-daemon/citrine_daemon/server/api/package.py:99-120 | fetch and install accept the same requests and queue the same command |
| InstallSpec.PackageInstallParams | hivemind-client/hivemind_client/api/util.py:10-34 | priority is name > specfile > localfile > url+hash, each giving its payload (`{url, hash}` for the last); a missing specfile raises `FileNotFound`; `InvalidOptions` iff none applies |
| InstallSpec.ClientPayloadAccepted | hivemind-client/hivemind_client/api/util.py:17-28 | every JSON payload the client builds passes the daemon's validation unchanged and selects the installer matching the client's choice |
| AioRoutes.AddRoute | citrine-daemon/citrine_daemon/server/api/aio_server.py:84-91 | a disallowed method fails; async adds one sync-wrapped and one async-wrapped route; otherwise only the plain handler is added |
| AioRoutes.AddSubmodule | citrine-daemon/citrine_daemon/server/api/aio_server.py:67-68 | appends `(prefix, submodule)` and nothing else |
| AioRoutes.Local | citrine-daemon/citrine_daemon/server/api/aio_server.py:70-80 | sync routes bind at prefix+path and async routes at `/async`+prefix+path |
| AioRoutes.BindLeaf | citrine-daemon/citrine_daemon/server/api/aio_server.py:70-82 | a server without submodules binds exactly its own routes |
| AioRoutes.AddSubmoduleBind | citrine-daemon/citrine_daemon/server/api/aio_server.py:67-82 | adding a submodule appends its routes, bound under prefix+sub_prefix, after the existing ones |
| AioRoutes.SubmodulesAppend | citrine-daemon/citrine_daemon/server/api/aio_server.py:81-82 | submodules are bound in insertion order |
| AioRoutes.NestedRoutePaths | citrine-daemon/citrine_daemon/server/api/aio_server.py:70-82 | a nested route's path is prefix+sub_prefix+path, with `/async` in front for its async twin |
| AioRoutes.AsyncRouteRegisteredTwice | citrine-daemon/citrine_daemon/server/api/aio_server.py:87-89 | an async route binds at exactly two paths, one sync and one under `/async` |
| AioRoutes.UnguardedRoute | citrine-daemon/citrine_daemon/server/api/aio_server.py:86-91 | with `handle_errors=False` the handler is not wrapped by `error_handler` |
| AioRoutes.SameSubmodulesBind | citrine-daemon/citrine_daemon/server/api/aio_server.py:81-82 | the submodule routes depend on the submodules only |
| AioRoutes.Raising | citrine-daemon/citrine_daemon/server/api/aio_server.py:14-27 | a daemon error raised by an endpoint or its job reaches `error_handler` as a `CitrineException` with its dict and status code; any other exception as an unexpected one |
| AioRoutes.Rethrow | citrine-daemon/citrine_daemon/server/api/aio_server.py:24-26 | an exception `error_handler` does not catch reaches the server as raised |
| AioRoutes.Serve | citrine-daemon/citrine_daemon/server/api/aio_server.py:14-50 | a handler behind `error_handler` never raises a `CitrineException`; only a sync-wrapped route can wait forever (a plain function and `wrap_async` always finish); the lemmas below state the rest |
| AioRoutes.GuardAnswersDaemonErrors | citrine-daemon/citrine_daemon/server/api/aio_server.py:14-27 | behind `error_handler` no `CitrineException` escapes: it becomes a response with its dict and status code, and every other outcome, waiting forever included, is unchanged |
| AioRoutes.WrappedRaisesWhatJobRaises | citrine-daemon/citrine_daemon/server/api/aio_server.py:30-50 | without `error_handler` a wrapped route raises exactly what its function or its job raises, a `CitrineException` included; with it none escapes |
| AioRoutes.UnguardedAsyncRouteLetsDaemonErrorsOut | citrine-daemon/citrine_daemon/server/api/aio_server.py:40-50 | a route added with `async_=True, handle_errors=False` whose job fails with a `CitrineException` raises it to the server |
| AioRoutes.SyncRouteNeverAnswersNone | citrine-daemon/citrine_daemon/server/api/aio_server.py:40-50 | a finished job is answered with status 200 and a body that is never `None`: `None` becomes `{'status': 'OK'}`, any other result is sent as it is |
| AioRoutes.SyncRouteHangsOnStalledJob | citrine-daemon/citrine_daemon/server/api/aio_server.py:43 | a sync route never answers iff its job was interrupted before a worker ran it, so its completion is never signalled |
| AioRoutes.AsyncRouteAnswersHandle | citrine-daemon/citrine_daemon/server/api/aio_server.py:30-37 | the async twin answers with the job handle and status 200 whenever the function returned one |
| AioRoutes.GuardedRouteAnswersDaemonErrors | citrine-daemon/citrine_daemon/server/api/aio_server.py:84-91 | a route added with `handle_errors` is bound at prefix+path and lets no `CitrineException` escape; a plain route answers one with its dict and status code |
| InstallPlan.PrepCopy | hivemind-daemon/hivemind_daemon/storage/package.py:13-28 | package.json first, then the module file as `module.py`, then one `{name}.{type}` per model; 2 + models pairs |
| InstallPlan.CheckPaths | hivemind-daemon/hivemind_daemon/storage/package.py:31-34 | passes iff every source is a file; otherwise raises naming the first missing one |
| InstallPlan.InstallFromTemp | hivemind-daemon/hivemind_daemon/storage/package.py:37-49 | nothing is created or copied unless package.json exists and every source passes; then one directory, then the copies in plan order |
| InstallPlan.CopiedFilesWereChecked | hivemind-daemon/hivemind_daemon/storage/package.py:44-49 | the directory is made first, and every file copied was checked to exist |
| InstallPlan.DestinationsInInstallDir | hivemind-daemon/hivemind_daemon/storage/package.py:15-25 | each destination is the install directory, `/`, and the file's own name |
| InstallPlan.ModelFileNamesDistinct | hivemind-daemon/hivemind_daemon/storage/package.py:25 | different model names without dots give different file names |
| InstallPlan.ModelNamedModuleCollides | hivemind-daemon/hivemind_daemon/storage/package.py:20-25 | a model `module` of type `py` is planned onto the module file's destination |
| Registry.ModelOrName | hivemind-daemon/hivemind_daemon/core/functions.py:51-52 | the model defaults to the function's name |
| Registry.CreateFunction | hivemind-daemon/hivemind_daemon/core/functions.py:38-77 | fails iff the validator schema is bad; otherwise the package has an entry and other packages are untouched |
| Registry.CreateFunctionStores | hivemind-daemon/hivemind_daemon/core/functions.py:72-75 | the first registration of a name in a package wins; later ones are ignored; other names are kept |
| Registry.CreateFunctionFiled | hivemind-daemon/hivemind_daemon/core/functions.py:62-75 | every stored function sits under its own name and package |
| Registry.GetActiveFunction | hivemind-daemon/hivemind_daemon/core/functions.py:80-89 | `MissingFunction` when the package has no entry, or when it lacks the name; otherwise the stored function |
| Registry.RegisteredFunctionFound | hivemind-daemon/hivemind_daemon/core/functions.py:72-89 | in any registry, a registered function is found under its package and name: the new one with its model, or the one the package registered first under that name |
| Registry.ListActiveFunctionNames | hivemind-daemon/hivemind_daemon/core/functions.py:92-98 | `[]` for an unknown package, else the stored functions' names in order |
| Registry.ListedNamesAreKeys | hivemind-daemon/hivemind_daemon/core/functions.py:92-98 | the listed names are exactly the package's registered names |
| Registry.ClearFunctions | hivemind-daemon/hivemind_daemon/core/functions.py:101-104 | removes only that package's entry |
| Registry.ClearAbsentIsNoOp | hivemind-daemon/hivemind_daemon/core/functions.py:102-103 | clearing an absent package changes nothing |
| Registry.CreateEndpoint | hivemind-daemon/hivemind_daemon/core.py:76-106 | fails iff the validator schema is bad; otherwise appends a candidate to the name's list, in registration order, with the model defaulting to the name |
| Registry.FirstActive | hivemind-daemon/hivemind_daemon/core.py:112-115 | the first candidate, in registration order, whose package is active; none iff no package is |
| Registry.FirstActiveAppend | hivemind-daemon/hivemind_daemon/core.py:112-115 | candidates appended later are consulted only when no earlier candidate is active |
| Registry.GetActiveEndpoint | hivemind-daemon/hivemind_daemon/core.py:109-116 | an unknown name raises `MissingEndpoint`; with no active candidate it raises the "disabled" `MissingEndpoint`; otherwise the first active candidate |
| Registry.EarlierActiveCandidateWins | hivemind-daemon/hivemind_daemon/core.py:97-116 | in any registry, an active earlier candidate keeps answering; of two new registrations, the earlier answers while its package is active and the later once it is disabled |
| UiConfig.TypeOf | hivemind-ui/hivemind_ui/config.py:39-49 | exactly the nine known keys have a type |
| UiConfig.DefaultConfigWellTyped | hivemind-ui/hivemind_ui/config.py:26-36 | the defaults give every known key, in table order, a value of its type |
| UiConfig.Coerce | hivemind-ui/hivemind_ui/config.py:100-104 | the coerced value has the key's type; strings pass through; bools are false only for `0`, `False` and `false`; ints fail iff `int()` does |
| UiConfig.Set | hivemind-ui/hivemind_ui/config.py:97-107 | an unknown key raises; a failed coercion raises naming the value and type; success stores the coerced value for that key only |
| UiConfig.Get | hivemind-ui/hivemind_ui/config.py:110-111 | an absent key gives `None` |
| UiConfig.SetKeepsTypes | hivemind-ui/hivemind_ui/config.py:97-107 | a successful `set` keeps every stored value of its key's type |
| UiConfig.HidpiCoercion | hivemind-ui/hivemind_ui/config.py:87-90 | `0` turns the hidpi flag off; `no` turns it on |
| UiConfig.NonNumericPortRefused | hivemind-ui/hivemind_ui/config.py:103-106 | a port that is not a number is refused |
| UiConfig.TransientSet | hivemind-ui/hivemind_ui/config.py:123-124 | sets one key and leaves every other key unchanged |
| UiConfig.TransientGet | hivemind-ui/hivemind_ui/config.py:127-128 | an absent key gives `None` |
| UiConfig.TransientSetGet | hivemind-ui/hivemind_ui/config.py:122-128 | set then get returns the stored value |
| QtXml.ArgKeyInjective | hivemind-ui/hivemind_ui/qt_util/qt_xml.py:116 | `'arg' + str(i)` names different indices differently |
| QtXml.CollectSpec | hivemind-ui/hivemind_ui/qt_util/qt_xml.py:113-116 | collection takes the consecutive keys in order and stops at the first missing index; collected keys are removed and all others are untouched |
| QtXml.GetPositional | hivemind-ui/hivemind_ui/qt_util/qt_xml.py:109-117 | collects `arg0, arg1, ...` in order up to the first missing index, popping exactly those keys |
| QtXml.GapStopsCollection | hivemind-ui/hivemind_ui/qt_util/qt_xml.py:113-116 | with `arg1` missing, only `arg0` is collected and `arg2` stays among the attributes |
| QtXml.Filter | hivemind-ui/hivemind_ui/qt_util/qt_xml.py:74-75 | keeps exactly the attributes whose key satisfies the test, with their values |
| QtXml.Partition | hivemind-ui/hivemind_ui/qt_util/qt_xml.py:72-77 | the positional group is what `_get_positional` collects |
| QtXml.PartitionExact | hivemind-ui/hivemind_ui/qt_util/qt_xml.py:72-77 | every attribute lands in exactly one group: positional, `name`/`stretch`, `set*` setters, or constructor keyword |
| QtXml.PositionalNotKeyword | hivemind-ui/hivemind_ui/qt_util/qt_xml.py:73-77 | a collected positional argument is never also passed as a keyword |
| QtXml.GetValue | hivemind-ui/hivemind_ui/qt_util/qt_xml.py:120-137 | `$(...)` is evaluated and `@x` is a Qt constant; otherwise, in order: `True`/`False` to booleans, integer text to an int, float text, or else the raw text, each as one argument |
| QtXml.IntegerTextRoundTrip | hivemind-ui/hivemind_ui/qt_util/qt_xml.py:129-130 | the text of any integer reads back as that integer |
| QtXml.PlainTextPassesThrough | hivemind-ui/hivemind_ui/qt_util/qt_xml.py:120-137 | a value is passed through unchanged as text iff it is not `$(...)`, has no leading `@`, is not `True`/`False`, and `int()` and `float()` both reject it |
| QtXml.LetterTextPassesThrough | hivemind-ui/hivemind_ui/qt_util/qt_xml.py:123-137 | a word that starts with a letter and is not `True`/`False` is passed through iff `float()` rejects it |

## Left out

- The DOM calls in `client.js` are not modelled: `getContext`, `drawImage`, the `getImageData` call itself, and the canvas height and width set at lines 187-188. `getImageData` is modelled only by its result, the source's pixel buffer, and by the `IndexSizeError` it throws for a zero width or height (`ImageCodec.Encode`). Neither are the WebSocket transport, `JSON.stringify`/`JSON.parse`, or the global singletons. The model covers the byte and character sequences and the router state.
- BridgeRouter: console logging of failure replies is not modelled.
- The float branches are parameters, because there is no floating point in the model: `float()` in `cli_io.py` and `qt_xml.py` is a predicate `isFloat` on text.
- CliIo.ParseValue: loading of `@np`, `@img`, `@json` and `@` files is a parameter (`Loaders`). The contract states only the int, raw-text and "only `@` can fail" cases.
- `run_output` in `cli_io.py` writes files, so it is not modelled.
- CliIo.Insert: its own contract states only that the path's first key is present afterwards. The stored value and the frame are stated by CliIo.InsertThenLookup and CliIo.InsertKeepsOtherPaths.
- CliIo.ParseCliInputs: its own contract states only the missing-`=` error. The nested layout is stated by CliIo.InsertThenLookup, CliIo.LaterArgumentWins and CliIo.TransformItemsAt.
- DaemonConfig.Merge: Python iterates a `set` of keys in hash order. The model puts the base's keys first, then the merge side's, so dict key order is not modelled; key sets and values are.
- The YAML file read and the first-run write in `init_config` (config.py lines 50-65) are not modelled; the user file's content is a parameter.
- Jobs: threads, locks, the worker queue, the asyncio event, `stopit.async_raise` and the wall clock are not modelled. The job's function is an `Outcome` parameter, and time is an integer parameter. An interrupt during a run is modelled as the two halves of `run` with `interrupt` between them.
- Jobs: `result()` awaits the event, so it is not modelled.
- TensorValidator: cerberus's schema engine is written out only for `tensor_schema`. `decode_tensor` and the write-back into the document (validator.py lines 90-93) are not modelled.
- ModelCall: `get_active_function` is a parameter. `nn.assert_like_input`, the model lookup and `nn.run_model` together are one parameter that returns the outputs or what was raised. `call_raw` only chains database and model calls, so it is not modelled.
- ModelCall.Call: its contract states only the validation error. The hook cases are stated by ModelCall.DictInputNoContext, ModelCall.ContextReachesOutput, ModelCall.BadShapeIsFormatError and ModelCall.InputHookErrors.
- Truncate: what an object's `__str__`/`__repr__` does is an `Attempt` parameter. `id(None)` is a parameter.
- PackageRepo.Matching: its own contract states only a bound. Its meaning is PackageRepo.MatchingIff.
- Interfaces.WantedSingle: its own contract states only a bound. Its meaning is Interfaces.WantedSingleIff and Interfaces.WantedSingleAllIndexed.
- Interfaces.GroupedIndex: its contract states caching and the failed download only. The content built from a download is stated by Interfaces.GroupedIndexLists.
- Interfaces.DownloadedInterfaceIndex: its contract states caching and the failed download only. The content is stated by Interfaces.InterfaceIndexLastWins.
- Interfaces.SingleIndex: its contract states caching and the failed read only. The content is stated by Interfaces.SingleIndexLastWins.
- Interfaces.FileInterfaceIndex: its contract states caching and the failed read only. The content is stated by Interfaces.InterfaceIndexLastWins.
- Interfaces: `init_interfaces`, `remove_interface`, `list_interfaces`, `_install_from_zip`, `install_from_temp` and the `get_interface` download are file-system and archive work, so they are not modelled. Neither is the metadata file's cerberus validation. The downloads and file reads are parameters.
- The `requests.get` calls and the daemon client's `package.list()` are parameters.
- InstallSpec: JSON decoding, multipart form reading and `run_async` are parameters. Cerberus validation is written out for the three install schemas only.
- InstallSpec.PackageInstallSpec: the error messages of the schema's own validation failures are not modelled; the error kind is.
- AioRoutes: aiohttp's `web.Application`, the handlers' bodies, logging, and the JSON encoding of response bodies are not modelled. What an endpoint function answers or raises is a parameter.
- AioRoutes.SyncRouteNeverAnswersNone: a daemon error whose dict is `None` would still be answered with that body. Only a job that finished with a result is promised a body that is not `None`.
- InstallPlan: a missing `module`, `model`, `file` or `type` key in the metadata would raise `KeyError`; the metadata is a typed record instead. `shutil` and `os.makedirs` failures are not modelled.
- Registry: `get_loading_package`, `from_name_latest`, `from_id` and the cerberus schema check of `input_validator` are parameters. The package id is given and "active" is a predicate. Logging is not modelled.
- UiConfig: `load_config`/`write_config` file persistence and the platform's storage path are not modelled; the path is a parameter.
- QtXml.Partition: the source collects setters from `set(attrib.keys())`, so it visits them in hash order. The model keeps document order, so the order in which setters are called is not modelled.
- Interfaces.FileLines: `readlines()` in text mode also ends a line at a lone `\r` (universal newlines), which the model does not split on. It keeps each line's terminator, which the model drops; every caller strips each line, so the result is the same.
- Text.IsSpace, Text.Lower and PyInt.Parse are ASCII only. Python's `strip()`, `lower()` and `int()` also handle non-ASCII whitespace, letters and decimal digits. This affects PackageRepo.MatchingIff (case-insensitive search), index line stripping in IndexRows, UiConfig's integer coercion, CliIo.ParseValue and QtXml.GetValue on non-ASCII text.
- QtXml: `eval` of `$(...)` is kept as the expression text, and the Qt constant table as the constant's name. Widget construction, `_fmt_node`, and the recursion over child elements are not modelled.

## Findings

| source | as written | input that shows it | evidently intended | confidence | as-written member | corrected member |
|---|---|---|---|---|---|---|
| hivemind-ui/hivemind_ui/js_bridge/client.js:190 | `createImageData(tensor.shape[0], tensor.shape[1])` passes the height as the width and the width as the height; shape is `[height, width, c]`, and lines 187-188 size the canvas the right way round | a 2-wide, 1-high image encoded with alpha has shape `[1, 2, 4]` and decodes to a 1-wide, 2-high image holding the same bytes; the same holds for every non-square image | `createImageData(tensor.shape[1], tensor.shape[0])`, so that decoding an encoding gives the original image back | high (not executed) | ImageCodec.DecodeAsWritten, ImageCodec.DecodeAsWrittenTransposes | ImageCodec.Decode, ImageCodec.RoundTripAlpha |

=== FILE: aio_routes.dfy ===
/**
 * The daemon's route tables (`AioServer`): each server keeps its routes, the asynchronous twins
 * of those routes, and its submodules with their prefixes; binding a server to the application
 * registers every route under the accumulated prefix, the twins under `/async` in front of it,
 * then binds each submodule with its own prefix appended.
 *
 * Handlers are named by the endpoint function they wrap. `Serve` says what a registered handler
 * does with one request, given what the endpoint functions do. `error_handler` (the same in this
 * module as in the server utilities) is `InstallSpec.ErrorHandler`, and the `None` rule of the
 * module's own `wrap_sync` is `InstallSpec.SyncBody`; its `wrap_sync` and `wrap_async` catch
 * nothing.
 */
module AioRoutes {
  import opened Wrappers
  import opened PyValue
  import opened InstallSpec

  /** The HTTP method helpers the route table accepts, and anything else passed in their place. */
  datatype Method = Head | Options | Get | Post | Put | Patch | Delete | View | Unknown(name: string)

  predicate Allowed(m: Method)
  {
    !m.Unknown?
  }

  /** A request handler, as the wrappers built around an endpoint function. */
  datatype Handler =
    | Endpoint(fn: string)        // the function itself
    | SyncWrapped(fn: string)     // `wrap_sync(fn)`: waits for the job and answers with its result
    | AsyncWrapped(fn: string)    // `wrap_async(fn)`: answers with the job handle
    | ErrorHandled(inner: Handler)

  datatype Route = Route(verb: Method, path: string, handler: Handler)

  datatype Server = Server(routes: seq<Route>, asyncRoutes: seq<Route>, submodules: seq<(string, Server)>)

  const Empty := Server([], [], [])

  /** `maybe_err_handler`. */
  function Guard(h: Handler, handleErrors: bool): Handler
  {
    if handleErrors then ErrorHandled(h) else h
  }

  /** The failed `assert method in [...]`. */
  datatype RouteError = MethodNotAllowed(verb: Method)

  /** `route(method, path, fn, async_, handle_errors)`. */
  function AddRoute(s: Server, m: Method, path: string, fn: string, async_: bool, handleErrors: bool): (r: Result<Server, RouteError>)
    ensures r.Err? <==> !Allowed(m)
    ensures r.Ok? ==> r.value.submodules == s.submodules
    ensures r.Ok? && async_ ==>
      && r.value.routes == s.routes + [Route(m, path, Guard(SyncWrapped(fn), handleErrors))]
      && r.value.asyncRoutes == s.asyncRoutes + [Route(m, path, Guard(AsyncWrapped(fn), handleErrors))]
    ensures r.Ok? && !async_ ==>
      && r.value.routes == s.routes + [Route(m, path, Guard(Endpoint(fn), handleErrors))]
      && r.value.asyncRoutes == s.asyncRoutes
  {
    if !Allowed(m) then Err(MethodNotAllowed(m))
    else if async_ then
      Ok(s.(routes := s.routes + [Route(m, path, Guard(SyncWrapped(fn), handleErrors))],
            asyncRoutes := s.asyncRoutes + [Route(m, path, Guard(AsyncWrapped(fn), handleErrors))]))
    else Ok(s.(routes := s.routes + [Route(m, path, Guard(Endpoint(fn), handleErrors))]))
  }

  /** `add_submodule(prefix, submodule)`. */
  function AddSubmodule(s: Server, prefix: string, sub: Server): (r: Server)
    ensures r.routes == s.routes && r.asyncRoutes == s.asyncRoutes
    ensures r.submodules == s.submodules + [(prefix, sub)]
  {
    s.(submodules := s.submodules + [(prefix, sub)])
  }

  /** The server's own routes under `prefix`: the routes, then their twins under `/async`. */
  function Local(s: Server, prefix: string): (r: seq<Route>)
    ensures |r| == |s.routes| + |s.asyncRoutes|
    ensures forall i :: 0 <= i < |s.routes| ==>
      r[i] == Route(s.routes[i].verb, prefix + s.routes[i].path, s.routes[i].handler)
    ensures forall i :: 0 <= i < |s.asyncRoutes| ==>
      r[|s.routes| + i] == Route(s.asyncRoutes[i].verb, "/async" + prefix + s.asyncRoutes[i].path, s.asyncRoutes[i].handler)
  {
    seq(|s.routes|, i requires 0 <= i < |s.routes| =>
      Route(s.routes[i].verb, prefix + s.routes[i].path, s.routes[i].handler))
    + seq(|s.asyncRoutes|, i requires 0 <= i < |s.asyncRoutes| =>
      Route(s.asyncRoutes[i].verb, "/async" + prefix + s.asyncRoutes[i].path, s.asyncRoutes[i].handler))
  }

  /** `bind(app, prefix)`: the routes registered, in registration order. */
  function Bind(s: Server, prefix: string): seq<Route>
    decreases s, 1
  {
    Local(s, prefix) + BindSubmodules(s, prefix, 0)
  }

  function BindSubmodules(s: Server, prefix: string, i: nat): seq<Route>
    requires i <= |s.submodules|
    decreases s, 0, |s.submodules| - i
  {
    if i == |s.submodules| then []
    else
      var (subPrefix, sub) := s.submodules[i];
      assert sub < s by { assert s.submodules[i] < s; }
      Bind(sub, prefix + subPrefix) + BindSubmodules(s, prefix, i + 1)
  }

  /** A server without submodules registers exactly its own routes. */
  lemma BindLeaf(s: Server, prefix: string)
    requires s.submodules == []
    ensures Bind(s, prefix) == Local(s, prefix)
  {
  }

  /**
   * Submodules are bound in the order they were added, each under the parent's prefix followed
   * by its own.
   */
  lemma AddSubmoduleBind(s: Server, subPrefix: string, sub: Server, prefix: string)
    ensures Bind(AddSubmodule(s, subPrefix, sub), prefix) == Bind(s, prefix) + Bind(sub, prefix + subPrefix)
  {
    var t := AddSubmodule(s, subPrefix, sub);
    assert Local(t, prefix) == Local(s, prefix);
    SubmodulesAppend(s, subPrefix, sub, prefix, 0);
  }

  lemma {:induction false} SubmodulesAppend(s: Server, subPrefix: string, sub: Server, prefix: string, i: nat)
    requires i <= |s.submodules|
    ensures BindSubmodules(AddSubmodule(s, subPrefix, sub), prefix, i) ==
      BindSubmodules(s, prefix, i) + Bind(sub, prefix + subPrefix)
    decreases |s.submodules| - i
  {
    var t := AddSubmodule(s, subPrefix, sub);
    if i == |s.submodules| {
      assert t.submodules[i] == (subPrefix, sub);
      assert BindSubmodules(t, prefix, i + 1) == [];
      assert Bind(sub, prefix + subPrefix) + [] == Bind(sub, prefix + subPrefix);
    } else {
      SubmodulesAppend(s, subPrefix, sub, prefix, i + 1);
      assert t.submodules[i] == s.submodules[i];
    }
  }

  /**
   * A route of a submodule is registered at the parent's prefix, the submodule's prefix and its
   * own path, and its asynchronous twin at the same place under `/async`.
   */
  lemma NestedRoutePaths(route: Route, twin: Route, subPrefix: string, prefix: string)
    ensures var sub := Server([route], [twin], []);
      Bind(AddSubmodule(Empty, subPrefix, sub), prefix) == [
        Route(route.verb, prefix + subPrefix + route.path, route.handler),
        Route(twin.verb, "/async" + prefix + subPrefix + twin.path, twin.handler)]
  {
    var sub := Server([route], [twin], []);
    AddSubmoduleBind(Empty, subPrefix, sub, prefix);
    assert Bind(Empty, prefix) == [];
    assert prefix + subPrefix + route.path == prefix + (subPrefix + route.path);
    assert "/async" + (prefix + subPrefix) + twin.path == "/async" + prefix + subPrefix + twin.path;
  }

  /** Registering an asynchronous route adds one synchronous and one asynchronous registration. */
  lemma AsyncRouteRegisteredTwice(s: Server, m: Method, path: string, fn: string, handleErrors: bool, prefix: string)
    requires Allowed(m)
    ensures var t := AddRoute(s, m, path, fn, true, handleErrors).value;
      && |Bind(t, prefix)| == |Bind(s, prefix)| + 2
      && Route(m, prefix + path, Guard(SyncWrapped(fn), handleErrors)) in Bind(t, prefix)
      && Route(m, "/async" + prefix + path, Guard(AsyncWrapped(fn), handleErrors)) in Bind(t, prefix)
  {
    var t := AddRoute(s, m, path, fn, true, handleErrors).value;
    SameSubmodulesBind(s, t, prefix, 0);
    var r := Bind(t, prefix);
    assert r[|s.routes|] == Route(m, prefix + path, Guard(SyncWrapped(fn), handleErrors));
    assert r[|t.routes| + |s.asyncRoutes|] == Route(m, "/async" + prefix + path, Guard(AsyncWrapped(fn), handleErrors));
  }

  /** Two servers with the same submodules bind the same submodule routes. */
  lemma {:induction false} SameSubmodulesBind(s: Server, t: Server, prefix: string, i: nat)
    requires s.submodules == t.submodules && i <= |s.submodules|
    ensures BindSubmodules(s, prefix, i) == BindSubmodules(t, prefix, i)
    decreases |s.submodules| - i
  {
    if i < |s.submodules| {
      SameSubmodulesBind(s, t, prefix, i + 1);
    }
  }

  /** Without error handling the endpoint is registered bare. */
  lemma UnguardedRoute(s: Server, m: Method, path: string, fn: string)
    requires Allowed(m)
    ensures AddRoute(s, m, path, fn, false, false).value.routes[|s.routes|] == Route(m, path, Endpoint(fn))
  {
  }

  // ---------------------------------------------------------------------------------------------
  // Serving a request
  // ---------------------------------------------------------------------------------------------

  /** An exception raised by an endpoint function or by its job. */
  datatype Raised = Daemon(asDict: Value, statusCode: int) | Unexpected(text: string)

  function Raising(e: Raised): (o: HandlerOutcome)
    ensures !o.Responded?
    ensures e.Daemon? <==> o.RaisedCitrine?
    ensures e.Daemon? ==> o == RaisedCitrine(e.asDict, e.statusCode)
    ensures e.Unexpected? ==> o == RaisedOther(e.text)
  {
    match e
    case Daemon(d, code) => RaisedCitrine(d, code)
    case Unexpected(t) => RaisedOther(t)
  }

  /**
   * What the function of an asynchronous route does with a request: it raises, or it returns a
   * job handle. Awaiting a started job gives its result or raises; a job interrupted before a
   * worker took it never signals completion (`Jobs.InterruptedBeforeStartNeverRuns`), so
   * awaiting it never returns.
   */
  datatype JobStep =
    | NotStarted(raised: Raised)
    | Started(handle: Value, result: Result<Value, Raised>)
    | Stalled(handle: Value)

  /** What reaches the server: the handler's outcome, or nothing because it waits forever. */
  datatype Served = Finished(outcome: HandlerOutcome) | Hangs

  /** An exception that escapes `error_handler` reaches the server as it was raised. */
  function Rethrow(r: Result<Response, string>): (o: HandlerOutcome)
    ensures r.Ok? <==> o.Responded?
    ensures r.Ok? ==> o.response == r.value
    ensures r.Err? ==> o == RaisedOther(r.error)
  {
    match r
    case Ok(resp) => Responded(resp)
    case Err(t) => RaisedOther(t)
  }

  /**
   * What a registered handler does with one request. `plain` is what a route's bare function
   * answers or raises; `job` is what an asynchronous route's function does. The `wrap_sync` and
   * `wrap_async` that `route` uses catch nothing: only `error_handler` turns a daemon error into
   * a response.
   */
  function Serve(h: Handler, plain: string -> HandlerOutcome, job: string -> JobStep): (r: Served)
    ensures h.ErrorHandled? && r.Finished? ==> !r.outcome.RaisedCitrine?
    ensures r.Hangs? ==> !h.Endpoint? && !h.AsyncWrapped?
    decreases h
  {
    match h
    case Endpoint(fn) => Finished(plain(fn))
    case SyncWrapped(fn) =>
      (match job(fn)
       case NotStarted(e) => Finished(Raising(e))
       case Started(_, Err(e)) => Finished(Raising(e))
       case Started(_, Ok(v)) => Finished(Responded(Response(SyncBody(v), 200)))
       case Stalled(_) => Hangs)
    case AsyncWrapped(fn) =>
      (match job(fn)
       case NotStarted(e) => Finished(Raising(e))
       case Started(handle, _) => Finished(Responded(Response(handle, 200)))
       case Stalled(handle) => Finished(Responded(Response(handle, 200))))
    case ErrorHandled(inner) =>
      (match Serve(inner, plain, job)
       case Hangs => Hangs
       case Finished(o) => Finished(Rethrow(ErrorHandler(o))))
  }

  /**
   * Behind `error_handler` no daemon error reaches the server: it is answered with its dict and
   * status code, and every other outcome, waiting forever included, is the unguarded handler's.
   */
  lemma GuardAnswersDaemonErrors(h: Handler, plain: string -> HandlerOutcome, job: string -> JobStep)
    ensures var o, g := Serve(h, plain, job), Serve(Guard(h, true), plain, job);
      && (g.Hangs? <==> o.Hangs?)
      && (g.Finished? ==> !g.outcome.RaisedCitrine?)
      && (o.Finished? && o.outcome.RaisedCitrine? ==>
            g == Finished(Responded(Response(o.outcome.asDict, o.outcome.statusCode))))
      && (o.Finished? && !o.outcome.RaisedCitrine? ==> g == o)
  {
  }

  /**
   * Without `error_handler`, an asynchronous route raises exactly what its function or its job
   * raises, a daemon error included; with it, no daemon error escapes.
   */
  lemma WrappedRaisesWhatJobRaises(fn: string, plain: string -> HandlerOutcome, job: string -> JobStep)
    ensures job(fn).NotStarted? ==>
      && Serve(SyncWrapped(fn), plain, job) == Finished(Raising(job(fn).raised))
      && Serve(AsyncWrapped(fn), plain, job) == Finished(Raising(job(fn).raised))
    ensures job(fn).Started? && job(fn).result.Err? ==>
      Serve(SyncWrapped(fn), plain, job) == Finished(Raising(job(fn).result.error))
    ensures var s, a := Serve(Guard(SyncWrapped(fn), true), plain, job), Serve(Guard(AsyncWrapped(fn), true), plain, job);
      && (s.Finished? ==> !s.outcome.RaisedCitrine?)
      && (a.Finished? ==> !a.outcome.RaisedCitrine?)
  {
    GuardAnswersDaemonErrors(SyncWrapped(fn), plain, job);
    GuardAnswersDaemonErrors(AsyncWrapped(fn), plain, job);
  }

  /** A route added with `async_=True, handle_errors=False` lets a daemon error of its job through. */
  lemma UnguardedAsyncRouteLetsDaemonErrorsOut(s: Server, m: Method, path: string, fn: string, prefix: string,
                                               plain: string -> HandlerOutcome, job: string -> JobStep, d: Value, code: int)
    requires Allowed(m) && job(fn) == Started(VNone, Err(Daemon(d, code)))
    ensures var t := AddRoute(s, m, path, fn, true, false).value;
      var r := Bind(t, prefix)[|s.routes|];
      && r.path == prefix + path
      && Serve(r.handler, plain, job) == Finished(RaisedCitrine(d, code))
  {
    var t := AddRoute(s, m, path, fn, true, false).value;
    assert Bind(t, prefix)[|s.routes|] == Route(m, prefix + path, SyncWrapped(fn));
  }

  /**
   * A synchronous route answers a finished job with status 200 and its result, a `None` result as
   * `{'status': 'OK'}`: the client never receives `null`.
   */
  lemma SyncRouteNeverAnswersNone(fn: string, handleErrors: bool, plain: string -> HandlerOutcome, job: string -> JobStep)
    ensures var o := Serve(Guard(SyncWrapped(fn), handleErrors), plain, job);
      && (job(fn).Started? && job(fn).result.Ok? ==>
            o.Finished? && o.outcome.Responded? && !o.outcome.response.body.VNone? && o.outcome.response.status == 200)
      && (job(fn).Started? && job(fn).result == Ok(VNone) ==>
            o == Finished(Responded(Response(StrDict([("status", VStr("OK"))]), 200))))
      && (job(fn).Started? && job(fn).result.Ok? && !job(fn).result.value.VNone? ==>
            o == Finished(Responded(Response(job(fn).result.value, 200))))
  {
    GuardAnswersDaemonErrors(SyncWrapped(fn), plain, job);
  }

  /** A synchronous route whose job was interrupted before a worker took it never answers. */
  lemma SyncRouteHangsOnStalledJob(fn: string, handleErrors: bool, plain: string -> HandlerOutcome, job: string -> JobStep)
    ensures Serve(Guard(SyncWrapped(fn), handleErrors), plain, job).Hangs? <==> job(fn).Stalled?
  {
    GuardAnswersDaemonErrors(SyncWrapped(fn), plain, job);
  }

  /** The asynchronous twin answers with the job handle whenever the function returned one. */
  lemma AsyncRouteAnswersHandle(fn: string, handleErrors: bool, plain: string -> HandlerOutcome, job: string -> JobStep)
    requires !job(fn).NotStarted?
    ensures Serve(Guard(AsyncWrapped(fn), handleErrors), plain, job) == Finished(Responded(Response(job(fn).handle, 200)))
  {
    GuardAnswersDaemonErrors(AsyncWrapped(fn), plain, job);
  }

  /**
   * A route added with `handle_errors` and bound at `prefix` lets no daemon error through, and a
   * plain route answers one with that error's dict and status code.
   */
  lemma GuardedRouteAnswersDaemonErrors(s: Server, m: Method, path: string, fn: string, async_: bool, prefix: string,
                                        plain: string -> HandlerOutcome, job: string -> JobStep)
    requires Allowed(m)
    ensures var t := AddRoute(s, m, path, fn, async_, true).value;
      var r := Bind(t, prefix)[|s.routes|];
      && r.verb == m && r.path == prefix + path
      && (Serve(r.handler, plain, job).Finished? ==> !Serve(r.handler, plain, job).outcome.RaisedCitrine?)
      && (!async_ && plain(fn).RaisedCitrine? ==>
            Serve(r.handler, plain, job) == Finished(Responded(Response(plain(fn).asDict, plain(fn).statusCode))))
  {
    var t := AddRoute(s, m, path, fn, async_, true).value;
    var inner := if async_ then SyncWrapped(fn) else Endpoint(fn);
    assert Bind(t, prefix)[|s.routes|] == Route(m, prefix + path, Guard(inner, true));
    GuardAnswersDaemonErrors(inner, plain, job);
  }
}

=== FILE: bridge_router.dfy ===
/**
 * The request router of the browser bridge client (`HivemindClient` in
 * hivemind-ui/hivemind_ui/js_bridge/client.js).
 *
 * Every command is sent as an envelope `{cmd, params, id}` carrying a fresh id taken from a
 * counter that starts at 0, and the callback is remembered under that id. A reply that
 * reports success is handed to the callback remembered under the reply's id. The entry is
 * never removed: the cleanup deletes the string key `'id'`, which is never a key of the map,
 * so a resolved entry stays and a repeated reply reaches the same callback again. A reply
 * with an id that was never sent calls `undefined`, which throws.
 *
 * The WebSocket itself is left out: `sent` records what was handed to it and `delivered`
 * records the callback invocations in the order they happened.
 */
module BridgeRouter {
  import opened Wrappers
  import PyValue
  import PyInt
  import Text

  /** A JavaScript callback, identified by an opaque handle. */
  type Callback = nat

  datatype Envelope = Envelope(cmd: string, params: PyValue.Value, id: nat)

  /** A parsed reply: `jsn.success`, `jsn.id`, `jsn.results`. */
  datatype Reply = Reply(success: bool, id: int, results: PyValue.Value)

  datatype Router = Router(
    nextId: nat,
    pending: map<int, Callback>,
    sent: seq<Envelope>,
    delivered: seq<(Callback, PyValue.Value)>)

  datatype RouterError =
    | CallbackNotAFunction(id: int)   // `callback(resp)` with `callback === undefined`

  /** The state a freshly constructed client is in. */
  function Init(): (r: Router)
    ensures Valid(r) && r.pending == map[] && r.sent == [] && r.delivered == []
  {
    Router(0, map[], [], [])
  }

  /**
   * The router's invariant: the counter is the number of envelopes sent, the i-th envelope
   * carries id i, and the callbacks are kept under exactly the ids sent so far.
   */
  predicate Valid(r: Router)
  {
    && r.nextId == |r.sent|
    && (forall i :: 0 <= i < |r.sent| ==> r.sent[i].id == i)
    && (forall id :: id in r.pending ==> 0 <= id < r.nextId)
    && (forall i :: 0 <= i < r.nextId ==> i in r.pending)
  }

  /** `_run_cmd(cmd, params, callback)`. */
  function Send(r: Router, cmd: string, params: PyValue.Value, callback: Callback): (r': Router)
    ensures r'.nextId == r.nextId + 1
    ensures r'.sent == r.sent + [Envelope(cmd, params, r.nextId)]
    ensures r'.pending.Keys == r.pending.Keys + {r.nextId as int}
    ensures r'.pending[r.nextId] == callback
    ensures forall id :: id in r.pending && id != r.nextId ==> r'.pending[id] == r.pending[id]
    ensures r'.delivered == r.delivered
  {
    Router(r.nextId + 1, r.pending[r.nextId := callback], r.sent + [Envelope(cmd, params, r.nextId)], r.delivered)
  }

  /** Sending keeps the invariant. */
  lemma SendValid(r: Router, cmd: string, params: PyValue.Value, callback: Callback)
    requires Valid(r)
    ensures Valid(Send(r, cmd, params, callback))
  {
  }

  /** `_onmessage(event)` on an already parsed reply. */
  function Receive(r: Router, reply: Reply): (out: Result<Router, RouterError>)
    ensures !reply.success ==> out == Ok(r)
    ensures reply.success && reply.id !in r.pending ==> out == Err(CallbackNotAFunction(reply.id))
    ensures reply.success && reply.id in r.pending ==>
      out == Ok(r.(delivered := r.delivered + [(r.pending[reply.id], reply.results)]))
  {
    if !reply.success then Ok(r)
    else if reply.id !in r.pending then Err(CallbackNotAFunction(reply.id))
    else
      var callback := r.pending[reply.id];
      // `this._callbacks.delete('id')`: the key is the string "id", never an integer id
      Ok(r.(delivered := r.delivered + [(callback, reply.results)]))
  }

  /** Receiving never changes the counter, the envelopes sent or the pending map. */
  lemma ReceiveKeepsPending(r: Router, reply: Reply)
    requires Receive(r, reply).Ok?
    ensures var r' := Receive(r, reply).value;
      r'.nextId == r.nextId && r'.sent == r.sent && r'.pending == r.pending && Valid(r') == Valid(r)
  {
  }

  /** Sending one command after another, from `r`. */
  function SendAll(r: Router, cmds: seq<(string, PyValue.Value, Callback)>): Router
    decreases |cmds|
  {
    if |cmds| == 0 then r
    else SendAll(Send(r, cmds[0].0, cmds[0].1, cmds[0].2), cmds[1..])
  }

  /**
   * After any sequence of sends from a fresh client, the i-th envelope is the i-th command
   * with id i, and its callback is kept under id i.
   */
  lemma {:induction false} SendAllIds(r: Router, cmds: seq<(string, PyValue.Value, Callback)>)
    requires Valid(r)
    ensures var r' := SendAll(r, cmds);
      && Valid(r')
      && r'.nextId == r.nextId + |cmds|
      && r'.sent[..|r.sent|] == r.sent
      && (forall i :: 0 <= i < |cmds| ==>
            r'.sent[r.nextId + i] == Envelope(cmds[i].0, cmds[i].1, r.nextId + i)
            && r'.pending[r.nextId + i] == cmds[i].2)
      && (forall id :: id in r.pending ==> r'.pending[id] == r.pending[id])
      && r'.delivered == r.delivered
    decreases |cmds|
  {
    if |cmds| > 0 {
      var r1 := Send(r, cmds[0].0, cmds[0].1, cmds[0].2);
      SendValid(r, cmds[0].0, cmds[0].1, cmds[0].2);
      SendAllIds(r1, cmds[1..]);
      var r' := SendAll(r1, cmds[1..]);
      assert r'.sent[..|r.sent|] == r.sent by {
        assert r'.sent[..|r1.sent|] == r1.sent;
        assert r1.sent[..|r.sent|] == r.sent;
      }
      forall i | 0 <= i < |cmds|
        ensures r'.sent[r.nextId + i] == Envelope(cmds[i].0, cmds[i].1, r.nextId + i)
        ensures r'.pending[r.nextId + i] == cmds[i].2
      {
        if i == 0 {
          assert r1.sent[r.nextId] == Envelope(cmds[0].0, cmds[0].1, r.nextId);
          assert r'.sent[..|r1.sent|][r.nextId] == r1.sent[r.nextId];
        } else {
          assert cmds[1..][i - 1] == cmds[i];
        }
      }
    }
  }

  /** Ids handed out by a fresh client are 0, 1, 2, ... in send order, so never reused. */
  lemma FreshIdsInOrder(cmds: seq<(string, PyValue.Value, Callback)>)
    ensures var r := SendAll(Init(), cmds);
      && |r.sent| == |cmds|
      && (forall i :: 0 <= i < |cmds| ==> r.sent[i] == Envelope(cmds[i].0, cmds[i].1, i))
      && (forall i :: 0 <= i < |cmds| ==> i in r.pending && r.pending[i] == cmds[i].2)
      && (forall i, j :: 0 <= i < j < |r.sent| ==> r.sent[i].id < r.sent[j].id)
  {
    var r0 := Init();
    SendAllIds(r0, cmds);
    var r := SendAll(r0, cmds);
    assert Valid(r) && r.nextId == |cmds|;
    forall i | 0 <= i < |cmds|
      ensures r.sent[i] == Envelope(cmds[i].0, cmds[i].1, i)
      ensures i in r.pending && r.pending[i] == cmds[i].2
    {
      assert r.sent[r0.nextId + i] == Envelope(cmds[i].0, cmds[i].1, r0.nextId + i);
    }
  }

  /** Handing replies to the router one after another; the first error stops it. */
  function ReceiveAll(r: Router, replies: seq<Reply>): Result<Router, RouterError>
    decreases |replies|
  {
    if |replies| == 0 then Ok(r)
    else
      var r1 :- Receive(r, replies[0]);
      ReceiveAll(r1, replies[1..])
  }

  /** The callback invocations a sequence of replies causes, all ids being registered. */
  function Invocations(pending: map<int, Callback>, replies: seq<Reply>): seq<(Callback, PyValue.Value)>
    requires forall k :: 0 <= k < |replies| ==> replies[k].id in pending
    decreases |replies|
  {
    if |replies| == 0 then []
    else
      (if replies[0].success then [(pending[replies[0].id], replies[0].results)] else [])
      + Invocations(pending, replies[1..])
  }

  /**
   * Whatever order the replies arrive in, as long as each id was sent, each successful reply
   * reaches the callback registered under its id, exactly once per reply, in arrival order;
   * failed replies reach nothing.
   */
  lemma {:induction false} ReceiveAllDelivers(r: Router, replies: seq<Reply>)
    requires forall k :: 0 <= k < |replies| ==> replies[k].id in r.pending
    ensures ReceiveAll(r, replies) == Ok(r.(delivered := r.delivered + Invocations(r.pending, replies)))
    decreases |replies|
  {
    if |replies| == 0 {
      assert r.delivered + [] == r.delivered;
    } else {
      var step := if replies[0].success then [(r.pending[replies[0].id], replies[0].results)] else [];
      var r1 := r.(delivered := r.delivered + step);
      assert Receive(r, replies[0]) == Ok(r1) by {
        if !replies[0].success {
          assert r.delivered + step == r.delivered;
        }
      }
      ReceiveAllDelivers(r1, replies[1..]);
      assert ReceiveAll(r, replies) == ReceiveAll(r1, replies[1..]);
      assert r1.delivered + Invocations(r.pending, replies[1..])
        == r.delivered + Invocations(r.pending, replies);
    }
  }

  /** A success reply that arrives twice calls its callback twice: entries are never removed. */
  lemma RepeatedReplyRedelivers(r: Router, reply: Reply)
    requires reply.success && reply.id in r.pending
    ensures ReceiveAll(r, [reply, reply])
      == Ok(r.(delivered := r.delivered + [(r.pending[reply.id], reply.results), (r.pending[reply.id], reply.results)]))
  {
    var call := (r.pending[reply.id], reply.results);
    var r1 := r.(delivered := r.delivered + [call]);
    var r2 := r1.(delivered := r1.delivered + [call]);
    assert Receive(r, reply) == Ok(r1);
    assert Receive(r1, reply) == Ok(r2);
    assert [reply, reply][1..] == [reply];
    assert ReceiveAll(r1, [reply]) == Ok(r2);
    assert r2.delivered == r.delivered + [call, call];
  }

  /** A success reply for an id the client never sent is an error, whatever came before. */
  lemma UnknownIdFails(cmds: seq<(string, PyValue.Value, Callback)>, reply: Reply)
    requires reply.success && !(0 <= reply.id < |cmds|)
    ensures Receive(SendAll(Init(), cmds), reply) == Err(CallbackNotAFunction(reply.id))
  {
    SendAllIds(Init(), cmds);
  }

  // ---------------------------------------------------------------------------------------
  // `getFileUrl`

  /** Where the daemon serves results. */
  datatype Daemon = Daemon(server: string, port: nat)

  /** `getFileUrl({file_ref: key})`. */
  function FileUrl(d: Daemon, key: string): (url: string)
    ensures Text.StartsWith(url, "http://") && Text.EndsWith(url, "/result/" + key)
  {
    var url := "http://" + d.server + ":" + PyInt.Render(d.port) + "/result/" + key;
    assert url[|url| - |"/result/" + key|..] == "/result/" + key;
    url
  }

  /** `s` cut at its first `c`, or `None` when `c` does not occur. */
  function SplitAtFirst(s: string, c: char): (r: Option<(string, string)>)
    ensures r.Some? ==> s == r.value.0 + [c] + r.value.1 && c !in r.value.0
  {
    if c !in s then None
    else
      var i := Text.IndexOf(s, c);
      assert s == s[..i] + [c] + s[i + 1..];
      Some((s[..i], s[i + 1..]))
  }

  lemma SplitAtFirstJoin(a: string, c: char, b: string)
    requires c !in a
    ensures SplitAtFirst(a + [c] + b, c) == Some((a, b))
  {
    var s := a + [c] + b;
    Text.IndexOfAfterPrefix(a, c, b);
    assert s[..|a|] == a;
    assert s[|a| + 1..] == b;
  }

  /** Reading a result URL back into server, port and key. */
  function ParseFileUrl(url: string): Option<(string, int, string)>
  {
    if !Text.StartsWith(url, "http://") then None
    else
      match SplitAtFirst(url[7..], ':')
      case None => None
      case Some((host, afterHost)) =>
        match SplitAtFirst(afterHost, '/')
        case None => None
        case Some((portText, path)) =>
          var port := PyInt.Parse(portText);
          if port.None? || !Text.StartsWith(path, "result/") then None
          else Some((host, port.value, path[7..]))
  }

  /** A host name without `:` and any key can be read back from the URL. */
  lemma FileUrlRoundTrip(d: Daemon, key: string)
    requires ':' !in d.server
    ensures ParseFileUrl(FileUrl(d, key)) == Some((d.server, d.port as int, key))
  {
    var port := PyInt.Render(d.port);
    var url := FileUrl(d, key);
    assert url[7..] == d.server + [':'] + (port + ['/'] + ("result/" + key));
    SplitAtFirstJoin(d.server, ':', port + ['/'] + ("result/" + key));
    assert '/' !in port by {
      assert PyInt.AllDigits(PyInt.NatToDigits(d.port));
    }
    SplitAtFirstJoin(port, '/', "result/" + key);
    PyInt.ParseRender(d.port);
  }
}

=== FILE: call.dfy ===
/**
 * The first daemon's `call(package, function, inputs)`: validate the inputs, let the package's
 * `process_input` turn them into model input (optionally with a context), run the model, and let
 * `process_output` turn the result into the reply.
 *
 * The package's hooks and the model run are parameters, each given by what it returns or raises.
 * The model run (checking the input against the model, finding the model, running it) is not
 * guarded: whatever it raises reaches the caller unchanged.
 */
module ModelCall {
  import opened Wrappers
  import opened PyValue

  /** An exception raised by a package hook. */
  datatype Exc =
    | CitrineExc(kind: string)    // one of the daemon's own errors
    | OtherExc(text: string)      // anything else; `text` is `str(e)`

  datatype CallError =
    | Reraised(exc: Exc)          // propagated as it was raised: a hook's daemon error, or anything the model run raises
    | PackageError(message: string)
    | ValidationError(errors: Value)

  /** What `process_input` returned: a plain value, or a tuple. */
  datatype Processed = Plain(value: Value) | Tuple(items: seq<Value>)

  /** The function's input validator: absent, passed (with its normalised document), or failed. */
  datatype Validation = NoValidator | Valid(document: Value) | Invalid(errors: Value)

  /** The `try`/`except` around each hook: daemon errors pass through, others are wrapped. */
  function Guard<T>(step: Result<T, Exc>, stage: string, packageName: string, functionName: string): (r: Result<T, CallError>)
    ensures step.Ok? <==> r.Ok?
    ensures step.Ok? ==> r.value == step.value
    ensures step.Err? && step.error.CitrineExc? ==> r == Err(Reraised(step.error))
    ensures step.Err? && step.error.OtherExc? ==> r.error.PackageError?
  {
    match step
    case Ok(v) => Ok(v)
    case Err(CitrineExc(k)) => Err(Reraised(CitrineExc(k)))
    case Err(OtherExc(t)) =>
      Err(PackageError("Error in processing " + stage + " for model " + packageName + "/" + functionName + ": " + t))
  }

  const FormatErrorMessage := "\"process_input\" format error. Acceptable return types are Dict or Tuple[Dict, Any]"

  /**
   * The shape check on what `process_input` returned: the model input, and the context to pass
   * to `process_output` — `Some` exactly when a context was returned, even when it is `None`.
   */
  function Classify(p: Processed): (r: Result<(Value, Option<Value>), CallError>)
    ensures r.Ok? <==> (p.Plain? && p.value.VDict?) || (p.Tuple? && |p.items| == 2 && p.items[0].VDict?)
    ensures r.Ok? ==> r.value.0.VDict?
    ensures r.Ok? && p.Plain? ==> r.value == (p.value, None)
    ensures r.Ok? && p.Tuple? ==> r.value == (p.items[0], Some(p.items[1]))
    ensures r.Err? ==> r.error == PackageError(FormatErrorMessage)
  {
    match p
    case Plain(v) => if v.VDict? then Ok((v, None)) else Err(PackageError(FormatErrorMessage))
    case Tuple(items) =>
      if |items| == 2 && items[0].VDict? then Ok((items[0], Some(items[1])))
      else Err(PackageError(FormatErrorMessage))
  }

  /**
   * One call. `processInput` maps the (validated) inputs to what the hook returns or raises,
   * `model` is the model run (its outputs or what it raises), `processOutput` receives the
   * outputs and, when the input hook returned one, the context.
   */
  function Call(
    packageName: string, functionName: string, inputs: Value, validation: Validation,
    processInput: Value -> Result<Processed, Exc>,
    model: Value -> Result<Value, Exc>,
    processOutput: (Value, Option<Value>) -> Result<Value, Exc>): (r: Result<Value, CallError>)
    ensures validation.Invalid? ==> r == Err(ValidationError(validation.errors))
  {
    var document := match validation
      case NoValidator => Ok(inputs)
      case Valid(d) => Ok(d)
      case Invalid(e) => Err(ValidationError(e));
    var doc :- document;
    var processed :- Guard(processInput(doc), "inputs", packageName, functionName);
    var classified :- Classify(processed);
    var outputs :- match model(classified.0)
      case Ok(o) => Ok(o)
      case Err(e) => Err(Reraised(e));
    Guard(processOutput(outputs, classified.1), "outputs", packageName, functionName)
  }

  /** Whatever the model run raises reaches the caller unchanged, and `process_output` is not run. */
  lemma ModelErrorsPropagate(
    packageName: string, functionName: string, inputs: Value, validation: Validation,
    processInput: Value -> Result<Processed, Exc>, model: Value -> Result<Value, Exc>,
    processOutput: (Value, Option<Value>) -> Result<Value, Exc>, doc: Value, d: Value)
    requires validation == NoValidator ==> doc == inputs
    requires validation.Valid? ==> doc == validation.document
    requires !validation.Invalid?
    requires processInput(doc).Ok? && Classify(processInput(doc).value).Ok?
    requires d == Classify(processInput(doc).value).value.0 && model(d).Err?
    ensures Call(packageName, functionName, inputs, validation, processInput, model, processOutput) ==
      Err(Reraised(model(d).error))
  {
  }

  /** A dict from `process_input` is the model input, and `process_output` gets no context. */
  lemma DictInputNoContext(
    packageName: string, functionName: string, inputs: Value,
    processInput: Value -> Result<Processed, Exc>, model: Value -> Result<Value, Exc>,
    processOutput: (Value, Option<Value>) -> Result<Value, Exc>, d: Value)
    requires d.VDict? && processInput(inputs) == Ok(Plain(d))
    ensures model(d).Ok? ==>
      Call(packageName, functionName, inputs, NoValidator, processInput, model, processOutput) ==
      Guard(processOutput(model(d).value, None), "outputs", packageName, functionName)
    ensures model(d).Err? ==>
      Call(packageName, functionName, inputs, NoValidator, processInput, model, processOutput) ==
      Err(Reraised(model(d).error))
  {
  }

  /**
   * A `(dict, ctx)` pair from `process_input`: the dict is the model input and `ctx` reaches
   * `process_output` unchanged, whatever it is.
   */
  lemma ContextReachesOutput(
    packageName: string, functionName: string, inputs: Value, validation: Validation,
    processInput: Value -> Result<Processed, Exc>, model: Value -> Result<Value, Exc>,
    processOutput: (Value, Option<Value>) -> Result<Value, Exc>, d: Value, ctx: Value, doc: Value)
    requires validation == NoValidator ==> doc == inputs
    requires validation.Valid? ==> doc == validation.document
    requires !validation.Invalid?
    requires d.VDict? && processInput(doc) == Ok(Tuple([d, ctx]))
    ensures model(d).Ok? ==>
      Call(packageName, functionName, inputs, validation, processInput, model, processOutput) ==
      Guard(processOutput(model(d).value, Some(ctx)), "outputs", packageName, functionName)
    ensures model(d).Err? ==>
      Call(packageName, functionName, inputs, validation, processInput, model, processOutput) ==
      Err(Reraised(model(d).error))
  {
  }

  /** Any other return value of `process_input` is a format error, and the model is not run. */
  lemma BadShapeIsFormatError(
    packageName: string, functionName: string, inputs: Value,
    processInput: Value -> Result<Processed, Exc>, model: Value -> Result<Value, Exc>,
    processOutput: (Value, Option<Value>) -> Result<Value, Exc>)
    requires processInput(inputs).Ok?
    requires Classify(processInput(inputs).value).Err?
    ensures Call(packageName, functionName, inputs, NoValidator, processInput, model, processOutput) ==
      Err(PackageError(FormatErrorMessage))
  {
  }

  /**
   * A daemon error raised by `process_input` reaches the caller unchanged; any other exception
   * becomes a package error naming the model.
   */
  lemma InputHookErrors(
    packageName: string, functionName: string, inputs: Value,
    processInput: Value -> Result<Processed, Exc>, model: Value -> Result<Value, Exc>,
    processOutput: (Value, Option<Value>) -> Result<Value, Exc>)
    requires processInput(inputs).Err?
    ensures var r := Call(packageName, functionName, inputs, NoValidator, processInput, model, processOutput);
      && r.Err?
      && (processInput(inputs).error.CitrineExc? ==> r.error == Reraised(processInput(inputs).error))
      && (processInput(inputs).error.OtherExc? ==>
            r.error == PackageError("Error in processing inputs for model " + packageName + "/" + functionName
              + ": " + processInput(inputs).error.text))
  {
  }

  /** The validator's normalised document, not the raw inputs, is what `process_input` sees. */
  lemma ValidatedDocumentIsProcessed(
    packageName: string, functionName: string, inputs: Value, document: Value,
    processInput: Value -> Result<Processed, Exc>, model: Value -> Result<Value, Exc>,
    processOutput: (Value, Option<Value>) -> Result<Value, Exc>)
    ensures Call(packageName, functionName, inputs, Valid(document), processInput, model, processOutput) ==
      Call(packageName, functionName, document, NoValidator, processInput, model, processOutput)
  {
  }

  /** The kinds of parameter a Python signature distinguishes. */
  datatype ParamKind = PositionalOnly | PositionalOrKeyword | VarPositional | KeywordOnly | VarKeyword

  /** `output_wants_context(f)`, by a scan over the parameter kinds. */
  function WantsContext(params: seq<ParamKind>): (r: bool)
  {
    if |params| > 1 then true else HasVarPositional(params)
  }

  function HasVarPositional(params: seq<ParamKind>): (r: bool)
    ensures r <==> exists i :: 0 <= i < |params| && params[i] == VarPositional
  {
    if |params| == 0 then false
    else params[0] == VarPositional || HasVarPositional(params[1..])
  }

  /**
   * A hook wants a context exactly when it can be called with two positional arguments: it takes
   * more than one parameter, or a `*args`.
   */
  lemma WantsContextIff(params: seq<ParamKind>)
    ensures WantsContext(params) <==> |params| > 1 || VarPositional in params
  {
    if VarPositional in params {
      var i :| 0 <= i < |params| && params[i] == VarPositional;
    }
  }
}

=== FILE: cli_io.dfy ===
/**
 * The command-line parameter parser of the client (citrine-client/citrine_client/cli/cli_io.py).
 *
 * Arguments look like `key=value`. A key is a path of groups: a name at the start, `.name`
 * after it, or an index `[n]`; a name is one or more ASCII letters followed by at most one
 * letter or digit. `parse_cli_inputs` builds a nested dict from the paths, turns every dict
 * whose keys are exactly 0..n-1 into a list, and converts each raw value: an integer if it
 * reads as one, else a float, else (for `@`-prefixed values) the contents of a file, else the
 * text itself.
 */
module CliIo {
  import opened Wrappers
  import Text
  import PyInt
  import Dicts
  import opened PyValue

  datatype CliError =
    | MissingEquals(line: string)      // "Could not parse option ..."
    | BadKey(key: string)              // "Could not parse key ..."
    | UnreadableFile(kind: FileKind, name: string)
    | TypeError                        // descending into a value that is not a dict

  // ---------------------------------------------------------------------------------------
  // `parse_kv`

  /** `args[i]` is the first argument without an `=`. */
  predicate FirstWithoutEquals(args: seq<string>, i: int)
  {
    0 <= i < |args| && '=' !in args[i] && forall j :: 0 <= j < i ==> '=' in args[j]
  }

  /** `parse_kv(kv_args)`: each argument split at its first `=`. */
  function ParseKv(args: seq<string>): (r: Result<seq<(string, string)>, CliError>)
    ensures r.Ok? <==> forall i :: 0 <= i < |args| ==> '=' in args[i]
    ensures r.Ok? ==> |r.value| == |args|
    ensures r.Ok? ==> forall i :: 0 <= i < |args| ==>
      '=' !in r.value[i].0 && args[i] == r.value[i].0 + "=" + r.value[i].1
    ensures r.Err? ==> exists i :: FirstWithoutEquals(args, i) && r.error == MissingEquals(args[i])
    decreases |args|
  {
    if |args| == 0 then Ok([])
    else if '=' !in args[0] then Err(MissingEquals(args[0]))
    else
      var radix := Text.IndexOf(args[0], '=');
      var kv := (args[0][..radix], args[0][radix + 1..]);
      assert args[0] == kv.0 + "=" + kv.1;
      match ParseKv(args[1..])
      case Err(e) =>
        assert exists i :: FirstWithoutEquals(args, i) && e == MissingEquals(args[i]) by {
          var i :| FirstWithoutEquals(args[1..], i) && e == MissingEquals(args[1..][i]);
          assert args[i + 1] == args[1..][i];
          assert FirstWithoutEquals(args, i + 1) by {
            forall j | 0 <= j < i + 1
              ensures '=' in args[j]
            {
              if j > 0 { assert args[j] == args[1..][j - 1]; }
            }
          }
        }
        Err(e)
      case Ok(rest) =>
        assert forall i :: 1 <= i < |args| ==> args[i] == args[1..][i - 1];
        Ok([kv] + rest)
  }

  // ---------------------------------------------------------------------------------------
  // `_parse_key`: the grammar `((^|\.)[a-zA-Z]+[a-zA-Z0-9]?|\[[0-9]+\])+`

  datatype Token = Name(name: string) | Index(index: nat)

  predicate IsLetter(c: char)
  {
    'a' <= c <= 'z' || 'A' <= c <= 'Z'
  }

  /** A name of the key grammar: letters, the last of which may instead be a digit. */
  predicate ValidName(s: string)
  {
    && |s| >= 1
    && IsLetter(s[0])
    && (forall i :: 0 <= i < |s| - 1 ==> IsLetter(s[i]))
    && (IsLetter(s[|s| - 1]) || PyInt.IsDigit(s[|s| - 1]))
  }

  /** The number of letters `s` starts with. */
  function LetterRun(s: string): (n: nat)
    ensures n <= |s|
    ensures forall i :: 0 <= i < n ==> IsLetter(s[i])
    ensures n < |s| ==> !IsLetter(s[n])
  {
    if |s| > 0 && IsLetter(s[0]) then 1 + LetterRun(s[1..]) else 0
  }

  /** The number of digits `s` starts with. */
  function DigitRun(s: string): (n: nat)
    ensures n <= |s|
    ensures PyInt.AllDigits(s[..n])
    ensures n < |s| ==> !PyInt.IsDigit(s[n])
  {
    if |s| > 0 && PyInt.IsDigit(s[0]) then
      var n := 1 + DigitRun(s[1..]);
      assert s[..n] == [s[0]] + s[1..][..n - 1];
      n
    else 0
  }

  /** Length of the name at the start of `s` (the regex is greedy), 0 if there is none. */
  function NameLength(s: string): (n: nat)
    ensures n <= |s|
    ensures n > 0 ==> ValidName(s[..n])
  {
    var letters := LetterRun(s);
    if letters == 0 then 0
    else if letters < |s| && PyInt.IsDigit(s[letters]) then letters + 1
    else letters
  }

  /** One group at the start of `s`: the token and the number of characters it spans. */
  function ParseGroup(s: string, atStart: bool): (r: Option<(Token, nat)>)
    ensures r.Some? ==> 1 <= r.value.1 <= |s|
  {
    if |s| == 0 then None
    else if s[0] == '.' then
      var n := NameLength(s[1..]);
      if n == 0 then None else Some((Name(s[1..1 + n]), 1 + n))
    else if s[0] == '[' then
      var d := DigitRun(s[1..]);
      if d == 0 || 1 + d >= |s| || s[1 + d] != ']' then None
      else
        assert s[1..][..d] == s[1..1 + d];
        Some((Index(PyInt.DigitsValue(s[1..1 + d])), d + 2))
    else if atStart then
      var n := NameLength(s);
      if n == 0 then None else Some((Name(s[..n]), n))
    else None
  }

  /** One or more groups covering all of `s`. */
  function ParseGroups(s: string, atStart: bool): (r: Option<seq<Token>>)
    ensures r.Some? ==> |r.value| >= 1
    decreases |s|
  {
    var (token, len) :- ParseGroup(s, atStart);
    if len == |s| then Some([token])
    else
      var rest :- ParseGroups(s[len..], false);
      Some([token] + rest)
  }

  /** `_parse_key(k)`: the key's tokens, or an error when the key does not match the grammar. */
  function ParseKey(k: string): (r: Result<seq<Token>, CliError>)
    ensures r.Err? ==> r.error == BadKey(k)
    ensures r.Ok? ==> |r.value| >= 1
  {
    match ParseGroups(k, true)
    case None => Err(BadKey(k))
    case Some(tokens) => Ok(tokens)
  }

  /** Every name a parsed key yields obeys the grammar. */
  lemma {:induction false} ParseGroupsNames(s: string, atStart: bool)
    requires ParseGroups(s, atStart).Some?
    ensures forall i :: 0 <= i < |ParseGroups(s, atStart).value| ==>
      var t := ParseGroups(s, atStart).value[i]; t.Name? ==> ValidName(t.name)
    decreases |s|
  {
    var (token, len) := ParseGroup(s, atStart).value;
    if s[0] == '.' {
      assert s[1..][..len - 1] == s[1..len];
    }
    if len < |s| {
      ParseGroupsNames(s[len..], false);
    }
  }

  /** Writing tokens back as a key: a leading name bare, later names after `.`. */
  function RenderToken(t: Token, first: bool): string
  {
    match t
    case Name(s) => if first then s else "." + s
    case Index(n) => "[" + PyInt.NatToDigits(n) + "]"
  }

  function RenderTokens(ts: seq<Token>, first: bool): string
    decreases |ts|
  {
    if |ts| == 0 then "" else RenderToken(ts[0], first) + RenderTokens(ts[1..], false)
  }

  predicate ValidTokens(ts: seq<Token>)
  {
    forall i :: 0 <= i < |ts| ==> ts[i].Name? ==> ValidName(ts[i].name)
  }

  /** A rendered key continues, after any token, with `.` or `[` or nothing. */
  lemma RenderTokensStart(ts: seq<Token>)
    requires |ts| > 0
    ensures var s := RenderTokens(ts, false); |s| > 0 && (s[0] == '.' || s[0] == '[')
  {
  }

  /** A valid name followed by a group boundary is read greedily as exactly that name. */
  lemma NameLengthOfName(name: string, rest: string)
    requires ValidName(name)
    requires |rest| > 0 ==> rest[0] == '.' || rest[0] == '['
    ensures NameLength(name + rest) == |name|
  {
    var s := name + rest;
    var last := |name| - 1;
    if IsLetter(name[last]) {
      LetterRunAt(s, |name|);
    } else {
      LetterRunAt(s, last);
    }
  }

  /** `LetterRun` stops at the first non-letter. */
  lemma {:induction false} LetterRunAt(s: string, n: nat)
    requires n <= |s|
    requires forall i :: 0 <= i < n ==> IsLetter(s[i])
    requires n < |s| ==> !IsLetter(s[n])
    ensures LetterRun(s) == n
    decreases n
  {
    if n > 0 {
      LetterRunAt(s[1..], n - 1);
    }
  }

  /** `DigitRun` stops at the first non-digit. */
  lemma {:induction false} DigitRunAt(s: string, n: nat)
    requires n <= |s|
    requires forall i :: 0 <= i < n ==> PyInt.IsDigit(s[i])
    requires n < |s| ==> !PyInt.IsDigit(s[n])
    ensures DigitRun(s) == n
    decreases n
  {
    if n > 0 {
      DigitRunAt(s[1..], n - 1);
    }
  }

  /** A name token, rendered and followed by a group boundary, parses back. */
  lemma ParseGroupOfName(name: string, first: bool, rest: string)
    requires ValidName(name)
    requires |rest| > 0 ==> rest[0] == '.' || rest[0] == '['
    ensures ParseGroup(RenderToken(Name(name), first) + rest, first) == Some((Name(name), |RenderToken(Name(name), first)|))
  {
    if first {
      assert RenderToken(Name(name), first) == name;
      ParseGroupOfNameFirst(name, rest);
    } else {
      assert RenderToken(Name(name), first) == "." + name;
      ParseGroupOfNameDot(name, rest);
    }
  }

  lemma ParseGroupOfNameFirst(name: string, rest: string)
    requires ValidName(name)
    requires |rest| > 0 ==> rest[0] == '.' || rest[0] == '['
    ensures ParseGroup(name + rest, true) == Some((Name(name), |name|))
  {
    var s := name + rest;
    NameLengthOfName(name, rest);
    assert s[0] == name[0] && IsLetter(s[0]);
    assert s[..|name|] == name;
  }

  lemma ParseGroupOfNameDot(name: string, rest: string)
    requires ValidName(name)
    requires |rest| > 0 ==> rest[0] == '.' || rest[0] == '['
    ensures ParseGroup("." + name + rest, false) == Some((Name(name), 1 + |name|))
  {
    var s := "." + name + rest;
    NameLengthOfName(name, rest);
    assert s[0] == '.';
    assert s[1..] == name + rest;
    assert s[1..1 + |name|] == name;
  }

  /** An index token, rendered and followed by anything, parses back. */
  lemma ParseGroupOfIndex(n: nat, first: bool, rest: string)
    ensures ParseGroup(RenderToken(Index(n), first) + rest, first) == Some((Index(n), |RenderToken(Index(n), first)|))
  {
    var s := RenderToken(Index(n), first) + rest;
    var digits := PyInt.NatToDigits(n);
    assert s[1..] == digits + "]" + rest;
    DigitRunAt(s[1..], |digits|);
    assert s[1 + |digits|] == ']';
    assert s[1..1 + |digits|] == digits;
    PyInt.DigitsRoundTrip(n);
  }

  /** Parsing the first token of a rendered key gives it back with its length. */
  lemma ParseGroupOfToken(t: Token, first: bool, rest: string)
    requires t.Name? ==> ValidName(t.name)
    requires |rest| > 0 ==> rest[0] == '.' || rest[0] == '['
    ensures ParseGroup(RenderToken(t, first) + rest, first) == Some((t, |RenderToken(t, first)|))
  {
    match t
    case Name(name) => ParseGroupOfName(name, first, rest);
    case Index(n) => ParseGroupOfIndex(n, first, rest);
  }

  /** One group followed by a parsable remainder parses as that group and the remainder's groups. */
  lemma ParseGroupsStep(s: string, atStart: bool, t: Token, len: nat, rest: seq<Token>)
    requires ParseGroup(s, atStart) == Some((t, len))
    requires len < |s| && ParseGroups(s[len..], false) == Some(rest)
    ensures ParseGroups(s, atStart) == Some([t] + rest)
  {
  }

  lemma ValidTokensTail(ts: seq<Token>)
    requires |ts| >= 1 && ValidTokens(ts)
    ensures ValidTokens(ts[1..])
  {
    forall i | 0 <= i < |ts[1..]| ensures ts[1..][i].Name? ==> ValidName(ts[1..][i].name) {
      assert ts[1..][i] == ts[i + 1];
    }
  }

  /** Parsing rendered tokens gives them back. */
  lemma {:induction false} ParseRenderTokens(ts: seq<Token>, first: bool)
    requires |ts| >= 1 && ValidTokens(ts)
    ensures ParseGroups(RenderTokens(ts, first), first) == Some(ts)
    decreases |ts|
  {
    var head := RenderToken(ts[0], first);
    var tail := RenderTokens(ts[1..], false);
    var s := RenderTokens(ts, first);
    assert s == head + tail;
    if |ts| == 1 {
      assert tail == "";
      assert s == head + "";
      ParseGroupOfToken(ts[0], first, "");
      assert ParseGroup(s, first) == Some((ts[0], |s|));
      assert ParseGroups(s, first) == Some([ts[0]]);
      assert ts == [ts[0]];
    } else {
      RenderTokensStart(ts[1..]);
      ParseGroupOfToken(ts[0], first, tail);
      assert s[|head|..] == tail;
      ValidTokensTail(ts);
      ParseRenderTokens(ts[1..], false);
      ParseGroupsStep(s, first, ts[0], |head|, ts[1..]);
      assert ts == [ts[0]] + ts[1..];
    }
  }

  /** `_parse_key` reads back every key written from valid tokens. */
  lemma ParseKeyRender(ts: seq<Token>)
    requires |ts| >= 1 && ValidTokens(ts)
    ensures ParseKey(RenderTokens(ts, true)) == Ok(ts)
  {
    ParseRenderTokens(ts, true);
  }

  /** Keys outside the grammar are refused. */
  lemma ParseKeyRejects()
    ensures ParseKey("") == Err(BadKey(""))
    ensures ParseKey("a_b") == Err(BadKey("a_b"))
    ensures ParseKey("a12") == Err(BadKey("a12"))
    ensures ParseKey("a[x]") == Err(BadKey("a[x]"))
  {
    LetterRunAt("a_b", 1);
    assert "a_b"[..1] == "a" && "a_b"[1..] == "_b";
    LetterRunAt("a12", 1);
    assert "a12"[..2] == "a1" && "a12"[2..] == "2";
    LetterRunAt("a[x]", 1);
    assert "a[x]"[..1] == "a" && "a[x]"[1..] == "[x]";
    assert "[x]"[1..] == "x]";
    DigitRunAt("x]", 0);
  }

  /** An example from the key grammar: a name, an index and a dotted name. */
  lemma ParseKeyExample()
    ensures ParseKey("a[0].b") == Ok([Name("a"), Index(0), Name("b")])
  {
    ParseKeyRender([Name("a"), Index(0), Name("b")]);
    assert RenderTokens([Name("a"), Index(0), Name("b")], true) == "a[0].b";
  }

  // ---------------------------------------------------------------------------------------
  // The key grammar as a regular expression reads it: a key matches when it splits into
  // groups, each one alternative of `(^|\.)[a-zA-Z]+[a-zA-Z0-9]?|\[[0-9]+\]`, where only the
  // group at the very start may omit the `.`.

  /** One group of the key grammar; `atStart` says whether it begins the key. */
  predicate IsGroup(g: string, atStart: bool)
  {
    || (atStart && ValidName(g))
    || (|g| >= 2 && g[0] == '.' && ValidName(g[1..]))
    || (|g| >= 3 && g[0] == '[' && g[|g| - 1] == ']' && PyInt.AllDigits(g[1..|g| - 1]))
  }

  /** Every group of `gs` belongs to the grammar, the first one at the start when `atStart`. */
  predicate GroupsFrom(gs: seq<string>, atStart: bool)
  {
    forall i :: 0 <= i < |gs| ==> IsGroup(gs[i], atStart && i == 0)
  }

  function Concat(gs: seq<string>): string
    decreases |gs|
  {
    if |gs| == 0 then "" else gs[0] + Concat(gs[1..])
  }

  /** `fullmatch` succeeds: the key is one or more groups. */
  ghost predicate InGrammar(k: string)
  {
    exists gs :: |gs| >= 1 && GroupsFrom(gs, true) && Concat(gs) == k
  }

  /** The token a group stands for; an index keeps its value only, so `[007]` is index 7. */
  function GroupToken(g: string): Token
    requires IsGroup(g, true)
  {
    if g[0] == '.' then Name(g[1..])
    else if g[0] == '[' then Index(PyInt.DigitsValue(g[1..|g| - 1]))
    else Name(g)
  }

  function GroupTokens(gs: seq<string>): (ts: seq<Token>)
    requires GroupsFrom(gs, true)
    ensures |ts| == |gs|
  {
    seq(|gs|, i requires 0 <= i < |gs| => GroupToken(gs[i]))
  }

  /** What the parser reads at the start of `s` is one group of the grammar, and its token. */
  lemma ParseGroupIsGroup(s: string, atStart: bool)
    requires ParseGroup(s, atStart).Some?
    ensures var (t, len) := ParseGroup(s, atStart).value;
      IsGroup(s[..len], atStart) && IsGroup(s[..len], true) && t == GroupToken(s[..len])
  {
    var (t, len) := ParseGroup(s, atStart).value;
    var g := s[..len];
    if s[0] == '.' {
      assert g[1..] == s[1..][..len - 1];
    } else if s[0] == '[' {
      assert g[1..|g| - 1] == s[1..][..len - 2] == s[1..1 + (len - 2)];
    } else {
      assert ValidName(s[..NameLength(s)]);
    }
  }

  /** Every key the parser accepts splits into groups of the grammar. */
  lemma {:induction false} ParsedHasGroups(s: string, atStart: bool)
    requires ParseGroups(s, atStart).Some?
    ensures exists gs :: |gs| >= 1 && GroupsFrom(gs, atStart) && Concat(gs) == s
    decreases |s|
  {
    ParseGroupsSplit(s, atStart);
    var len := ParseGroup(s, atStart).value.1;
    ParseGroupIsGroup(s, atStart);
    var rest: seq<string> := [];
    if len < |s| {
      ParsedHasGroups(s[len..], false);
      rest :| |rest| >= 1 && GroupsFrom(rest, false) && Concat(rest) == s[len..];
    }
    GroupsWitness(s, len, atStart, rest);
  }

  /** A first group, then groups for the remainder (if any), split the whole text. */
  lemma GroupsWitness(s: string, len: nat, atStart: bool, rest: seq<string>)
    requires 0 < len <= |s| && IsGroup(s[..len], atStart)
    requires len == |s| ==> rest == []
    requires len < |s| ==> GroupsFrom(rest, false) && Concat(rest) == s[len..]
    ensures exists gs :: |gs| >= 1 && GroupsFrom(gs, atStart) && Concat(gs) == s
  {
    var g := s[..len];
    GroupsCons(g, rest, atStart);
    assert g + Concat(rest) == s;
    assert |[g] + rest| >= 1 && GroupsFrom([g] + rest, atStart) && Concat([g] + rest) == s;
  }

  /** An accepted key is its first group, then (if anything is left) more accepted groups. */
  lemma ParseGroupsSplit(s: string, atStart: bool)
    requires ParseGroups(s, atStart).Some?
    ensures ParseGroup(s, atStart).Some?
    ensures var len := ParseGroup(s, atStart).value.1;
      len < |s| ==> ParseGroups(s[len..], false).Some?
  {
  }

  /** A group in front of groups that do not begin the key. */
  lemma GroupsCons(g: string, rest: seq<string>, atStart: bool)
    requires IsGroup(g, atStart) && GroupsFrom(rest, false)
    ensures GroupsFrom([g] + rest, atStart)
    ensures Concat([g] + rest) == g + Concat(rest)
  {
    var gs := [g] + rest;
    assert gs[1..] == rest;
    forall i | 0 <= i < |gs|
      ensures IsGroup(gs[i], atStart && i == 0)
    {
      if i > 0 { assert gs[i] == rest[i - 1]; }
    }
  }

  /** A group followed by the start of another group, or by nothing, is read as exactly that group. */
  lemma ParseGroupOfGroup(g: string, atStart: bool, rest: string)
    requires IsGroup(g, atStart)
    requires |rest| > 0 ==> rest[0] == '.' || rest[0] == '['
    ensures IsGroup(g, true)
    ensures ParseGroup(g + rest, atStart) == Some((GroupToken(g), |g|))
  {
    if g[0] == '.' {
      ParseGroupOfDotGroup(g, atStart, rest);
    } else if g[0] == '[' {
      ParseGroupOfIndexGroup(g, atStart, rest);
    } else {
      assert atStart && ValidName(g);
      ParseGroupOfNameFirst(g, rest);
    }
  }

  lemma ParseGroupOfDotGroup(g: string, atStart: bool, rest: string)
    requires |g| >= 2 && g[0] == '.' && ValidName(g[1..])
    requires |rest| > 0 ==> rest[0] == '.' || rest[0] == '['
    ensures ParseGroup(g + rest, atStart) == Some((Name(g[1..]), |g|))
  {
    var s := g + rest;
    var name := g[1..];
    assert s[1..] == name + rest;
    NameLengthOfName(name, rest);
    assert s[1..1 + |name|] == name;
  }

  lemma ParseGroupOfIndexGroup(g: string, atStart: bool, rest: string)
    requires |g| >= 3 && g[0] == '[' && g[|g| - 1] == ']' && PyInt.AllDigits(g[1..|g| - 1])
    ensures ParseGroup(g + rest, atStart) == Some((Index(PyInt.DigitsValue(g[1..|g| - 1])), |g|))
  {
    var s := g + rest;
    var digits := g[1..|g| - 1];
    var tail := s[1..];
    assert tail[..|digits|] == digits;
    assert tail[|digits|] == ']';
    DigitRunAt(tail, |digits|);
    assert s[1..1 + |digits|] == digits;
  }

  /** The groups after the first one do not begin the key, and their text begins with `.` or `[`. */
  lemma GroupsTail(gs: seq<string>, atStart: bool)
    requires |gs| >= 1 && GroupsFrom(gs, atStart)
    ensures GroupsFrom(gs[1..], false)
    ensures Concat(gs) == gs[0] + Concat(gs[1..])
    ensures |gs| > 1 ==> |Concat(gs[1..])| > 0 && (Concat(gs[1..])[0] == '.' || Concat(gs[1..])[0] == '[')
    ensures |gs| == 1 ==> Concat(gs[1..]) == ""
  {
    forall i | 0 <= i < |gs[1..]|
      ensures IsGroup(gs[1..][i], false)
    {
      assert gs[1..][i] == gs[i + 1];
    }
    if |gs| > 1 {
      assert gs[1..][0] == gs[1];
      assert Concat(gs[1..]) == gs[1] + Concat(gs[2..]);
    }
  }

  lemma GroupTokensCons(gs: seq<string>)
    requires |gs| >= 1 && GroupsFrom(gs, true)
    ensures GroupsFrom(gs[1..], true)
    ensures GroupTokens(gs) == [GroupToken(gs[0])] + GroupTokens(gs[1..])
  {
    forall i | 0 <= i < |gs[1..]|
      ensures IsGroup(gs[1..][i], i == 0)
    {
      assert gs[1..][i] == gs[i + 1];
    }
  }

  /** The grammar's groups concatenated parse back to their tokens. */
  lemma {:induction false} GroupsParse(gs: seq<string>, atStart: bool)
    requires |gs| >= 1 && GroupsFrom(gs, atStart)
    ensures GroupsFrom(gs, true)
    ensures ParseGroups(Concat(gs), atStart) == Some(GroupTokens(gs))
    decreases |gs|
  {
    var rest := Concat(gs[1..]);
    GroupsTail(gs, atStart);
    ParseGroupOfGroup(gs[0], atStart, rest);
    assert GroupsFrom(gs, true) by {
      forall i | 0 <= i < |gs|
        ensures IsGroup(gs[i], i == 0)
      {
        if i > 0 { assert IsGroup(gs[1..][i - 1], false); }
      }
    }
    GroupTokensCons(gs);
    var s := gs[0] + rest;
    assert s[|gs[0]|..] == rest;
    if |gs| == 1 {
      assert s == gs[0];
      assert GroupTokens(gs) == [GroupToken(gs[0])];
      assert ParseGroup(s, atStart) == Some((GroupToken(gs[0]), |s|));
    } else {
      GroupsParse(gs[1..], false);
      ParseGroupsStep(s, atStart, GroupToken(gs[0]), |gs[0]|, GroupTokens(gs[1..]));
    }
  }

  /** A key is accepted exactly when it matches the grammar in full. */
  lemma ParseKeyGrammar(k: string)
    ensures ParseKey(k).Ok? <==> InGrammar(k)
  {
    if ParseKey(k).Ok? {
      ParsedHasGroups(k, true);
    }
    if InGrammar(k) {
      var gs :| |gs| >= 1 && GroupsFrom(gs, true) && Concat(gs) == k;
      GroupsParse(gs, true);
    }
  }

  /**
   * An accepted key yields one token per group: the name without its `.`, or the value of the
   * index digits, leading zeros included.
   */
  lemma ParseKeyGroups(gs: seq<string>)
    requires |gs| >= 1 && GroupsFrom(gs, true)
    ensures ParseKey(Concat(gs)) == Ok(GroupTokens(gs))
  {
    GroupsParse(gs, true);
  }

  /** `a[007]` is the key `a` with index 7. */
  lemma ParseKeyLeadingZeros()
    ensures ParseKey("a[007]") == Ok([Name("a"), Index(7)])
  {
    var gs := ["a", "[007]"];
    assert "[007]"[1..4] == "007";
    assert PyInt.DigitsValue("007") == 7 by {
      assert "007"[..2] == "00" && "00"[..1] == "0" && "0"[..0] == "";
    }
    assert GroupsFrom(gs, true);
    assert Concat(gs) == "a[007]";
    ParseKeyGroups(gs);
    assert GroupTokens(gs) == [Name("a"), Index(7)];
  }

  // ---------------------------------------------------------------------------------------
  // `parse_cli_outputs`

  /** `parse_cli_outputs(opts)`: `(tokens, key, value)` for each argument, in order. */
  function ParseCliOutputs(opts: seq<string>): (r: Result<seq<(seq<Token>, string, string)>, CliError>)
    ensures r.Ok? ==> |r.value| == |opts|
    ensures r.Ok? ==> forall i :: 0 <= i < |opts| ==>
      opts[i] == r.value[i].1 + "=" + r.value[i].2 && ParseKey(r.value[i].1) == Ok(r.value[i].0)
  {
    var kvs :- ParseKv(opts);
    ParseKeys(kvs)
  }

  function ParseKeys(kvs: seq<(string, string)>): (r: Result<seq<(seq<Token>, string, string)>, CliError>)
    ensures r.Ok? ==> |r.value| == |kvs|
    ensures r.Ok? ==> forall i :: 0 <= i < |kvs| ==>
      r.value[i].1 == kvs[i].0 && r.value[i].2 == kvs[i].1 && ParseKey(kvs[i].0) == Ok(r.value[i].0)
    decreases |kvs|
  {
    if |kvs| == 0 then Ok([])
    else
      var tokens :- ParseKey(kvs[0].0);
      var rest :- ParseKeys(kvs[1..]);
      Ok([(tokens, kvs[0].0, kvs[0].1)] + rest)
  }

  // ---------------------------------------------------------------------------------------
  // `_parse_value`

  datatype FileKind = NumpyFile | ImageFile | JsonFile | TextFile

  /**
   * What the model takes as given: which strings Python's `float()` accepts, and what loading
   * a file of some kind yields (`None` when it cannot be read or parsed).
   */
  datatype Loaders = Loaders(isFloat: string -> bool, load: (FileKind, string) -> Option<Value>)

  /** `_parse_value(val)`. */
  function ParseValue(val: string, env: Loaders): (r: Result<Value, CliError>)
    ensures PyInt.Parse(val).Some? ==> r == Ok(VInt(PyInt.Parse(val).value))
    ensures PyInt.Parse(val).None? && !env.isFloat(val) && !Text.StartsWith(val, "@") ==> r == Ok(VStr(val))
    ensures r.Err? ==> Text.StartsWith(val, "@")
  {
    match PyInt.Parse(val)
    case Some(i) => Ok(VInt(i))
    case None =>
      if env.isFloat(val) then Ok(VFloat(val))
      else if Text.StartsWith(val, "@np:") then LoadFile(NumpyFile, val[4..], env)
      else if Text.StartsWith(val, "@img:") then LoadFile(ImageFile, val[5..], env)
      else if Text.StartsWith(val, "@json:") then LoadFile(JsonFile, val[6..], env)
      else if Text.StartsWith(val, "@") then LoadFile(TextFile, val[1..], env)
      else Ok(VStr(val))
  }

  function LoadFile(kind: FileKind, name: string, env: Loaders): Result<Value, CliError>
  {
    match env.load(kind, name)
    case Some(v) => Ok(v)
    case None => Err(UnreadableFile(kind, name))
  }

  // ---------------------------------------------------------------------------------------
  // `_transform_lists`

  /** The keys are exactly the integers 0..n-1, n being the number of entries. */
  predicate IsIndexRange(entries: Dicts.Dict<Key, Value>)
  {
    && (forall i :: 0 <= i < |entries| ==> entries[i].0.KInt?)
    && (forall k :: 0 <= k < |entries| ==> Dicts.HasKey(entries, KInt(k)))
  }

  /**
   * `_transform_lists(d)`: a dict with keys 0..n-1 becomes the list of its values in index
   * order, an empty dict stays empty, any other dict keeps its keys; the values are transformed
   * in turn and every leaf goes through `_parse_value`.
   */
  function TransformLists(v: Value, env: Loaders): (r: Result<Value, CliError>)
    ensures v.VDict? && v.entries == [] ==> r == Ok(VDict([]))
    ensures r.Ok? && v.VDict? && |v.entries| > 0 && IsIndexRange(v.entries) ==>
      r.value.VList? && |r.value.items| == |v.entries|
    ensures r.Ok? && v.VDict? && !IsIndexRange(v.entries) ==>
      r.value.VDict? && Dicts.Keys(r.value.entries) == Dicts.Keys(v.entries)
    decreases v, 1
  {
    match v
    case VDict(entries) =>
      if |entries| == 0 then Ok(VDict([]))
      else if IsIndexRange(entries) then
        var items :- TransformItems(v, 0, env);
        Ok(VList(items))
      else
        var transformed :- TransformEntries(v, 0, env);
        Ok(VDict(transformed))
    case VStr(s) => ParseValue(s, env)
    case _ => Ok(v)
  }

  /** `[_transform_lists(d[k]) for k in range(...)]` from index `k` on. */
  function TransformItems(parent: Value, k: nat, env: Loaders): (r: Result<seq<Value>, CliError>)
    requires parent.VDict? && IsIndexRange(parent.entries) && k <= |parent.entries|
    ensures r.Ok? ==> |r.value| == |parent.entries| - k
    decreases parent, 0, |parent.entries| - k
  {
    if k == |parent.entries| then Ok([])
    else
      var at := Dicts.KeyIndex(parent.entries, KInt(k));
      var head :- TransformLists(parent.entries[at].1, env);
      var rest :- TransformItems(parent, k + 1, env);
      Ok([head] + rest)
  }

  /** `{k: _transform_lists(v) for k, v in d.items()}` from entry `i` on. */
  function TransformEntries(parent: Value, i: nat, env: Loaders): (r: Result<Dicts.Dict<Key, Value>, CliError>)
    requires parent.VDict? && i <= |parent.entries|
    ensures r.Ok? ==> Dicts.Keys(r.value) == Dicts.Keys(parent.entries[i..])
    decreases parent, 0, |parent.entries| - i
  {
    if i == |parent.entries| then Ok([])
    else
      var head :- TransformLists(parent.entries[i].1, env);
      var rest :- TransformEntries(parent, i + 1, env);
      Dicts.KeysSliceCons(parent.entries, i, head, rest);
      Ok([(parent.entries[i].0, head)] + rest)
  }

  /** The list made of an index-range dict holds, at position k, the transformed value of key k. */
  lemma {:induction false} TransformItemsAt(parent: Value, k: nat, env: Loaders, j: nat)
    requires parent.VDict? && IsIndexRange(parent.entries) && k <= j < |parent.entries|
    requires TransformItems(parent, k, env).Ok?
    ensures var v := Dicts.Get(parent.entries, KInt(j));
      && v.Some?
      && TransformLists(v.value, env).Ok?
      && TransformItems(parent, k, env).value[j - k] == TransformLists(v.value, env).value
    decreases j - k
  {
    Dicts.GetKeyIndex(parent.entries, KInt(j));
    var v := parent.entries[Dicts.KeyIndex(parent.entries, KInt(j))].1;
    var head := TransformLists(parent.entries[Dicts.KeyIndex(parent.entries, KInt(k))].1, env);
    var rest := TransformItems(parent, k + 1, env);
    assert head.Ok? && rest.Ok?;
    assert TransformItems(parent, k, env).value == [head.value] + rest.value;
    if j == k {
      assert head == TransformLists(v, env);
    } else {
      TransformItemsAt(parent, k + 1, env, j);
      assert rest.value[j - (k + 1)] == TransformLists(v, env).value;
    }
  }

  // ---------------------------------------------------------------------------------------
  // `parse_cli_inputs`

  function TokenKey(t: Token): Key
  {
    match t
    case Name(s) => KStr(s)
    case Index(n) => KInt(n)
  }

  function TokenKeys(ts: seq<Token>): (ks: seq<Key>)
    ensures |ks| == |ts| && forall i :: 0 <= i < |ts| ==> ks[i] == TokenKey(ts[i])
  {
    seq(|ts|, i requires 0 <= i < |ts| => TokenKey(ts[i]))
  }

  /**
   * The inner loop of `parse_cli_inputs`: descend along `path`, creating a dict for every
   * absent intermediate key, and store the raw value under the last key. Descending into a
   * value that is not a dict raises `TypeError`.
   */
  function Insert(tree: Dicts.Dict<Key, Value>, path: seq<Key>, v: string): (r: Result<Dicts.Dict<Key, Value>, CliError>)
    requires |path| >= 1
    ensures r.Ok? ==> Dicts.HasKey(r.value, path[0])
    decreases |path|
  {
    if |path| == 1 then
      Dicts.GetPut(tree, path[0], VStr(v), path[0]);
      Ok(Dicts.Put(tree, path[0], VStr(v)))
    else
      var child :- ChildDict(Dicts.Get(tree, path[0]));
      var child' :- Insert(child, path[1..], v);
      Dicts.GetPut(tree, path[0], VDict(child'), path[0]);
      Ok(Dicts.Put(tree, path[0], VDict(child')))
  }

  /** `if token not in loc: loc[token] = {}`, then `loc = loc[token]`. */
  function ChildDict(current: Option<Value>): (r: Result<Dicts.Dict<Key, Value>, CliError>)
    ensures r.Err? <==> current.Some? && !current.value.VDict?
  {
    match current
    case None => Ok([])
    case Some(v) => if v.VDict? then Ok(v.entries) else Err(TypeError)
  }

  /** The value stored at `path` in a nested dict, if any. */
  function Lookup(tree: Dicts.Dict<Key, Value>, path: seq<Key>): Option<Value>
    requires |path| >= 1
    decreases |path|
  {
    var v :- Dicts.Get(tree, path[0]);
    if |path| == 1 then Some(v)
    else if v.VDict? then Lookup(v.entries, path[1..])
    else None
  }

  /** After an insertion the value is found at its path, and every other top-level key is untouched. */
  lemma {:induction false} InsertThenLookup(tree: Dicts.Dict<Key, Value>, path: seq<Key>, v: string, other: Key)
    requires |path| >= 1 && Insert(tree, path, v).Ok?
    ensures Lookup(Insert(tree, path, v).value, path) == Some(VStr(v))
    ensures other != path[0] ==> Dicts.Get(Insert(tree, path, v).value, other) == Dicts.Get(tree, other)
    decreases |path|
  {
    if |path| == 1 {
      Dicts.GetPut(tree, path[0], VStr(v), other);
    } else {
      var child := ChildDict(Dicts.Get(tree, path[0])).value;
      InsertThenLookup(child, path[1..], v, other);
      var child' := Insert(child, path[1..], v).value;
      Dicts.GetPut(tree, path[0], VDict(child'), other);
    }
  }

  /**
   * An insertion leaves every path that leaves its own at some position `k` as it was, nested
   * siblings included: after `a.b=1`, inserting `a.c=2` keeps `a.b`.
   */
  lemma {:induction false} InsertKeepsOtherPaths(tree: Dicts.Dict<Key, Value>, path: seq<Key>, v: string, other: seq<Key>, k: nat)
    requires |path| >= 1 && |other| >= 1 && Insert(tree, path, v).Ok?
    requires k < |path| && k < |other| && other[k] != path[k]
    ensures Lookup(Insert(tree, path, v).value, other) == Lookup(tree, other)
    decreases |path|
  {
    var tree' := Insert(tree, path, v).value;
    if other[0] != path[0] {
      if |path| == 1 {
        Dicts.GetPut(tree, path[0], VStr(v), other[0]);
      } else {
        var child' := Insert(ChildDict(Dicts.Get(tree, path[0])).value, path[1..], v).value;
        Dicts.GetPut(tree, path[0], VDict(child'), other[0]);
      }
      assert Dicts.Get(tree', other[0]) == Dicts.Get(tree, other[0]);
    } else {
      var child := ChildDict(Dicts.Get(tree, path[0])).value;
      var child' := Insert(child, path[1..], v).value;
      assert tree' == Dicts.Put(tree, path[0], VDict(child'));
      Dicts.GetPut(tree, path[0], VDict(child'), other[0]);
      InsertKeepsOtherPaths(child, path[1..], v, other[1..], k - 1);
      assert Lookup(tree', other) == Lookup(child', other[1..]);
      if Dicts.Get(tree, path[0]).None? {
        assert Lookup(child, other[1..]) == None;
      }
    }
  }

  /** The outer loop of `parse_cli_inputs` over the entries of the flattened dict. */
  function BuildTree(tree: Dicts.Dict<Key, Value>, flat: seq<(string, string)>): Result<Dicts.Dict<Key, Value>, CliError>
    decreases |flat|
  {
    if |flat| == 0 then Ok(tree)
    else
      var tokens :- ParseKey(flat[0].0);
      var tree' :- Insert(tree, TokenKeys(tokens), flat[0].1);
      BuildTree(tree', flat[1..])
  }

  /** `parse_cli_inputs(opts)`. */
  function ParseCliInputs(opts: seq<string>, env: Loaders): (r: Result<Value, CliError>)
    ensures (exists i :: 0 <= i < |opts| && '=' !in opts[i]) ==> r.Err? && r.error.MissingEquals?
  {
    var kvs :- ParseKv(opts);
    var flat := Dicts.FromPairs(kvs);
    var tree :- BuildTree([], flat);
    TransformLists(VDict(tree), env)
  }

  /** Of two arguments with the same key, the later one's value is the one kept. */
  lemma LaterArgumentWins(k: string, v1: string, v2: string)
    requires '=' !in k
    ensures Dicts.FromPairs(ParseKv([k + "=" + v1, k + "=" + v2]).value) == [(k, v2)]
  {
    var kvs := ParseKv([k + "=" + v1, k + "=" + v2]).value;
    assert kvs[0].0 + "=" + kvs[0].1 == k + "=" + v1;
    SplitAtEquals(k, v1, kvs[0].0, kvs[0].1);
    SplitAtEquals(k, v2, kvs[1].0, kvs[1].1);
    assert kvs == [(k, v1), (k, v2)];
    assert kvs[..1] == [(k, v1)];
    assert kvs[..1][..0] == [];
    assert Dicts.FromPairs(kvs[..1]) == [(k, v1)];
    assert Dicts.Put([(k, v1)], k, v2) == [(k, v2)];
  }

  /** Two splits of one string at an `=`, both with an `=`-free left side, are the same split. */
  lemma SplitAtEquals(k: string, v: string, k': string, v': string)
    requires '=' !in k && '=' !in k'
    requires k + "=" + v == k' + "=" + v'
    ensures k == k' && v == v'
  {
    var s := k + "=" + v;
    Text.IndexOfAfterPrefix(k, '=', v);
    Text.IndexOfAfterPrefix(k', '=', v');
    assert |k| == |k'|;
    assert k == s[..|k|] == k';
    assert v == s[|k| + 1..] == v';
  }
}

=== FILE: daemon_config.dfy ===
/**
 * The daemon's configuration: built-in defaults deep-merged with the user's YAML document
 * (`recursive_merge`), and lookup of a dotted key such as `serve.port` (`get_config`).
 *
 * Python iterates the merged key set in hash order, so the order of keys in a merged dict is
 * not determined by the program; this model lists the base's keys first, then the keys only the
 * other side has, and every property below is about key sets and values, never about order.
 */
module DaemonConfig {
  import opened Wrappers
  import Text
  import Dicts
  import opened PyValue

  datatype ConfigError =
    | NotAMapping        // `merge.keys()` on a list or scalar that meets a dict: AttributeError
    | MissingKey(key: string)        // `c[k]` on a dict without `k`: KeyError
    | NotSubscriptable(key: string)  // `c[k]` on a value that is not a dict: TypeError

  /** Every dict, at any depth, has distinct keys: true of anything YAML or Python builds. */
  predicate WellFormed(v: Value)
  {
    match v
    case VDict(entries) =>
      Dicts.DistinctKeys(entries) && forall i :: 0 <= i < |entries| ==> WellFormed(entries[i].1)
    case VList(items) => forall i :: 0 <= i < |items| ==> WellFormed(items[i])
    case _ => true
  }

  /** The value `d.get(k, None)` gives. */
  function GetOrNone(d: Dicts.Dict<Key, Value>, k: Key): Value
  {
    Dicts.Get(d, k).GetOr(VNone)
  }

  // ---------------------------------------------------------------------------------------
  // `recursive_merge`

  /**
   * `recursive_merge(base, merge)`: a missing side yields the other, two dicts merge key by key,
   * and otherwise `merge` wins outright (a list is replaced, never merged element-wise).
   */
  function Merge(base: Value, merge: Value): (r: Result<Value, ConfigError>)
    ensures merge.VNone? ==> r == Ok(base)
    ensures !base.VDict? && !merge.VNone? ==> r == Ok(merge)
    ensures base.VDict? && !merge.VNone? && !merge.VDict? ==> r == Err(NotAMapping)
    ensures r.Ok? && base.VDict? && merge.VDict? ==> r.value.VDict?
    decreases base, 1
  {
    if merge.VNone? && !base.VNone? then Ok(base)
    else if base.VNone? && !merge.VNone? then Ok(merge)
    else if !base.VDict? then Ok(merge)
    else if !merge.VDict? then Err(NotAMapping)
    else
      var shared :- MergeEntries(base, 0, merge.entries);
      Ok(VDict(shared + OnlyIn(merge.entries, base.entries)))
  }

  /** The merged entries for the base's keys from position `i` on. */
  function MergeEntries(base: Value, i: nat, m: Dicts.Dict<Key, Value>): (r: Result<Dicts.Dict<Key, Value>, ConfigError>)
    requires base.VDict? && i <= |base.entries|
    ensures r.Ok? ==> |r.value| == |base.entries| - i
    ensures r.Ok? ==> forall j :: 0 <= j < |r.value| ==> r.value[j].0 == base.entries[i + j].0
    decreases base, 0, |base.entries| - i
  {
    if i == |base.entries| then Ok([])
    else
      var head :- Merge(base.entries[i].1, GetOrNone(m, base.entries[i].0));
      var rest :- MergeEntries(base, i + 1, m);
      Ok([(base.entries[i].0, head)] + rest)
  }

  /**
   * The entries of `m` whose key `b` lacks; for them `recursive_merge(None, v)` is `v` itself.
   */
  function OnlyIn(m: Dicts.Dict<Key, Value>, b: Dicts.Dict<Key, Value>): (r: Dicts.Dict<Key, Value>)
    ensures forall k :: Dicts.HasKey(r, k) <==> Dicts.HasKey(m, k) && !Dicts.HasKey(b, k)
    ensures forall i :: 0 <= i < |r| ==> Dicts.Get(m, r[i].0) == Some(r[i].1) || !Dicts.DistinctKeys(m)
  {
    if |m| == 0 then []
    else
      var rest := OnlyIn(m[1..], b);
      var r := (if Dicts.HasKey(b, m[0].0) then [] else [m[0]]) + rest;
      OnlyInStep(m, b, rest);
      r
  }

  /** `OnlyIn`'s contract for the whole of `m`, from the contract for its tail. */
  lemma OnlyInStep(m: Dicts.Dict<Key, Value>, b: Dicts.Dict<Key, Value>, rest: Dicts.Dict<Key, Value>)
    requires |m| > 0
    requires forall k :: Dicts.HasKey(rest, k) <==> Dicts.HasKey(m[1..], k) && !Dicts.HasKey(b, k)
    requires forall i :: 0 <= i < |rest| ==> Dicts.Get(m[1..], rest[i].0) == Some(rest[i].1) || !Dicts.DistinctKeys(m[1..])
    ensures var r := (if Dicts.HasKey(b, m[0].0) then [] else [m[0]]) + rest;
      forall k :: Dicts.HasKey(r, k) <==> Dicts.HasKey(m, k) && !Dicts.HasKey(b, k)
    ensures var r := (if Dicts.HasKey(b, m[0].0) then [] else [m[0]]) + rest;
      forall i :: 0 <= i < |r| ==> Dicts.Get(m, r[i].0) == Some(r[i].1) || !Dicts.DistinctKeys(m)
  {
    var head: Dicts.Dict<Key, Value> := if Dicts.HasKey(b, m[0].0) then [] else [m[0]];
    var r := head + rest;
    forall k ensures Dicts.HasKey(r, k) <==> Dicts.HasKey(m, k) && !Dicts.HasKey(b, k) {
      Dicts.HasKeyAppend(head, rest, k);
      Dicts.HasKeyCons(m, k);
      if head != [] { Dicts.HasKeyCons(head, k); }
    }
    forall i | 0 <= i < |r| && Dicts.DistinctKeys(m) ensures Dicts.Get(m, r[i].0) == Some(r[i].1) {
      Dicts.DistinctTail(m);
      if i >= |head| {
        var j := i - |head|;
        assert r[i] == rest[j];
        assert Dicts.HasKey(rest, rest[j].0);
        assert m[0].0 != rest[j].0;
      }
    }
  }

  /**
   * Where the two sides clash: some key path both reach has a dict on the base side and, on
   * the merge side, a value that is neither a dict nor `None`.
   */
  predicate Clash(base: Value, merge: Value)
    decreases base
  {
    base.VDict? && !merge.VNone? &&
    (!merge.VDict? ||
     exists i :: 0 <= i < |base.entries| && Clash(base.entries[i].1, GetOrNone(merge.entries, base.entries[i].0)))
  }

  /** The merge fails exactly when the two sides clash somewhere. */
  lemma {:induction false} MergeFailsIffClash(base: Value, merge: Value)
    ensures Merge(base, merge).Err? <==> Clash(base, merge)
    decreases base, 1
  {
    if base.VDict? && merge.VDict? {
      MergeEntriesFailsIffClash(base, 0, merge.entries);
    }
  }

  lemma {:induction false} MergeEntriesFailsIffClash(base: Value, i: nat, m: Dicts.Dict<Key, Value>)
    requires base.VDict? && i <= |base.entries|
    ensures MergeEntries(base, i, m).Err? <==>
      exists j :: i <= j < |base.entries| && Clash(base.entries[j].1, GetOrNone(m, base.entries[j].0))
    decreases base, 0, |base.entries| - i
  {
    if i < |base.entries| {
      MergeFailsIffClash(base.entries[i].1, GetOrNone(m, base.entries[i].0));
      MergeEntriesFailsIffClash(base, i + 1, m);
    }
  }

  /** The merged dict has exactly the keys of either side. */
  lemma MergeKeysUnion(base: Value, merge: Value, k: Key)
    requires base.VDict? && merge.VDict? && Merge(base, merge).Ok?
    ensures Dicts.HasKey(Merge(base, merge).value.entries, k) <==>
      Dicts.HasKey(base.entries, k) || Dicts.HasKey(merge.entries, k)
  {
    var r := Merge(base, merge).value.entries;
    var only := OnlyIn(merge.entries, base.entries);
    var shared := MergeEntries(base, 0, merge.entries).value;
    assert r == shared + only;
    MergeEntriesKeys(base, merge.entries);
    Dicts.HasKeyAppend(shared, only, k);
    Dicts.HasKeyKeys(shared, k);
    Dicts.HasKeyKeys(base.entries, k);
  }

  /** The shared part of a merge lists the base's keys, in the base's order. */
  lemma MergeEntriesKeys(base: Value, m: Dicts.Dict<Key, Value>)
    requires base.VDict? && MergeEntries(base, 0, m).Ok?
    ensures Dicts.Keys(MergeEntries(base, 0, m).value) == Dicts.Keys(base.entries)
  {
  }

  /** Merging a dict with `{}` gives back the same dict. */
  lemma MergeWithEmpty(base: Value)
    requires base.VDict?
    ensures Merge(base, VDict([])) == Ok(base)
  {
    MergeEntriesWithEmpty(base, 0);
    assert base.entries[0..] == base.entries;
    assert OnlyIn([], base.entries) == [];
    assert Merge(base, VDict([])) == Ok(VDict(base.entries + []));
    assert base.entries + [] == base.entries;
  }

  lemma {:induction false} MergeEntriesWithEmpty(base: Value, i: nat)
    requires base.VDict? && i <= |base.entries|
    ensures MergeEntries(base, i, []) == Ok(base.entries[i..])
    decreases |base.entries| - i
  {
    if i < |base.entries| {
      MergeEntriesWithEmpty(base, i + 1);
      assert base.entries[i..] == [base.entries[i]] + base.entries[i + 1..];
    }
  }

  /** Merging a well-formed value with itself changes nothing. */
  lemma {:induction false} MergeIdempotent(v: Value)
    requires WellFormed(v)
    ensures Merge(v, v) == Ok(v)
    decreases v, 1
  {
    if v.VDict? {
      MergeEntriesSelf(v, 0);
      assert v.entries[0..] == v.entries;
      OnlyInSelf(v.entries);
      assert Merge(v, v) == Ok(VDict(v.entries + []));
      assert v.entries + [] == v.entries;
    }
  }

  lemma {:induction false} MergeEntriesSelf(v: Value, i: nat)
    requires v.VDict? && WellFormed(v) && i <= |v.entries|
    ensures MergeEntries(v, i, v.entries) == Ok(v.entries[i..])
    decreases v, 0, |v.entries| - i
  {
    if i < |v.entries| {
      var e := v.entries[i];
      Dicts.GetDistinct(v.entries, i);
      assert GetOrNone(v.entries, e.0) == e.1;
      MergeIdempotent(e.1);
      MergeEntriesSelf(v, i + 1);
      MergeEntriesSelfStep(v, i);
    } else {
      assert v.entries[i..] == [];
    }
  }

  lemma MergeEntriesSelfStep(v: Value, i: nat)
    requires v.VDict? && i < |v.entries|
    requires Merge(v.entries[i].1, GetOrNone(v.entries, v.entries[i].0)) == Ok(v.entries[i].1)
    requires MergeEntries(v, i + 1, v.entries) == Ok(v.entries[i + 1..])
    ensures MergeEntries(v, i, v.entries) == Ok(v.entries[i..])
  {
    MergeEntriesCons(v, i, v.entries);
    assert v.entries[i..] == [v.entries[i]] + v.entries[i + 1..];
  }

  /** One step of `MergeEntries` when both the entry's merge and the rest succeed. */
  lemma MergeEntriesCons(base: Value, i: nat, m: Dicts.Dict<Key, Value>)
    requires base.VDict? && i < |base.entries|
    requires Merge(base.entries[i].1, GetOrNone(m, base.entries[i].0)).Ok?
    requires MergeEntries(base, i + 1, m).Ok?
    ensures MergeEntries(base, i, m) == Ok(
      [(base.entries[i].0, Merge(base.entries[i].1, GetOrNone(m, base.entries[i].0)).value)]
      + MergeEntries(base, i + 1, m).value)
  {
  }

  /** Nothing is left over when `b` has every key of `m`. */
  lemma {:induction false} OnlyInCovered(m: Dicts.Dict<Key, Value>, b: Dicts.Dict<Key, Value>)
    requires forall i :: 0 <= i < |m| ==> Dicts.HasKey(b, m[i].0)
    ensures OnlyIn(m, b) == []
    decreases |m|
  {
    if |m| > 0 {
      assert Dicts.HasKey(b, m[0].0);
      OnlyInCovered(m[1..], b);
    }
  }

  lemma OnlyInSelf(d: Dicts.Dict<Key, Value>)
    ensures OnlyIn(d, d) == []
  {
    forall i | 0 <= i < |d| ensures Dicts.HasKey(d, d[i].0) {
    }
    OnlyInCovered(d, d);
  }

  /** Each key both sides share holds the merge of the two values; a key only `merge` has keeps its value. */
  lemma MergeValueAt(base: Value, merge: Value, k: Key)
    requires base.VDict? && merge.VDict? && Dicts.DistinctKeys(base.entries) && Dicts.DistinctKeys(merge.entries)
    requires Merge(base, merge).Ok?
    ensures var r := Merge(base, merge).value.entries;
      && (Dicts.HasKey(base.entries, k) ==>
            Merge(GetOrNone(base.entries, k), GetOrNone(merge.entries, k)).Ok? &&
            Dicts.Get(r, k) == Some(Merge(GetOrNone(base.entries, k), GetOrNone(merge.entries, k)).value))
      && (!Dicts.HasKey(base.entries, k) ==> Dicts.Get(r, k) == Dicts.Get(merge.entries, k))
  {
    var r := Merge(base, merge).value.entries;
    var shared := MergeEntries(base, 0, merge.entries).value;
    var only := OnlyIn(merge.entries, base.entries);
    assert r == shared + only;
    if Dicts.HasKey(base.entries, k) {
      var i := Dicts.KeyIndex(base.entries, k);
      Dicts.GetDistinct(base.entries, i);
      MergeEntriesAt(base, 0, merge.entries, i);
      MergeEntriesKeys(base, merge.entries);
      Dicts.DistinctByKeys(base.entries, shared);
      Dicts.GetDistinct(shared, i);
      assert Dicts.HasKey(shared, k) by { assert shared[i].0 == k; }
      Dicts.GetAppendLeft(shared, only, k);
    } else {
      assert !Dicts.HasKey(shared, k) by {
        Dicts.HasKeyKeys(shared, k);
        Dicts.HasKeyKeys(base.entries, k);
        MergeEntriesKeys(base, merge.entries);
      }
      Dicts.GetAppendRight(shared, only, k);
      if Dicts.HasKey(merge.entries, k) {
        var i :| 0 <= i < |only| && only[i].0 == k;
        assert Dicts.Get(merge.entries, only[i].0) == Some(only[i].1);
        GetDistinctOnly(merge.entries, base.entries, i);
      } else {
        assert !Dicts.HasKey(only, k);
      }
    }
  }

  lemma GetDistinctOnly(m: Dicts.Dict<Key, Value>, b: Dicts.Dict<Key, Value>, i: nat)
    requires Dicts.DistinctKeys(m)
    requires i < |OnlyIn(m, b)|
    ensures var only := OnlyIn(m, b); Dicts.Get(only, only[i].0) == Some(only[i].1)
  {
    var only := OnlyIn(m, b);
    var j := Dicts.KeyIndex(only, only[i].0);
    Dicts.GetKeyIndex(only, only[i].0);
    assert Dicts.Get(m, only[j].0) == Some(only[j].1);
  }

  /** Entry `i` of the merged shared part is the merge of base entry `i` with its counterpart. */
  lemma {:induction false} MergeEntriesAt(base: Value, from: nat, m: Dicts.Dict<Key, Value>, i: nat)
    requires base.VDict? && from <= i < |base.entries| && MergeEntries(base, from, m).Ok?
    ensures var e := base.entries[i];
      && Merge(e.1, GetOrNone(m, e.0)).Ok?
      && MergeEntries(base, from, m).value[i - from] == (e.0, Merge(e.1, GetOrNone(m, e.0)).value)
    decreases i - from
  {
    if from < i {
      MergeEntriesSplit(base, from, m);
      MergeEntriesAt(base, from + 1, m, i);
      MergeEntriesAtStep(base, from, m, i);
    } else {
      MergeEntriesSplit(base, from, m);
    }
  }

  lemma MergeEntriesAtStep(base: Value, from: nat, m: Dicts.Dict<Key, Value>, i: nat)
    requires base.VDict? && from < i < |base.entries| && MergeEntries(base, from, m).Ok?
    requires MergeEntries(base, from + 1, m).Ok?
    requires var e := base.entries[i];
      && Merge(e.1, GetOrNone(m, e.0)).Ok?
      && MergeEntries(base, from + 1, m).value[i - (from + 1)] == (e.0, Merge(e.1, GetOrNone(m, e.0)).value)
    ensures var e := base.entries[i];
      MergeEntries(base, from, m).value[i - from] == (e.0, Merge(e.1, GetOrNone(m, e.0)).value)
  {
    MergeEntriesSplit(base, from, m);
    var e := base.entries[from];
    ConsIndex((e.0, Merge(e.1, GetOrNone(m, e.0)).value), MergeEntries(base, from + 1, m).value,
      MergeEntries(base, from, m).value, i - from);
  }

  lemma ConsIndex<T>(head: T, tail: seq<T>, whole: seq<T>, k: nat)
    requires whole == [head] + tail && 0 < k <= |tail|
    ensures whole[k] == tail[k - 1]
  {
  }

  /** A successful `MergeEntries` step: the entry's merge and the rest both succeeded. */
  lemma MergeEntriesSplit(base: Value, i: nat, m: Dicts.Dict<Key, Value>)
    requires base.VDict? && i < |base.entries| && MergeEntries(base, i, m).Ok?
    ensures Merge(base.entries[i].1, GetOrNone(m, base.entries[i].0)).Ok?
    ensures MergeEntries(base, i + 1, m).Ok?
    ensures MergeEntries(base, i, m).value ==
      [(base.entries[i].0, Merge(base.entries[i].1, GetOrNone(m, base.entries[i].0)).value)]
      + MergeEntries(base, i + 1, m).value
  {
  }

  // ---------------------------------------------------------------------------------------
  // `get_config`

  /** `c[k]` for a string key. */
  function Step(c: Value, k: string): (r: Result<Value, ConfigError>)
    ensures r.Ok? <==> c.VDict? && Dicts.HasKey(c.entries, KStr(k))
    ensures r.Ok? ==> Dicts.Get(c.entries, KStr(k)) == Some(r.value)
  {
    match c
    case VDict(entries) =>
      (match Dicts.Get(entries, KStr(k))
       case None => Err(MissingKey(k))
       case Some(v) => Ok(v))
    case _ => Err(NotSubscriptable(k))
  }

  /** Descending one level per key. */
  function Descend(c: Value, keys: seq<string>): Result<Value, ConfigError>
    decreases |keys|
  {
    if |keys| == 0 then Ok(c)
    else
      var next :- Step(c, keys[0]);
      Descend(next, keys[1..])
  }

  /** `get_config(key)` on the loaded configuration `config`. */
  function GetConfig(config: Value, key: string): Result<Value, ConfigError>
  {
    Descend(config, Text.Split(key, '.'))
  }

  /** Descending a longer path continues from where the shorter one arrived. */
  lemma {:induction false} DescendAppend(c: Value, p: seq<string>, q: seq<string>)
    ensures Descend(c, p + q) == (match Descend(c, p) case Ok(v) => Descend(v, q) case Err(e) => Err(e))
    decreases |p|
  {
    if |p| == 0 {
      assert p + q == q;
    } else {
      assert (p + q)[1..] == p[1..] + q;
      if Step(c, p[0]).Ok? {
        DescendAppend(Step(c, p[0]).value, p[1..], q);
      }
    }
  }

  /** A dotted key reaches the value at the end of its path of segments. */
  lemma GetConfigPath(config: Value, path: seq<string>)
    requires |path| >= 1 && forall i :: 0 <= i < |path| ==> '.' !in path[i]
    ensures GetConfig(config, Text.Join(path, '.')) == Descend(config, path)
  {
    Text.SplitJoin(path, '.');
  }

  /**
   * A segment missing from the dict reached so far raises `KeyError` for that segment, whatever
   * follows it.
   */
  lemma MissingSegmentRaises(config: Value, path: seq<string>, j: nat)
    requires j < |path|
    requires Descend(config, path[..j]).Ok?
    requires var c := Descend(config, path[..j]).value; c.VDict? && !Dicts.HasKey(c.entries, KStr(path[j]))
    ensures Descend(config, path) == Err(MissingKey(path[j]))
  {
    assert path == path[..j] + path[j..];
    DescendAppend(config, path[..j], path[j..]);
  }

  // ---------------------------------------------------------------------------------------
  // `default_config` and `init_config`

  /** The `serve` section of `default_config`. */
  const DefaultServe: Value := VDict([(KStr("host"), VStr("127.0.0.1")), (KStr("port"), VInt(5402))])

  /** `default_config`, with the home directory as a parameter. */
  function Defaults(home: string): (d: Value)
    ensures d.VDict? && |d.entries| == 3 && d.entries[0] == (KStr("serve"), DefaultServe)
    ensures d.entries[1].0 == KStr("storage_path") && d.entries[2].0 == KStr("worker_threads")
  {
    VDict([
      (KStr("serve"), DefaultServe),
      (KStr("storage_path"), VStr(Text.PathJoin(home, [".cache", "hivemind"]))),
      (KStr("worker_threads"), VInt(16))])
  }

  /** `init_config`: the defaults merged with the user's file, or with `{}` when there is none. */
  function InitConfig(home: string, userFile: Option<Value>): Result<Value, ConfigError>
  {
    Merge(Defaults(home), userFile.GetOr(VDict([])))
  }

  /** A two-segment key: the first segment's value, then the second's within it. */
  lemma GetConfigTwo(c: Value, a: string, b: string)
    requires '.' !in a && '.' !in b
    ensures GetConfig(c, a + "." + b) ==
      (match Step(c, a) case Ok(v) => Step(v, b) case Err(e) => Err(e))
  {
    assert [a, b][1..] == [b] && [b][1..] == [];
    assert Text.Join([a, b], '.') == a + "." + b by {
      assert Text.Join([b], '.') == b;
    }
    GetConfigPath(c, [a, b]);
    if Step(c, a).Ok? {
      var v := Step(c, a).value;
      assert Descend(c, [a, b]) == Descend(v, [b]);
      assert Descend(v, [b]) == Step(v, b) by {
        if Step(v, b).Ok? {
          assert Descend(Step(v, b).value, []) == Ok(Step(v, b).value);
        }
      }
    }
  }

  /** Without a user file, every default is in force: the port is 5402. */
  lemma DefaultPort(home: string)
    ensures InitConfig(home, None) == Ok(Defaults(home))
    ensures GetConfig(Defaults(home), "serve.port") == Ok(VInt(5402))
  {
    MergeWithEmpty(Defaults(home));
    DefaultServePort(Defaults(home));
  }

  lemma DefaultServePort(d: Value)
    requires d.VDict? && |d.entries| >= 1 && d.entries[0] == (KStr("serve"), DefaultServe)
    ensures GetConfig(d, "serve.port") == Ok(VInt(5402))
  {
    GetConfigTwo(d, "serve", "port");
    assert "serve" + "." + "port" == "serve.port";
    assert Step(d, "serve") == Ok(DefaultServe);
    assert DefaultServe.entries[1].0 == KStr("port");
    assert Step(DefaultServe, "port") == Ok(VInt(5402));
  }

  /** The user's file that sets only the port, and the `serve` section it produces. */
  const UserServe: Dicts.Dict<Key, Value> := [(KStr("port"), VInt(6000))]
  const UserPortOnly: Value := VDict([(KStr("serve"), VDict(UserServe))])
  const MergedServe: Value := VDict([(KStr("host"), VStr("127.0.0.1")), (KStr("port"), VInt(6000))])

  lemma MergeServePort(m: Dicts.Dict<Key, Value>)
    requires m == UserServe
    ensures MergeEntries(DefaultServe, 1, m) == Ok(m)
  {
    assert DefaultServe.entries[1] == (KStr("port"), VInt(5402));
    assert GetOrNone(m, KStr("port")) == VInt(6000);
    assert Merge(VInt(5402), VInt(6000)) == Ok(VInt(6000));
    assert MergeEntries(DefaultServe, 2, m) == Ok([]);
    assert [(KStr("port"), VInt(6000))] + [] == m;
  }

  lemma MergeServeHost(m: Dicts.Dict<Key, Value>)
    requires m == UserServe
    ensures MergeEntries(DefaultServe, 0, m) == Ok(MergedServe.entries)
  {
    MergeServePort(m);
    assert DefaultServe.entries[0] == (KStr("host"), VStr("127.0.0.1"));
    assert GetOrNone(m, KStr("host")) == VNone;
    assert Merge(VStr("127.0.0.1"), VNone) == Ok(VStr("127.0.0.1"));
    assert [(KStr("host"), VStr("127.0.0.1"))] + m == MergedServe.entries;
  }

  /** The user's port replaces the default one; the default host stays. */
  lemma MergeServeSection()
    ensures Merge(DefaultServe, VDict(UserServe)) == Ok(MergedServe)
  {
    MergeServeHost(UserServe);
    assert Dicts.HasKey(DefaultServe.entries, KStr("port")) by {
      assert DefaultServe.entries[1].0 == KStr("port");
    }
    assert OnlyIn(UserServe, DefaultServe.entries) == [];
    assert MergedServe.entries + [] == MergedServe.entries;
  }

  /** The defaults merged with the port-only file: the tail entries are untouched. */
  lemma MergeDefaultsTail(d: Value, u: Dicts.Dict<Key, Value>)
    requires d.VDict? && |d.entries| == 3 && d.entries[1].0 == KStr("storage_path") && d.entries[2].0 == KStr("worker_threads")
    requires u == UserPortOnly.entries
    ensures MergeEntries(d, 1, u) == Ok(d.entries[1..])
  {
    assert GetOrNone(u, d.entries[1].0) == VNone;
    assert GetOrNone(u, d.entries[2].0) == VNone;
    assert Merge(d.entries[1].1, VNone) == Ok(d.entries[1].1);
    assert Merge(d.entries[2].1, VNone) == Ok(d.entries[2].1);
    assert MergeEntries(d, 3, u) == Ok([]);
    assert [(d.entries[2].0, d.entries[2].1)] + [] == [d.entries[2]];
    assert MergeEntries(d, 2, u) == Ok([d.entries[2]]);
    assert d.entries[1..] == [d.entries[1], d.entries[2]];
    assert [(d.entries[1].0, d.entries[1].1)] + [d.entries[2]] == d.entries[1..];
  }

  lemma MergeDefaults(home: string)
    ensures InitConfig(home, Some(UserPortOnly)) == Ok(VDict([(KStr("serve"), MergedServe)] + Defaults(home).entries[1..]))
  {
    var d := Defaults(home);
    var u := UserPortOnly.entries;
    MergeDefaultsTail(d, u);
    MergeServeSection();
    assert GetOrNone(u, KStr("serve")) == VDict(UserServe);
    assert MergeEntries(d, 0, u) == Ok([(KStr("serve"), MergedServe)] + d.entries[1..]);
    assert Dicts.HasKey(d.entries, KStr("serve")) by { assert d.entries[0].0 == KStr("serve"); }
    assert OnlyIn(u, d.entries) == [];
    var c := [(KStr("serve"), MergedServe)] + d.entries[1..];
    assert c + [] == c;
  }

  /** A user file that sets only the port keeps the default host beside it. */
  lemma UserPortKeepsDefaultHost(home: string)
    ensures InitConfig(home, Some(UserPortOnly)).Ok?
    ensures GetConfig(InitConfig(home, Some(UserPortOnly)).value, "serve.port") == Ok(VInt(6000))
    ensures GetConfig(InitConfig(home, Some(UserPortOnly)).value, "serve.host") == Ok(VStr("127.0.0.1"))
  {
    MergeDefaults(home);
    MergedServeLookups(InitConfig(home, Some(UserPortOnly)).value);
  }

  lemma MergedServeLookups(c: Value)
    requires c.VDict? && |c.entries| >= 1 && c.entries[0] == (KStr("serve"), MergedServe)
    ensures GetConfig(c, "serve.port") == Ok(VInt(6000))
    ensures GetConfig(c, "serve.host") == Ok(VStr("127.0.0.1"))
  {
    MergedServePort(c);
    MergedServeHost(c);
  }

  lemma MergedServePort(c: Value)
    requires c.VDict? && |c.entries| >= 1 && c.entries[0] == (KStr("serve"), MergedServe)
    ensures GetConfig(c, "serve.port") == Ok(VInt(6000))
  {
    GetConfigTwo(c, "serve", "port");
    assert "serve" + "." + "port" == "serve.port";
    assert Step(c, "serve") == Ok(MergedServe);
    assert MergedServe.entries[1].0 == KStr("port");
    assert Step(MergedServe, "port") == Ok(VInt(6000));
  }

  lemma MergedServeHost(c: Value)
    requires c.VDict? && |c.entries| >= 1 && c.entries[0] == (KStr("serve"), MergedServe)
    ensures GetConfig(c, "serve.host") == Ok(VStr("127.0.0.1"))
  {
    GetConfigTwo(c, "serve", "host");
    assert "serve" + "." + "host" == "serve.host";
    assert Step(c, "serve") == Ok(MergedServe);
    assert Step(MergedServe, "host") == Ok(VStr("127.0.0.1"));
  }
}

=== FILE: dicts.dfy ===
/**
 * Python's `dict`: a finite map that remembers the order in which keys were first inserted.
 * It is modelled as a list of (key, value) entries with pairwise distinct keys; assigning to
 * an existing key replaces its value in place, assigning to a new key appends it.
 */
module Dicts {
  import opened Wrappers

  type Dict<K, V> = seq<(K, V)>

  /** The keys in insertion order (iterating a Python dict). */
  function Keys<K(==), V>(d: Dict<K, V>): (ks: seq<K>)
    ensures |ks| == |d|
    ensures forall i :: 0 <= i < |d| ==> ks[i] == d[i].0
  {
    seq(|d|, i requires 0 <= i < |d| => d[i].0)
  }

  /** No key occurs twice: every dict the program builds has this shape. */
  predicate DistinctKeys<K(==), V>(d: Dict<K, V>)
  {
    forall i, j :: 0 <= i < j < |d| ==> d[i].0 != d[j].0
  }

  predicate HasKey<K(==), V>(d: Dict<K, V>, k: K)
  {
    exists i :: 0 <= i < |d| && d[i].0 == k
  }

  /** `d.get(k)`: the value of the first entry with key `k`, or `None`. */
  function Get<K(==), V>(d: Dict<K, V>, k: K): (r: Option<V>)
    ensures r.None? <==> !HasKey(d, k)
    ensures r.Some? ==> exists i :: 0 <= i < |d| && d[i] == (k, r.value)
  {
    if |d| == 0 then None
    else if d[0].0 == k then Some(d[0].1)
    else
      var r := Get(d[1..], k);
      assert r.Some? ==> exists i :: 0 <= i < |d| && d[i] == (k, r.value) by {
        if r.Some? {
          var i :| 0 <= i < |d[1..]| && d[1..][i] == (k, r.value);
          assert d[i + 1] == d[1..][i];
        }
      }
      assert HasKey(d, k) ==> HasKey(d[1..], k) by {
        if HasKey(d, k) {
          var i :| 0 <= i < |d| && d[i].0 == k;
          assert d[1..][i - 1].0 == k;
        }
      }
      r
  }

  /** Position of the entry with key `k`. */
  function KeyIndex<K(==), V>(d: Dict<K, V>, k: K): (i: nat)
    requires HasKey(d, k)
    ensures i < |d| && d[i].0 == k
    ensures forall j :: 0 <= j < i ==> d[j].0 != k
  {
    if d[0].0 == k then 0
    else
      assert HasKey(d[1..], k) by {
        var i :| 0 <= i < |d| && d[i].0 == k;
        assert d[1..][i - 1].0 == k;
      }
      1 + KeyIndex(d[1..], k)
  }

  /** `d[k]` reads the entry at `KeyIndex(d, k)`. */
  lemma {:induction false} GetKeyIndex<K, V>(d: Dict<K, V>, k: K)
    requires HasKey(d, k)
    ensures Get(d, k) == Some(d[KeyIndex(d, k)].1)
    decreases |d|
  {
    if d[0].0 != k {
      assert HasKey(d[1..], k) by {
        var i :| 0 <= i < |d| && d[i].0 == k;
        assert d[1..][i - 1].0 == k;
      }
      GetKeyIndex(d[1..], k);
    }
  }

  /** `d[k] = v`. */
  function Put<K(==), V>(d: Dict<K, V>, k: K, v: V): (r: Dict<K, V>)
    ensures HasKey(d, k) ==> |r| == |d|
    ensures !HasKey(d, k) ==> r == d + [(k, v)]
  {
    if |d| == 0 then [(k, v)]
    else if d[0].0 == k then [(k, v)] + d[1..]
    else
      assert HasKey(d, k) <==> HasKey(d[1..], k) by {
        if HasKey(d, k) {
          var i :| 0 <= i < |d| && d[i].0 == k;
          assert d[1..][i - 1].0 == k;
        }
        if HasKey(d[1..], k) {
          var i :| 0 <= i < |d[1..]| && d[1..][i].0 == k;
          assert d[i + 1].0 == k;
        }
      }
      [d[0]] + Put(d[1..], k, v)
  }

  /** `d.pop(k)` when present; no change when absent. */
  function Remove<K(==), V>(d: Dict<K, V>, k: K): (r: Dict<K, V>)
    ensures !HasKey(r, k)
    ensures |r| <= |d|
  {
    if |d| == 0 then []
    else if d[0].0 == k then Remove(d[1..], k)
    else [d[0]] + Remove(d[1..], k)
  }

  /** Removing `k` leaves every other key's value as it was. */
  lemma {:induction false} GetRemove<K, V>(d: Dict<K, V>, k: K, k': K)
    requires k' != k
    ensures Get(Remove(d, k), k') == Get(d, k')
    decreases |d|
  {
    if |d| > 0 {
      GetRemove(d[1..], k, k');
    }
  }

  /** A value found after removing another key was there before the removal. */
  lemma GetRemoveSome<K, V>(d: Dict<K, V>, k: K, k': K, x: V)
    requires k' != k && Get(Remove(d, k), k') == Some(x)
    ensures Get(d, k') == Some(x)
  {
    GetRemove(d, k, k');
  }

  /** `dict(pairs)`: assign each pair in turn, starting from `{}`. */
  function FromPairs<K(==), V>(pairs: seq<(K, V)>): Dict<K, V>
  {
    if |pairs| == 0 then [] else Put(FromPairs(pairs[..|pairs| - 1]), pairs[|pairs| - 1].0, pairs[|pairs| - 1].1)
  }

  /** The key order of a dict after assigning `k` (a new key goes last). */
  lemma {:induction false} PutKeys<K, V>(d: Dict<K, V>, k: K, v: V)
    ensures HasKey(d, k) ==> Keys(Put(d, k, v)) == Keys(d)
    ensures !HasKey(d, k) ==> Keys(Put(d, k, v)) == Keys(d) + [k]
    decreases |d|
  {
    if |d| > 0 {
      assert d == [d[0]] + d[1..];
      KeysCons(d[0].0, d[0].1, d[1..], d[0].1, d[1..]);
      HasKeyCons(d, k);
      if d[0].0 != k {
        PutKeys(d[1..], k, v);
        var p := Put(d[1..], k, v);
        KeysCons(d[0].0, d[0].1, p, d[0].1, p);
      } else {
        KeysCons(k, v, d[1..], d[0].1, d[1..]);
      }
    }
  }

  /** Reading after assigning: the assigned key has the new value, every other key is unchanged. */
  lemma {:induction false} GetPut<K, V>(d: Dict<K, V>, k: K, v: V, k': K)
    ensures Get(Put(d, k, v), k) == Some(v)
    ensures k' != k ==> Get(Put(d, k, v), k') == Get(d, k')
    decreases |d|
  {
    if |d| > 0 && d[0].0 != k {
      GetPut(d[1..], k, v, k');
    }
  }

  /** Assigning keeps keys distinct. */
  lemma {:induction false} PutDistinct<K, V>(d: Dict<K, V>, k: K, v: V)
    requires DistinctKeys(d)
    ensures DistinctKeys(Put(d, k, v))
    decreases |d|
  {
    PutKeys(d, k, v);
    var r := Put(d, k, v);
    assert Keys(r) == Keys(d) || Keys(r) == Keys(d) + [k];
    if !HasKey(d, k) {
      forall i, j | 0 <= i < j < |r| ensures r[i].0 != r[j].0 {
        assert Keys(r)[i] == r[i].0 && Keys(r)[j] == r[j].0;
        if j == |d| {
          assert r[i].0 == d[i].0;
        } else {
          assert r[i].0 == d[i].0 && r[j].0 == d[j].0;
        }
      }
    } else {
      forall i, j | 0 <= i < j < |r| ensures r[i].0 != r[j].0 {
        assert Keys(r)[i] == r[i].0 && Keys(r)[j] == r[j].0;
        assert Keys(d)[i] == d[i].0 && Keys(d)[j] == d[j].0;
      }
    }
  }

  /** The value `dict(pairs)` holds for `k`: that of the LAST pair with key `k`. */
  function LastValue<K(==), V>(pairs: seq<(K, V)>, k: K): Option<V>
  {
    if |pairs| == 0 then None
    else if pairs[|pairs| - 1].0 == k then Some(pairs[|pairs| - 1].1)
    else LastValue(pairs[..|pairs| - 1], k)
  }

  /** In `dict(pairs)` a later pair overrides an earlier one with the same key. */
  lemma {:induction false} FromPairsGet<K, V>(pairs: seq<(K, V)>, k: K)
    ensures Get(FromPairs(pairs), k) == LastValue(pairs, k)
    decreases |pairs|
  {
    if |pairs| > 0 {
      var last := pairs[|pairs| - 1];
      FromPairsGet(pairs[..|pairs| - 1], k);
      GetPut(FromPairs(pairs[..|pairs| - 1]), last.0, last.1, k);
    }
  }

  /** `dict(pairs)` has distinct keys. */
  lemma {:induction false} FromPairsDistinct<K, V>(pairs: seq<(K, V)>)
    ensures DistinctKeys(FromPairs(pairs))
    decreases |pairs|
  {
    if |pairs| > 0 {
      var last := pairs[|pairs| - 1];
      FromPairsDistinct(pairs[..|pairs| - 1]);
      PutDistinct(FromPairs(pairs[..|pairs| - 1]), last.0, last.1);
    }
  }

  /** Membership of a key can be read off the key list. */
  lemma HasKeyKeys<K, V>(d: Dict<K, V>, k: K)
    ensures HasKey(d, k) <==> k in Keys(d)
  {
    if k in Keys(d) {
      var i :| 0 <= i < |Keys(d)| && Keys(d)[i] == k;
      assert d[i].0 == k;
    }
  }

  /** Distinctness depends on the key list only. */
  lemma DistinctByKeys<K, V, W>(a: Dict<K, V>, b: Dict<K, W>)
    requires DistinctKeys(a) && Keys(a) == Keys(b)
    ensures DistinctKeys(b)
  {
    forall i, j | 0 <= i < j < |b| ensures b[i].0 != b[j].0 {
      assert Keys(b)[i] == b[i].0 && Keys(b)[j] == b[j].0;
    }
  }

  /** With distinct keys, looking up the key of entry `i` finds entry `i`. */
  lemma GetDistinct<K, V>(d: Dict<K, V>, i: nat)
    requires DistinctKeys(d) && i < |d|
    ensures Get(d, d[i].0) == Some(d[i].1)
  {
    GetKeyIndex(d, d[i].0);
  }

  /** Lookup in `a + b` of a key `a` has looks in `a`. */
  lemma {:induction false} GetAppendLeft<K, V>(a: Dict<K, V>, b: Dict<K, V>, k: K)
    requires HasKey(a, k)
    ensures Get(a + b, k) == Get(a, k)
    decreases |a|
  {
    if a[0].0 != k {
      assert HasKey(a[1..], k) by {
        var i :| 0 <= i < |a| && a[i].0 == k;
        assert a[1..][i - 1].0 == k;
      }
      GetAppendLeft(a[1..], b, k);
      assert (a + b)[1..] == a[1..] + b;
    }
  }

  /** Lookup in `a + b` of a key `a` lacks looks in `b`. */
  lemma {:induction false} GetAppendRight<K, V>(a: Dict<K, V>, b: Dict<K, V>, k: K)
    requires !HasKey(a, k)
    ensures Get(a + b, k) == Get(b, k)
    decreases |a|
  {
    if |a| > 0 {
      assert a[0].0 != k;
      assert !HasKey(a[1..], k);
      GetAppendRight(a[1..], b, k);
      assert (a + b)[1..] == a[1..] + b;
    } else {
      assert a + b == b;
    }
  }

  /** A key of `a + b` is a key of `a` or of `b`. */
  lemma HasKeyAppend<K, V>(a: Dict<K, V>, b: Dict<K, V>, k: K)
    ensures HasKey(a + b, k) <==> HasKey(a, k) || HasKey(b, k)
  {
    if HasKey(a + b, k) {
      var i :| 0 <= i < |a + b| && (a + b)[i].0 == k;
      if i >= |a| { assert b[i - |a|].0 == k; }
    }
    if HasKey(a, k) {
      var i :| 0 <= i < |a| && a[i].0 == k;
      assert (a + b)[i].0 == k;
    }
    if HasKey(b, k) {
      var i :| 0 <= i < |b| && b[i].0 == k;
      assert (a + b)[|a| + i].0 == k;
    }
  }

  /** The keys of a non-empty dict: its first key and the keys of the rest. */
  lemma HasKeyCons<K, V>(d: Dict<K, V>, k: K)
    requires |d| > 0
    ensures HasKey(d, k) <==> d[0].0 == k || HasKey(d[1..], k)
  {
    if HasKey(d, k) && d[0].0 != k {
      var i :| 0 <= i < |d| && d[i].0 == k;
      assert d[1..][i - 1].0 == k;
    }
    if HasKey(d[1..], k) {
      var i :| 0 <= i < |d[1..]| && d[1..][i].0 == k;
      assert d[i + 1].0 == k;
    }
  }

  /** One key in front of dicts with the same keys gives dicts with the same keys. */
  lemma KeysCons<K, V, W>(k: K, v: V, d: Dict<K, V>, w: W, e: Dict<K, W>)
    requires Keys(d) == Keys(e)
    ensures Keys([(k, v)] + d) == [k] + Keys(e)
  {
    var a := Keys([(k, v)] + d);
    assert forall i :: 0 < i < |a| ==> a[i] == Keys(d)[i - 1];
  }

  /** Entry `i`'s key in front of the keys of the entries after it: the keys from `i` on. */
  lemma KeysSliceCons<K, V, W>(d: Dict<K, V>, i: nat, w: W, e: Dict<K, W>)
    requires i < |d| && Keys(e) == Keys(d[i + 1..])
    ensures Keys([(d[i].0, w)] + e) == Keys(d[i..])
  {
    KeysCons(d[i].0, w, e, d[i].1, d[i + 1..]);
    assert d[i..] == [d[i]] + d[i + 1..];
    KeysCons(d[i].0, d[i].1, d[i + 1..], d[i].1, d[i + 1..]);
  }

  /** The rest of a dict without repeated keys has none, and lacks the first key. */
  lemma DistinctTail<K, V>(d: Dict<K, V>)
    requires |d| > 0 && DistinctKeys(d)
    ensures DistinctKeys(d[1..])
    ensures !HasKey(d[1..], d[0].0)
  {
    forall x, y | 0 <= x < y < |d[1..]| ensures d[1..][x].0 != d[1..][y].0 {
      assert d[1..][x] == d[x + 1] && d[1..][y] == d[y + 1];
    }
    forall i | 0 <= i < |d[1..]| ensures d[1..][i].0 != d[0].0 {
      assert d[1..][i] == d[i + 1];
    }
  }
}

=== FILE: image_codec.dfy ===
/**
 * The image tensor codec of the browser bridge (`HivemindUtil.encodeImageTensor` and
 * `decodeImageTensor`): RGBA pixel bytes packed six bits per character into the 64-symbol
 * alphabet of section 4 of RFC 4648.
 *
 * Encoding reads the pixel stream three bytes at a time; without alpha it also skips each
 * pixel's fourth byte, so every pixel becomes exactly four characters. With alpha the whole
 * stream is ordinary base64, `=` standing for a byte missing at the end of the stream.
 *
 * Decoding reads four characters at a time and always writes three bytes: its padding tests
 * compare a looked-up number with the string `'='` and so never succeed. Without alpha it then
 * writes 255 as the pixel's alpha byte. Writes past the end of the fresh (all-zero) pixel buffer
 * are dropped, so the result is the written stream cut or zero-filled to the buffer's length.
 */
module ImageCodec {
  import opened Wrappers

  const Upper: string := "ABCDEFGHIJKLMNOPQRSTUVWXYZ"
  const Lower: string := "abcdefghijklmnopqrstuvwxyz"
  const Digits: string := "0123456789"

  /** The alphabet of section 4 of RFC 4648, in value order. */
  const Alphabet: string := Upper + Lower + Digits + "+/"

  /** The character of value `v`, described arithmetically. */
  function SymbolFor(v: nat): char
    requires v < 64
  {
    if v < 26 then ('A' as int + v) as char
    else if v < 52 then ('a' as int + v - 26) as char
    else if v < 62 then ('0' as int + v - 52) as char
    else if v == 62 then '+'
    else '/'
  }

  /** A character's value in the alphabet, and 0 for anything else. */
  function SextetValue(c: char): (v: nat)
    ensures v < 64
  {
    if 'A' <= c <= 'Z' then c as int - 'A' as int
    else if 'a' <= c <= 'z' then c as int - 'a' as int + 26
    else if '0' <= c <= '9' then c as int - '0' as int + 52
    else if c == '+' then 62
    else if c == '/' then 63
    else 0
  }

  /**
   * The decoder's table lookup followed by its bit operations: a character outside the
   * alphabet (`=` included) looks up `undefined`, which those operations read as 0.
   */
  function SextetOf(c: char): (v: bv8)
    ensures v < 64
  {
    SextetValue(c) as bv8
  }

  /** The alphabet literal spells out the arithmetic description. */
  lemma AlphabetSymbols()
    ensures |Alphabet| == 64
    ensures forall v :: 0 <= v < 64 ==> Alphabet[v] == SymbolFor(v)
  {
    forall v | 0 <= v < 26 ensures Upper[v] == SymbolFor(v) {}
  }

  /** The encoder's `alphabet.charAt(v)` for a six-bit value. */
  function Symbol(v: bv8): char
    requires v < 64
  {
    AlphabetSymbols();
    Alphabet[v as int]
  }

  /** Looking a symbol up gives back its value; `=` is never a symbol. */
  lemma SymbolInverse(v: bv8)
    requires v < 64
    ensures SextetOf(Symbol(v)) == v
    ensures Symbol(v) != '='
  {
    AlphabetSymbols();
    var i := v as int;
    assert SextetValue(Alphabet[i]) == i;
  }

  // Encoder bit packing: three bytes c1 c2 c3 give four six-bit values.

  function Sextet1(c1: bv8): (v: bv8) ensures v < 64 { c1 >> 2 }
  function Sextet2(c1: bv8, c2: bv8): (v: bv8) ensures v < 64 { ((c1 & 3) << 4) | (c2 >> 4) }
  function Sextet3(c2: bv8, c3: bv8): (v: bv8) ensures v < 64 { ((c2 & 15) << 2) | (c3 >> 6) }
  function Sextet4(c3: bv8): (v: bv8) ensures v < 64 { c3 & 63 }

  // Decoder bit unpacking: four six-bit values give three bytes. For six-bit inputs each
  // result fits in eight bits, so the clamped byte array stores it unchanged.

  function Byte1(e1: bv8, e2: bv8): bv8 { (e1 << 2) | (e2 >> 4) }
  function Byte2(e2: bv8, e3: bv8): bv8 { ((e2 & 15) << 4) | (e3 >> 2) }
  function Byte3(e3: bv8, e4: bv8): bv8 { ((e3 & 3) << 6) | e4 }

  /** Unpacking undoes packing. */
  lemma PackUnpack(c1: bv8, c2: bv8, c3: bv8)
    ensures Byte1(Sextet1(c1), Sextet2(c1, c2)) == c1
    ensures Byte2(Sextet2(c1, c2), Sextet3(c2, c3)) == c2
    ensures Byte3(Sextet3(c2, c3), Sextet4(c3)) == c3
  {
  }

  /** A byte the encoder read as `undefined` (0) unpacks to 0. */
  lemma UnpackMissing(c1: bv8, c2: bv8)
    ensures Byte2(Sextet2(c1, 0), 0) == 0
    ensures Byte3(Sextet3(c2, 0), 0) == 0
  {
  }

  /** `data[i]`, or `undefined` past the end of the array. */
  function At(data: seq<bv8>, i: nat): Option<bv8>
  {
    if i < |data| then Some(data[i]) else None
  }

  /** `s[n..]`, or the empty sequence when `n` is past the end. */
  function Drop<T>(s: seq<T>, n: nat): (r: seq<T>)
    ensures |r| == if n <= |s| then |s| - n else 0
  {
    if n <= |s| then s[n..] else []
  }

  /** One iteration of the encoder loop: four characters, `=` for a byte that is `undefined`. */
  function EncodeGroup(c1: bv8, c2: Option<bv8>, c3: Option<bv8>): (r: string)
    ensures |r| == 4
  {
    var b2 := c2.GetOr(0);
    var b3 := c3.GetOr(0);
    [Symbol(Sextet1(c1)), Symbol(Sextet2(c1, b2))]
    + (if c2.None? then "=" else [Symbol(Sextet3(b2, b3))])
    + (if c3.None? then "=" else [Symbol(Sextet4(b3))])
  }

  /** The encoder loop over the pixel bytes; it advances by 3, or by 4 when alpha is dropped. */
  function EncodeBytes(data: seq<bv8>, alpha: bool): (text: string)
    ensures |text| % 4 == 0
    decreases |data|
  {
    if |data| == 0 then ""
    else EncodeGroup(data[0], At(data, 1), At(data, 2)) + EncodeBytes(Drop(data, if alpha then 3 else 4), alpha)
  }

  /** Pixel data as a canvas holds it: `4 * width * height` bytes, row by row, in RGBA order. */
  datatype ImageData = ImageData(width: nat, height: nat, data: seq<bv8>)

  predicate WellFormed(img: ImageData)
  {
    |img.data| == 4 * (img.width * img.height)
  }

  /**
   * What `encodeImageTensor` is given: a canvas, an image (whose pixels are read by drawing it
   * onto a canvas of its natural size), or any other element.
   */
  datatype Drawable = Canvas(pixels: ImageData) | Img(natural: ImageData) | OtherElement(nodeName: string)

  /** The JSON-safe tensor: encoded text, shape and element type. */
  datatype Tensor = Tensor(data: string, shape: seq<int>, dtype: string)

  datatype CodecError =
    | NotDrawable       // the input is neither an <img> nor a <canvas>
    | UnsupportedDtype  // the tensor's dtype is not "uint8"
    | IndexSizeError    // createImageData refuses a zero (or missing) dimension

  /** A canvas or image with no pixels: `getImageData` refuses a zero width or height. */
  predicate ZeroSized(src: Drawable)
  {
    match src
    case Canvas(img) => img.width == 0 || img.height == 0
    case Img(img) => img.width == 0 || img.height == 0
    case OtherElement(_) => false
  }

  /** `encodeImageTensor(imgElem, alpha)`; an omitted `alpha` is `false`. */
  function Encode(src: Drawable, alpha: Option<bool>): (r: Result<Tensor, CodecError>)
    ensures r == Err(NotDrawable) <==> src.OtherElement?
    ensures r == Err(IndexSizeError) <==> ZeroSized(src)
    ensures r.Ok? ==> r.value.dtype == "uint8"
    ensures r.Ok? ==> |r.value.shape| == 3 && r.value.shape[2] == (if alpha == Some(true) then 4 else 3)
    ensures r.Ok? && src.Canvas? ==> r.value.shape[..2] == [src.pixels.height, src.pixels.width]
    ensures r.Ok? && src.Img? ==> r.value.shape[..2] == [src.natural.height, src.natural.width]
  {
    var keepAlpha := alpha.GetOr(false);
    match src
    case OtherElement(_) => Err(NotDrawable)
    case Canvas(img) =>
      if img.width == 0 || img.height == 0 then Err(IndexSizeError)
      else Ok(Tensor(EncodeBytes(img.data, keepAlpha), [img.height, img.width, if keepAlpha then 4 else 3], "uint8"))
    case Img(img) =>
      if img.width == 0 || img.height == 0 then Err(IndexSizeError)
      else Ok(Tensor(EncodeBytes(img.data, keepAlpha), [img.height, img.width, if keepAlpha then 4 else 3], "uint8"))
  }

  /** The value of the character at `j`; characters past the end read as `undefined`, i.e. 0. */
  function SextetAt(text: string, j: nat): (v: bv8)
    ensures v < 64
  {
    if j < |text| then SextetOf(text[j]) else 0
  }

  /** The decoder loop: three bytes per four characters, then 255 when there is no alpha. */
  function DecodeChars(text: string, alpha: bool): (written: seq<bv8>)
    decreases |text|
  {
    if |text| == 0 then []
    else
      var e1, e2, e3, e4 := SextetAt(text, 0), SextetAt(text, 1), SextetAt(text, 2), SextetAt(text, 3);
      [Byte1(e1, e2), Byte2(e2, e3), Byte3(e3, e4)] + (if alpha then [] else [255])
      + DecodeChars(Drop(text, 4), alpha)
  }

  function Zeros(n: nat): (z: seq<bv8>)
    ensures |z| == n && forall i :: 0 <= i < n ==> z[i] == 0
  {
    seq(n, _ => 0)
  }

  /** Writing `written` into a fresh zeroed array of `n` bytes: writes past the end are dropped. */
  function Fit(written: seq<bv8>, n: nat): (buf: seq<bv8>)
    ensures |buf| == n
    ensures forall i :: 0 <= i < n ==> buf[i] == if i < |written| then written[i] else 0
  {
    if |written| >= n then written[..n] else written + Zeros(n - |written|)
  }

  function Abs(x: int): nat
  {
    if x < 0 then -x else x
  }

  /** `createImageData(sw, sh)`: a zeroed image of `|sw|` by `|sh|` pixels, refused for a zero side. */
  function CreateImageData(sw: int, sh: int): (r: Result<ImageData, CodecError>)
    ensures r.Err? <==> sw == 0 || sh == 0
    ensures r.Ok? ==> WellFormed(r.value) && r.value.width == Abs(sw) && r.value.height == Abs(sh)
    ensures r.Ok? ==> forall i :: 0 <= i < |r.value.data| ==> r.value.data[i] == 0
  {
    if sw == 0 || sh == 0 then Err(IndexSizeError)
    else Ok(ImageData(Abs(sw), Abs(sh), Zeros(4 * (Abs(sw) * Abs(sh)))))
  }

  /** `tensor.shape[i]` read as a number, `undefined` giving 0. */
  function Dim(shape: seq<int>, i: nat): int
  {
    if i < |shape| then shape[i] else 0
  }

  /** Filling a fresh image with the decoder's writes. */
  function FillImage(t: Tensor, sw: int, sh: int): (r: Result<ImageData, CodecError>)
    ensures r.Err? <==> sw == 0 || sh == 0
    ensures r.Ok? ==> WellFormed(r.value) && r.value.width == Abs(sw) && r.value.height == Abs(sh)
  {
    var img :- CreateImageData(sw, sh);
    var alpha := Dim(t.shape, 2) == 4;
    Ok(img.(data := Fit(DecodeChars(t.data, alpha), |img.data|)))
  }

  /**
   * `decodeImageTensor(tensor)` as written: the image is created as `shape[0]` wide and
   * `shape[1]` high, although the shape lists height first.
   */
  function DecodeAsWritten(t: Tensor): (r: Result<ImageData, CodecError>)
    ensures t.dtype != "uint8" ==> r == Err(UnsupportedDtype)
    ensures t.dtype == "uint8" ==> (r.Err? <==> Dim(t.shape, 0) == 0 || Dim(t.shape, 1) == 0)
    ensures r.Ok? ==> r.value.width == Abs(t.shape[0]) && r.value.height == Abs(t.shape[1])
  {
    if t.dtype != "uint8" then Err(UnsupportedDtype)
    else FillImage(t, Dim(t.shape, 0), Dim(t.shape, 1))
  }

  /** `decodeImageTensor(tensor)` with the image `shape[1]` wide and `shape[0]` high. */
  function Decode(t: Tensor): (r: Result<ImageData, CodecError>)
    ensures t.dtype != "uint8" ==> r == Err(UnsupportedDtype)
    ensures t.dtype == "uint8" ==> (r.Err? <==> Dim(t.shape, 0) == 0 || Dim(t.shape, 1) == 0)
    ensures r.Ok? ==> r.value.width == Abs(t.shape[1]) && r.value.height == Abs(t.shape[0])
  {
    if t.dtype != "uint8" then Err(UnsupportedDtype)
    else FillImage(t, Dim(t.shape, 1), Dim(t.shape, 0))
  }

  // ---------------------------------------------------------------------------------------
  // Reference definitions and the properties connecting the codec to them.

  /** Standard base64 (section 4 of RFC 4648), padding by the length of the whole input. */
  function Base64(b: seq<bv8>): (text: string)
    decreases |b|
  {
    if |b| == 0 then ""
    else if |b| == 1 then [Symbol(Sextet1(b[0])), Symbol(Sextet2(b[0], 0)), '=', '=']
    else if |b| == 2 then [Symbol(Sextet1(b[0])), Symbol(Sextet2(b[0], b[1])), Symbol(Sextet3(b[1], 0)), '=']
    else
      [Symbol(Sextet1(b[0])), Symbol(Sextet2(b[0], b[1])), Symbol(Sextet3(b[1], b[2])), Symbol(Sextet4(b[2]))]
      + Base64(b[3..])
  }

  /** Pixel bytes with every alpha byte (each fourth byte) set to 255. */
  function Opaque(data: seq<bv8>): (r: seq<bv8>)
    ensures |r| == |data|
  {
    seq(|data|, i requires 0 <= i < |data| => if i % 4 == 3 then 255 else data[i])
  }

  /** With alpha kept, the encoder is exactly standard base64 of the whole RGBA stream. */
  lemma {:induction false} EncodeAlphaIsBase64(data: seq<bv8>)
    ensures EncodeBytes(data, true) == Base64(data)
    decreases |data|
  {
    if |data| > 2 {
      EncodeAlphaIsBase64(data[3..]);
    }
  }

  /** Base64 text is four characters per started group of three bytes. */
  lemma {:induction false} Base64Length(b: seq<bv8>)
    ensures |Base64(b)| == 4 * ((|b| + 2) / 3)
    decreases |b|
  {
    if |b| > 2 {
      Base64Length(b[3..]);
    }
  }

  /** In base64 text `=` occurs only in the last two positions. */
  lemma {:induction false} Base64PaddingAtEnd(b: seq<bv8>)
    ensures forall i :: 0 <= i < |Base64(b)| && Base64(b)[i] == '=' ==> i >= |Base64(b)| - 2
    decreases |b|
  {
    if |b| == 1 {
      SymbolInverse(Sextet1(b[0]));
      SymbolInverse(Sextet2(b[0], 0));
    } else if |b| == 2 {
      SymbolInverse(Sextet1(b[0]));
      SymbolInverse(Sextet2(b[0], b[1]));
      SymbolInverse(Sextet3(b[1], 0));
    } else if |b| > 2 {
      Base64PaddingAtEnd(b[3..]);
      var text := Base64(b);
      var rest := Base64(b[3..]);
      SymbolInverse(Sextet1(b[0]));
      SymbolInverse(Sextet2(b[0], b[1]));
      SymbolInverse(Sextet3(b[1], b[2]));
      SymbolInverse(Sextet4(b[2]));
      assert text[4..] == rest;
      forall i | 0 <= i < |text| && text[i] == '=' ensures i >= |text| - 2 {
        assert i >= 4;
        assert rest[i - 4] == '=';
      }
    }
  }

  /** A complete group has no `=`. */
  lemma FullGroupUnpadded(c1: bv8, c2: bv8, c3: bv8)
    ensures '=' !in EncodeGroup(c1, Some(c2), Some(c3))
  {
    SymbolInverse(Sextet1(c1));
    SymbolInverse(Sextet2(c1, c2));
    SymbolInverse(Sextet3(c2, c3));
    SymbolInverse(Sextet4(c3));
  }

  /** Without alpha, whole pixels give one character per byte and no `=`. */
  lemma {:induction false} EncodeOpaqueLayout(data: seq<bv8>)
    requires |data| % 4 == 0
    ensures |EncodeBytes(data, false)| == |data|
    ensures '=' !in EncodeBytes(data, false)
    decreases |data|
  {
    if |data| > 0 {
      EncodeOpaqueLayout(data[4..]);
      FullGroupUnpadded(data[0], data[1], data[2]);
    }
  }

  /** Decoding a complete four-character group gives back its three bytes. */
  lemma DecodeGroup(c1: bv8, c2: bv8, c3: bv8, rest: string, alpha: bool)
    ensures DecodeChars(EncodeGroup(c1, Some(c2), Some(c3)) + rest, alpha)
      == [c1, c2, c3] + (if alpha then [] else [255]) + DecodeChars(rest, alpha)
  {
    SymbolInverse(Sextet1(c1));
    SymbolInverse(Sextet2(c1, c2));
    SymbolInverse(Sextet3(c2, c3));
    SymbolInverse(Sextet4(c3));
    PackUnpack(c1, c2, c3);
    var text := EncodeGroup(c1, Some(c2), Some(c3)) + rest;
    assert Drop(text, 4) == rest;
  }

  /** Splitting the opaque view after the first pixel. */
  lemma OpaqueStep(data: seq<bv8>)
    requires |data| >= 4
    ensures Opaque(data) == [data[0], data[1], data[2], 255] + Opaque(data[4..])
  {
    var lhs := Opaque(data);
    var rhs := [data[0], data[1], data[2], 255] + Opaque(data[4..]);
    forall i | 0 <= i < |data| ensures lhs[i] == rhs[i] {
      if i >= 4 {
        assert (i - 4) % 4 == i % 4;
      }
    }
  }

  /** Without alpha, decoding the encoding restores every RGB byte and sets alpha to 255. */
  lemma {:induction false} DecodeEncodeOpaque(data: seq<bv8>)
    requires |data| % 4 == 0
    ensures DecodeChars(EncodeBytes(data, false), false) == Opaque(data)
    decreases |data|
  {
    if |data| > 0 {
      DecodeEncodeOpaque(data[4..]);
      DecodeGroup(data[0], data[1], data[2], EncodeBytes(data[4..], false), false);
      OpaqueStep(data);
    }
  }

  /** `=` and every other character outside the alphabet decode as 0. */
  lemma PadDecodesToZero()
    ensures SextetOf('=') == 0
  {
  }

  /** A final group holding one byte decodes to that byte and two zeros. */
  lemma DecodeOneByte(c1: bv8)
    ensures DecodeChars(EncodeBytes([c1], true), true) == [c1, 0, 0]
  {
    var text := EncodeBytes([c1], true);
    assert text == EncodeGroup(c1, None, None) + EncodeBytes([], true);
    SymbolInverse(Sextet1(c1));
    SymbolInverse(Sextet2(c1, 0));
    PadDecodesToZero();
    PackUnpack(c1, 0, 0);
    UnpackMissing(c1, 0);
    var e1, e2, e3, e4 := SextetAt(text, 0), SextetAt(text, 1), SextetAt(text, 2), SextetAt(text, 3);
    assert e1 == Sextet1(c1) && e2 == Sextet2(c1, 0) && e3 == 0 && e4 == 0;
    assert Drop(text, 4) == "";
    assert DecodeChars(text, true) == [Byte1(e1, e2), Byte2(e2, e3), Byte3(e3, e4)];
  }

  /** A final group holding two bytes decodes to those bytes and one zero. */
  lemma DecodeTwoBytes(c1: bv8, c2: bv8)
    ensures DecodeChars(EncodeBytes([c1, c2], true), true) == [c1, c2, 0]
  {
    var text := EncodeBytes([c1, c2], true);
    assert text == EncodeGroup(c1, Some(c2), None) + EncodeBytes([], true);
    SymbolInverse(Sextet1(c1));
    SymbolInverse(Sextet2(c1, c2));
    SymbolInverse(Sextet3(c2, 0));
    PadDecodesToZero();
    PackUnpack(c1, c2, 0);
    UnpackMissing(c1, c2);
    var e1, e2, e3, e4 := SextetAt(text, 0), SextetAt(text, 1), SextetAt(text, 2), SextetAt(text, 3);
    assert e1 == Sextet1(c1) && e2 == Sextet2(c1, c2) && e3 == Sextet3(c2, 0) && e4 == 0;
    assert Drop(text, 4) == "";
    assert DecodeChars(text, true) == [Byte1(e1, e2), Byte2(e2, e3), Byte3(e3, e4)];
  }

  /** The number of `=`-padded bytes after `n` bytes: what completes the last group of three. */
  function PadLength(n: nat): (p: nat)
    ensures p < 3
  {
    if n == 0 then 0 else if n == 1 then 2 else if n == 2 then 1 else PadLength(n - 3)
  }

  lemma PadLengthStep(n: nat)
    requires n >= 3
    ensures PadLength(n - 3) == PadLength(n)
  {
  }

  /** With alpha the encoder moves on by exactly one group of three bytes. */
  lemma EncodeAlphaHead(data: seq<bv8>)
    requires |data| > 2
    ensures EncodeBytes(data, true) == EncodeGroup(data[0], Some(data[1]), Some(data[2])) + EncodeBytes(data[3..], true)
  {
  }

  /** Decoding the alpha encoding gives the first group's bytes back, then the rest's. */
  lemma DecodeAlphaHead(data: seq<bv8>)
    requires |data| > 2
    ensures DecodeChars(EncodeBytes(data, true), true)
      == [data[0], data[1], data[2]] + DecodeChars(EncodeBytes(data[3..], true), true)
  {
    var tail := EncodeBytes(data[3..], true);
    EncodeAlphaHead(data);
    DecodeGroup(data[0], data[1], data[2], tail, true);
    assert [data[0], data[1], data[2]] + [] == [data[0], data[1], data[2]];
  }

  /** The inductive step of the alpha round trip: one full group in front of the rest. */
  lemma DecodeEncodeAlphaStep(data: seq<bv8>)
    requires |data| > 2
    requires DecodeChars(EncodeBytes(data[3..], true), true) == data[3..] + Zeros(PadLength(|data[3..]|))
    ensures DecodeChars(EncodeBytes(data, true), true) == data + Zeros(PadLength(|data|))
  {
    DecodeAlphaHead(data);
    PadLengthStep(|data|);
    PrependGroup(data, DecodeChars(EncodeBytes(data[3..], true), true), Zeros(PadLength(|data|)));
  }

  lemma PrependGroup(data: seq<bv8>, decoded: seq<bv8>, z: seq<bv8>)
    requires |data| > 2 && decoded == data[3..] + z
    ensures [data[0], data[1], data[2]] + decoded == data + z
  {
    assert data == [data[0], data[1], data[2]] + data[3..];
  }

  /** With alpha, decoding the encoding restores the bytes followed by the padding's zeros. */
  lemma {:induction false} DecodeEncodeAlpha(data: seq<bv8>)
    ensures DecodeChars(EncodeBytes(data, true), true) == data + Zeros(PadLength(|data|))
    decreases |data|
  {
    if |data| > 2 {
      DecodeEncodeAlpha(data[3..]);
      DecodeEncodeAlphaStep(data);
    } else {
      DecodeEncodeAlphaShort(data);
    }
  }

  /** The final group of one or two bytes, or no group at all. */
  lemma DecodeEncodeAlphaShort(data: seq<bv8>)
    requires |data| <= 2
    ensures DecodeChars(EncodeBytes(data, true), true) == data + Zeros(PadLength(|data|))
  {
    if |data| == 1 {
      DecodeEncodeAlphaOne(data);
    } else if |data| == 2 {
      DecodeEncodeAlphaTwo(data);
    } else {
      assert Zeros(0) == [];
    }
  }

  lemma DecodeEncodeAlphaOne(data: seq<bv8>)
    requires |data| == 1
    ensures DecodeChars(EncodeBytes(data, true), true) == data + Zeros(PadLength(|data|))
  {
    var c1 := data[0];
    assert data == [c1];
    DecodeOneByte(c1);
    PadOne(c1);
  }

  lemma PadOne(c1: bv8)
    ensures [c1] + Zeros(PadLength(1)) == [c1, 0, 0]
  {
    var z := Zeros(PadLength(1));
    assert z == [0, 0] by { assert z[0] == 0 && z[1] == 0; }
  }

  lemma DecodeEncodeAlphaTwo(data: seq<bv8>)
    requires |data| == 2
    ensures DecodeChars(EncodeBytes(data, true), true) == data + Zeros(PadLength(|data|))
  {
    var c1, c2 := data[0], data[1];
    assert data == [c1, c2];
    DecodeTwoBytes(c1, c2);
    PadTwo(c1, c2);
  }

  lemma PadTwo(c1: bv8, c2: bv8)
    ensures [c1, c2] + Zeros(PadLength(2)) == [c1, c2, 0]
  {
    var z := Zeros(PadLength(2));
    assert z == [0] by { assert z[0] == 0; }
  }

  /** Round trip without alpha: same size, RGB bytes restored, every alpha byte 255. */
  lemma RoundTripOpaque(img: ImageData, alpha: Option<bool>)
    requires WellFormed(img) && img.width > 0 && img.height > 0
    requires alpha != Some(true)
    ensures Encode(Canvas(img), alpha).Ok?
    ensures Decode(Encode(Canvas(img), alpha).value) == Ok(img.(data := Opaque(img.data)))
  {
    var t := Tensor(EncodeBytes(img.data, false), [img.height, img.width, 3], "uint8");
    assert Encode(Canvas(img), alpha) == Ok(t);
    DecodeEncodeOpaque(img.data);
    assert DecodeChars(t.data, Dim(t.shape, 2) == 4) == Opaque(img.data);
    assert Fit(Opaque(img.data), |img.data|) == Opaque(img.data);
    assert CreateImageData(img.width, img.height) == Ok(ImageData(img.width, img.height, Zeros(|img.data|)));
  }

  /** Round trip with alpha: the image comes back exactly. */
  lemma RoundTripAlpha(img: ImageData)
    requires WellFormed(img) && img.width > 0 && img.height > 0
    ensures Encode(Canvas(img), Some(true)).Ok?
    ensures Decode(Encode(Canvas(img), Some(true)).value) == Ok(img)
  {
    DecodeEncodeAlpha(img.data);
    var written := img.data + Zeros(PadLength(|img.data|));
    assert Fit(written, |img.data|) == img.data;
  }

  /**
   * As written, every image comes back with its width and height swapped, so any image that is
   * not square (2 pixels wide and 1 high, say) is not the one encoded.
   */
  lemma DecodeAsWrittenTransposes(img: ImageData)
    requires WellFormed(img) && img.width > 0 && img.height > 0
    ensures Encode(Canvas(img), Some(true)).Ok?
    ensures DecodeAsWritten(Encode(Canvas(img), Some(true)).value) == Ok(ImageData(img.height, img.width, img.data))
    ensures img.width != img.height ==> DecodeAsWritten(Encode(Canvas(img), Some(true)).value) != Ok(img)
  {
    RoundTripAlpha(img);
    assert img.height * img.width == img.width * img.height;
  }

  /** One opaque red pixel kept with alpha encodes as `/wAA/w==` and decodes back. */
  lemma RedPixelExample()
    ensures Encode(Canvas(ImageData(1, 1, [255, 0, 0, 255])), Some(true))
      == Ok(Tensor("/wAA/w==", [1, 1, 4], "uint8"))
    ensures Decode(Tensor("/wAA/w==", [1, 1, 4], "uint8")) == Ok(ImageData(1, 1, [255, 0, 0, 255]))
  {
    AlphabetSymbols();
    assert Symbol(63) == '/' && Symbol(48) == 'w' && Symbol(0) == 'A';
    assert EncodeBytes([255], true) == EncodeGroup(255, None, None) + EncodeBytes([], true);
    assert EncodeBytes([255], true) == "/w==";
    assert EncodeGroup(255, Some(0), Some(0)) == "/wAA";
    assert EncodeBytes([255, 0, 0, 255], true) == EncodeGroup(255, Some(0), Some(0)) + EncodeBytes([255], true);
    assert "/wAA" + "/w==" == "/wAA/w==";
    RoundTripAlpha(ImageData(1, 1, [255, 0, 0, 255]));
  }
}

=== FILE: index_rows.dfy ===
/**
 * The `|`-separated index files shared by the package repositories and the interface
 * indices: one record per line, fields separated by `|`, unpacked into a fixed number of names.
 * A line with the wrong number of fields makes the unpacking raise `ValueError`, which stops
 * the loading loop; the records before it have already been stored.
 */
module IndexRows {
  import opened Wrappers
  import Text
  import Dicts

  /** Lines of a downloaded index: `text.strip().split('\n')`. */
  function FetchedLines(text: string): (r: seq<string>)
    ensures |r| >= 1
    ensures forall i :: 0 <= i < |r| ==> '\n' !in r[i]
    ensures Text.Join(r, '\n') == Text.Strip(text)
  {
    Text.Split(Text.Strip(text), '\n')
  }

  /** The fields of one line; `strip` says whether the line is stripped first. */
  function Fields(line: string, strip: bool): seq<string>
  {
    Text.Split(if strip then Text.Strip(line) else line, '|')
  }

  /**
   * The loading loop up to its first failure: the field lists of the leading lines that unpack
   * into `arity` names, and the field count of the first line that does not, if any.
   */
  datatype Parsed = Parsed(records: seq<seq<string>>, badFields: Option<nat>)

  function ParseLines(lines: seq<string>, strip: bool, arity: nat): (r: Parsed)
    ensures |r.records| <= |lines|
    ensures forall i :: 0 <= i < |r.records| ==> r.records[i] == Fields(lines[i], strip)
    ensures forall i :: 0 <= i < |r.records| ==> |r.records[i]| == arity
    ensures r.badFields.None? <==> |r.records| == |lines|
    ensures r.badFields.Some? ==>
      r.badFields.value == |Fields(lines[|r.records|], strip)| && r.badFields.value != arity
  {
    if |lines| == 0 then Parsed([], None)
    else
      var f := Fields(lines[0], strip);
      if |f| != arity then Parsed([], Some(|f|))
      else
        var rest := ParseLines(lines[1..], strip, arity);
        Parsed([f] + rest.records, rest.badFields)
  }

  /** `name, url, hash = fields`, as a dict entry. */
  function Triples(records: seq<seq<string>>): (r: seq<(string, (string, string))>)
    requires forall i :: 0 <= i < |records| ==> |records[i]| == 3
    ensures |r| == |records|
    ensures forall i :: 0 <= i < |r| ==> r[i] == (records[i][0], (records[i][1], records[i][2]))
  {
    seq(|records|, i requires 0 <= i < |records| => (records[i][0], (records[i][1], records[i][2])))
  }

  /** `key, value = fields`, as a dict entry. */
  function Pairs(records: seq<seq<string>>): (r: seq<(string, string)>)
    requires forall i :: 0 <= i < |records| ==> |records[i]| == 2
    ensures |r| == |records|
    ensures forall i :: 0 <= i < |r| ==> r[i] == (records[i][0], records[i][1])
  {
    seq(|records|, i requires 0 <= i < |records| => (records[i][0], records[i][1]))
  }

  /** The line an index holds for one record. */
  function Line(fields: seq<string>): string
  {
    Text.Join(fields, '|')
  }

  /** A record whose fields hold no `|` reads back as the same fields. */
  lemma FieldsOfLine(fields: seq<string>)
    requires |fields| >= 1
    requires forall i :: 0 <= i < |fields| ==> '|' !in fields[i]
    ensures Fields(Line(fields), false) == fields
  {
    Text.SplitJoin(fields, '|');
  }

  /** A name with a `|` in it cannot be stored: its line has one field too many. */
  lemma PipeInNameBreaksRecord()
    ensures |Fields(Line(["a|b", "u", "h"]), false)| == 4
  {
    assert Line(["a|b", "u", "h"]) == "a|b|u|h";
    Text.SplitJoin(["a", "b", "u", "h"], '|');
    assert Text.Join(["a", "b", "u", "h"], '|') == "a|b|u|h";
  }

  /**
   * The values listed for each key, in line order (the package-interface index of the first
   * interface package): a new key starts an empty list, and every record appends to its key's list.
   */
  function Group(pairs: seq<(string, string)>): Dicts.Dict<string, seq<string>>
  {
    if |pairs| == 0 then []
    else
      var d := Group(pairs[..|pairs| - 1]);
      var (k, v) := pairs[|pairs| - 1];
      Dicts.Put(d, k, Dicts.Get(d, k).GetOr([]) + [v])
  }

  /** The values paired with `k`, in order. */
  function ValuesOf(pairs: seq<(string, string)>, k: string): seq<string>
  {
    if |pairs| == 0 then []
    else ValuesOf(pairs[..|pairs| - 1], k) + (if pairs[|pairs| - 1].0 == k then [pairs[|pairs| - 1].1] else [])
  }

  predicate Mentions(pairs: seq<(string, string)>, k: string)
  {
    exists i :: 0 <= i < |pairs| && pairs[i].0 == k
  }

  lemma MentionsSnoc(pairs: seq<(string, string)>, k: string)
    requires |pairs| > 0
    ensures Mentions(pairs, k) <==> Mentions(pairs[..|pairs| - 1], k) || pairs[|pairs| - 1].0 == k
  {
    var init := pairs[..|pairs| - 1];
    if Mentions(pairs, k) {
      var i :| 0 <= i < |pairs| && pairs[i].0 == k;
      if i < |init| {
        assert init[i].0 == k;
      }
    }
    if Mentions(init, k) {
      var i :| 0 <= i < |init| && init[i].0 == k;
      assert pairs[i].0 == k;
    }
  }

  lemma {:induction false} ValuesOfAbsent(pairs: seq<(string, string)>, k: string)
    requires !Mentions(pairs, k)
    ensures ValuesOf(pairs, k) == []
  {
    if |pairs| > 0 {
      MentionsSnoc(pairs, k);
      ValuesOfAbsent(pairs[..|pairs| - 1], k);
    }
  }

  /** A grouped index lists, for each key that occurs, every value paired with it in line order. */
  lemma {:induction false} GroupGet(pairs: seq<(string, string)>, k: string)
    ensures Mentions(pairs, k) ==> Dicts.Get(Group(pairs), k) == Some(ValuesOf(pairs, k))
    ensures !Mentions(pairs, k) ==> Dicts.Get(Group(pairs), k) == None
  {
    if |pairs| > 0 {
      var init := pairs[..|pairs| - 1];
      var d := Group(init);
      var (k', v) := pairs[|pairs| - 1];
      var stored := Dicts.Get(d, k').GetOr([]) + [v];
      assert Group(pairs) == Dicts.Put(d, k', stored);
      GroupGet(init, k);
      MentionsSnoc(pairs, k);
      Dicts.GetPut(d, k', stored, k);
      if k' == k {
        assert ValuesOf(pairs, k) == ValuesOf(init, k) + [v];
        if !Mentions(init, k) {
          ValuesOfAbsent(init, k);
        }
        assert stored == ValuesOf(pairs, k);
        assert Mentions(pairs, k);
        assert Dicts.Get(Group(pairs), k) == Some(stored);
      } else {
        assert ValuesOf(pairs, k) == ValuesOf(init, k) + [];
        assert ValuesOf(init, k) + [] == ValuesOf(init, k);
        assert Dicts.Get(Group(pairs), k) == Dicts.Get(d, k);
        assert Mentions(pairs, k) == Mentions(init, k);
      }
    } else {
      assert Group(pairs) == [];
      assert !Mentions(pairs, k);
    }
  }

  /** Why loading failed. */
  datatype IndexError =
    | FetchFailed              // the download (or file read) raised
    | UnpackError(fields: nat) // a line did not have the expected number of fields

  /** What loading an index from its text yields: the records stored before any failure. */
  datatype Built<T> = Built(index: T, badFields: Option<nat>)

  /**
   * A lazily loaded global index. While `state` is `None` the text is fetched (`None` when the
   * fetch raises) and the index built; once set, the stored index is returned and nothing is
   * fetched. `resetBeforeFetch` says whether the global is set to `{}` before the fetch (so a
   * failed fetch leaves an empty index behind) or after it.
   */
  function Lazy<T>(state: Option<T>, fetched: Option<string>, build: string -> Built<T>, empty: T, resetBeforeFetch: bool)
    : (r: (Option<T>, Result<T, IndexError>))
    ensures state.Some? ==> r == (state, Ok(state.value))
    ensures state.None? && fetched.None? ==> r.1 == Err(FetchFailed)
    ensures state.None? && fetched.None? ==> r.0 == if resetBeforeFetch then Some(empty) else None
    ensures state.None? && fetched.Some? ==> r.0 == Some(build(fetched.value).index)
    ensures r.1.Ok? ==> r.0 == Some(r.1.value)
  {
    match state
    case Some(index) => (state, Ok(index))
    case None =>
      match fetched
      case None => (if resetBeforeFetch then Some(empty) else None, Err(FetchFailed))
      case Some(text) =>
        var b := build(text);
        (Some(b.index), if b.badFields.Some? then Err(UnpackError(b.badFields.value)) else Ok(b.index))
  }

  /**
   * The index is fetched at most once: after a first call that stores it, any later call
   * returns the same index whatever the fetch would have given.
   */
  lemma LoadedOnce<T>(state: Option<T>, fetched: Option<string>, later: Option<string>, build: string -> Built<T>, empty: T, reset: bool)
    requires Lazy(state, fetched, build, empty, reset).1.Ok?
    ensures var (s, r) := Lazy(state, fetched, build, empty, reset);
      Lazy(s, later, build, empty, reset) == (s, r)
  {
  }
}

=== FILE: install_plan.dfy ===
/**
 * Installing an unpacked package into the daemon's package store (`storage/package.py` of the
 * daemon): the list of files to copy, the check that every source exists, and the order in which
 * the checks and the copies happen.
 *
 * File existence is a parameter (`isFile`), and the effects on the file system are returned as
 * a list instead of being performed.
 */
module InstallPlan {
  import opened Wrappers
  import Text

  /** One entry of the metadata's `model` dict: the file holding the model and its type. */
  datatype ModelSpec = ModelSpec(file: string, kind: string)

  /** The parts of `package.json` the installation reads: `module` and the `model` dict's items. */
  datatype PackageMeta = PackageMeta(moduleFile: string, models: seq<(string, ModelSpec)>)

  /** `PackageInstallError(message, 400)`. */
  datatype InstallError = PackageInstallError(message: string, status: nat)

  function Join1(dir: string, name: string): string
  {
    Text.PathJoin(dir, [name])
  }

  /** The file name a model is stored under: `{name}.{type}`. */
  function ModelFileName(name: string, spec: ModelSpec): string
  {
    name + "." + spec.kind
  }

  /**
   * `prep_copy`: the metadata file first, then the module file under the fixed name
   * `module.py`, then one file per model in the order of the `model` dict.
   */
  function PrepCopy(unpackDir: string, installDir: string, meta: PackageMeta): (r: seq<(string, string)>)
    ensures |r| == 2 + |meta.models|
    ensures r[0] == (Join1(unpackDir, "package.json"), Join1(installDir, "package.json"))
    ensures r[1] == (Join1(unpackDir, meta.moduleFile), Join1(installDir, "module.py"))
    ensures forall i :: 0 <= i < |meta.models| ==>
      r[2 + i] == (Join1(unpackDir, meta.models[i].1.file), Join1(installDir, ModelFileName(meta.models[i].0, meta.models[i].1)))
  {
    [(Join1(unpackDir, "package.json"), Join1(installDir, "package.json")),
     (Join1(unpackDir, meta.moduleFile), Join1(installDir, "module.py"))]
    + seq(|meta.models|, i requires 0 <= i < |meta.models| =>
        (Join1(unpackDir, meta.models[i].1.file), Join1(installDir, ModelFileName(meta.models[i].0, meta.models[i].1))))
  }

  function MissingFile(path: string): InstallError
  {
    PackageInstallError("Package is missing file " + path, 400)
  }

  /** `check_paths`: the first source that is not a file raises. */
  function CheckPaths(paths: seq<(string, string)>, isFile: string -> bool): (r: Result<(), InstallError>)
    ensures r.Ok? <==> forall i :: 0 <= i < |paths| ==> isFile(paths[i].0)
    ensures r.Err? ==>
      exists i :: 0 <= i < |paths| && !isFile(paths[i].0)
        && (forall j :: 0 <= j < i ==> isFile(paths[j].0))
        && r.error == MissingFile(paths[i].0)
  {
    if |paths| == 0 then Ok(())
    else if !isFile(paths[0].0) then Err(MissingFile(paths[0].0))
    else
      var rest := CheckPaths(paths[1..], isFile);
      CheckPathsShift(paths, isFile, rest);
      rest
  }

  /** What the check of the tail says about the whole list when its head is a file. */
  lemma CheckPathsShift(paths: seq<(string, string)>, isFile: string -> bool, rest: Result<(), InstallError>)
    requires |paths| > 0 && isFile(paths[0].0)
    requires rest.Ok? <==> forall i :: 0 <= i < |paths[1..]| ==> isFile(paths[1..][i].0)
    requires rest.Err? ==>
      exists i :: 0 <= i < |paths[1..]| && !isFile(paths[1..][i].0)
        && (forall j :: 0 <= j < i ==> isFile(paths[1..][j].0))
        && rest.error == MissingFile(paths[1..][i].0)
    ensures rest.Ok? <==> forall i :: 0 <= i < |paths| ==> isFile(paths[i].0)
    ensures rest.Err? ==>
      exists i :: 0 <= i < |paths| && !isFile(paths[i].0)
        && (forall j :: 0 <= j < i ==> isFile(paths[j].0))
        && rest.error == MissingFile(paths[i].0)
  {
    AllFilesShift(paths, isFile);
    if rest.Err? {
      var i :| 0 <= i < |paths[1..]| && !isFile(paths[1..][i].0)
        && (forall j :: 0 <= j < i ==> isFile(paths[1..][j].0))
        && rest.error == MissingFile(paths[1..][i].0);
      FirstMissingShift(paths, isFile, i);
    }
  }

  /** Every source is a file iff the head is and every source of the tail is. */
  lemma AllFilesShift(paths: seq<(string, string)>, isFile: string -> bool)
    requires |paths| > 0
    ensures (forall i :: 0 <= i < |paths| ==> isFile(paths[i].0)) <==>
      isFile(paths[0].0) && forall i :: 0 <= i < |paths[1..]| ==> isFile(paths[1..][i].0)
  {
    assert forall i :: 0 <= i < |paths[1..]| ==> paths[1..][i] == paths[i + 1];
    if forall i :: 0 <= i < |paths[1..]| ==> isFile(paths[1..][i].0) {
      forall i | 0 < i < |paths| ensures isFile(paths[i].0) {
        assert paths[i] == paths[1..][i - 1];
      }
    }
  }

  /** The first missing source of the tail, one further on, is the first missing source of the whole. */
  lemma FirstMissingShift(paths: seq<(string, string)>, isFile: string -> bool, i: nat)
    requires |paths| > 0 && isFile(paths[0].0)
    requires i < |paths[1..]| && !isFile(paths[1..][i].0)
    requires forall j :: 0 <= j < i ==> isFile(paths[1..][j].0)
    ensures paths[i + 1] == paths[1..][i]
    ensures forall j :: 0 <= j < i + 1 ==> isFile(paths[j].0)
  {
    forall j | 0 < j < i + 1 ensures isFile(paths[j].0) {
      assert paths[j] == paths[1..][j - 1];
    }
  }

  /** What installing does to the file system, in order. */
  datatype Effect = MakeDirs(path: string) | Copy(source: string, target: string)

  /** The effects performed before returning, and the error raised, if any. */
  datatype Outcome = Outcome(effects: seq<Effect>, error: Option<InstallError>)

  function Copies(paths: seq<(string, string)>): (r: seq<Effect>)
    ensures |r| == |paths|
    ensures forall i :: 0 <= i < |paths| ==> r[i] == Copy(paths[i].0, paths[i].1)
  {
    seq(|paths|, i requires 0 <= i < |paths| => Copy(paths[i].0, paths[i].1))
  }

  /**
   * `install_from_temp(unpack_dir, install_id, package_meta)` with `storeDir` the package store
   * (`package_path()`): nothing is created or copied unless `package.json` is present and every
   * source passes the check; then the install directory is created and the files are copied in
   * plan order.
   */
  function InstallFromTemp(unpackDir: string, installId: string, storeDir: string, meta: PackageMeta, isFile: string -> bool)
    : (r: Outcome)
    ensures var plan := PrepCopy(unpackDir, Join1(storeDir, installId), meta);
      r.error.None? <==> forall i :: 0 <= i < |plan| ==> isFile(plan[i].0)
    ensures r.error.Some? ==> r.effects == []
    ensures !isFile(Join1(unpackDir, "package.json")) ==>
      r.error == Some(PackageInstallError("No package.json at " + unpackDir, 400))
    ensures r.error.None? ==>
      var installDir := Join1(storeDir, installId);
      && |r.effects| == 3 + |meta.models|
      && r.effects[0] == MakeDirs(installDir)
      && r.effects[1..] == Copies(PrepCopy(unpackDir, installDir, meta))
  {
    if !isFile(Join1(unpackDir, "package.json")) then
      assert PrepCopy(unpackDir, Join1(storeDir, installId), meta)[0].0 == Join1(unpackDir, "package.json");
      Outcome([], Some(PackageInstallError("No package.json at " + unpackDir, 400)))
    else
      var installDir := Join1(storeDir, installId);
      var plan := PrepCopy(unpackDir, installDir, meta);
      match CheckPaths(plan, isFile)
      case Err(e) => Outcome([], Some(e))
      case Ok(_) =>
        var effects := [MakeDirs(installDir)] + Copies(plan);
        assert effects[1..] == Copies(plan);
        Outcome(effects, None)
  }

  /** Every file copied exists at the time of the check, and is copied into the install directory. */
  lemma CopiedFilesWereChecked(unpackDir: string, installId: string, storeDir: string, meta: PackageMeta, isFile: string -> bool, k: nat)
    requires k < |InstallFromTemp(unpackDir, installId, storeDir, meta, isFile).effects|
    ensures var e := InstallFromTemp(unpackDir, installId, storeDir, meta, isFile).effects[k];
      k == 0 <==> e.MakeDirs?
    ensures var e := InstallFromTemp(unpackDir, installId, storeDir, meta, isFile).effects[k];
      e.Copy? ==> isFile(e.source)
  {
    var r := InstallFromTemp(unpackDir, installId, storeDir, meta, isFile);
    var plan := PrepCopy(unpackDir, Join1(storeDir, installId), meta);
    if k > 0 {
      assert r.effects[k] == r.effects[1..][k - 1];
      assert r.effects[k] == Copy(plan[k - 1].0, plan[k - 1].1);
    }
  }

  /**
   * With a store directory not ending in `/` and plain names, each destination is the install
   * directory, one `/`, and the file's own name.
   */
  lemma {:induction false} DestinationsInInstallDir(unpackDir: string, installDir: string, meta: PackageMeta, i: nat)
    requires |installDir| > 0 && installDir[|installDir| - 1] != '/'
    requires i < |meta.models|
    requires Text.PlainPart(ModelFileName(meta.models[i].0, meta.models[i].1))
    ensures PrepCopy(unpackDir, installDir, meta)[0].1 == installDir + "/" + "package.json"
    ensures PrepCopy(unpackDir, installDir, meta)[1].1 == installDir + "/" + "module.py"
    ensures PrepCopy(unpackDir, installDir, meta)[2 + i].1 == installDir + "/" + ModelFileName(meta.models[i].0, meta.models[i].1)
  {
    var r := PrepCopy(unpackDir, installDir, meta);
    Join1Plain(installDir, "package.json");
    assert r[0].1 == installDir + "/" + "package.json";
    Join1Plain(installDir, "module.py");
    assert r[1].1 == installDir + "/" + "module.py";
    Join1Plain(installDir, ModelFileName(meta.models[i].0, meta.models[i].1));
  }

  lemma Join1Plain(dir: string, name: string)
    requires |dir| > 0 && dir[|dir| - 1] != '/'
    requires Text.PlainPart(name)
    ensures Join1(dir, name) == dir + "/" + name
  {
    Text.PathJoinPlain(dir, [name]);
    assert Text.Join([name], '/') == name;
  }

  /** Two model file names agree only for the same model name, when names have no dot. */
  lemma ModelFileNamesDistinct(a: string, sa: ModelSpec, b: string, sb: ModelSpec)
    requires '.' !in a && '.' !in b
    requires a != b
    ensures ModelFileName(a, sa) != ModelFileName(b, sb)
  {
    var x, y := ModelFileName(a, sa), ModelFileName(b, sb);
    if |a| < |b| {
      assert x[|a|] == '.' && y[|a|] == b[|a|];
    } else if |b| < |a| {
      assert y[|b|] == '.' && x[|b|] == a[|b|];
    } else {
      assert x[..|a|] == a && y[..|b|] == b;
    }
  }

  /**
   * A model called `module` of type `py` is planned onto the same destination as the module
   * file, and the later copy wins.
   */
  lemma ModelNamedModuleCollides(unpackDir: string, installDir: string, moduleFile: string, file: string)
    ensures var plan := PrepCopy(unpackDir, installDir, PackageMeta(moduleFile, [("module", ModelSpec(file, "py"))]));
      plan[1].1 == plan[2].1
  {
    var meta := PackageMeta(moduleFile, [("module", ModelSpec(file, "py"))]);
    assert ModelFileName("module", ModelSpec(file, "py")) == "module.py";
    assert PrepCopy(unpackDir, installDir, meta)[2].1 == Join1(installDir, ModelFileName(meta.models[0].0, meta.models[0].1));
  }
}

=== FILE: install_spec.dfy ===
/**
 * How a package installation is specified. The client turns its options into a request payload
 * (`package_install_params`); the daemon reads the request body, picks the schema of the first
 * of `localfile`, `url`, `name` present and validates against it (`package_install_spec`), then
 * picks the install function and its arguments (`package_install_command`) and queues it.
 * Around every endpoint, `error_handler` turns the daemon's own errors into responses and
 * `wrap_sync` answers `None` with `{"status": "OK"}`.
 *
 * The validator library is written out for these schemas with its defaults (undeclared fields
 * are errors). JSON decoding, the file system and the job queue are parameters.
 */
module InstallSpec {
  import opened Wrappers
  import Dicts
  import opened PyValue
  import Text

  /** A JSON object as the request carries it. */
  type Spec = Dicts.Dict<Key, Value>

  predicate Has(spec: Spec, field: string)
  {
    Dicts.HasKey(spec, KStr(field))
  }

  function Field(spec: Spec, field: string): Value
    requires Has(spec, field)
  {
    Dicts.Get(spec, KStr(field)).value
  }

  // ---------------------------------------------------------------------------------------------
  // package_install_command
  // ---------------------------------------------------------------------------------------------

  datatype InstallFn = InstallPackageFile | InstallPackageUrl | InstallPackageName

  datatype Command = Command(fn: InstallFn, kwargs: Dicts.Dict<string, Value>)

  /** The install function and its keyword arguments: the first of localfile, url with hash, name. */
  function InstallCommand(params: Spec, activate: bool): (r: Option<Command>)
    ensures r.None? <==> !Has(params, "localfile") && !(Has(params, "url") && Has(params, "hash")) && !Has(params, "name")
    ensures r.Some? ==> Dicts.Get(r.value.kwargs, "activate") == Some(VBool(activate))
    ensures r.Some? && r.value.fn == InstallPackageFile <==> Has(params, "localfile")
    ensures r.Some? && r.value.fn == InstallPackageFile ==>
      Dicts.Get(r.value.kwargs, "localfile") == Some(Field(params, "localfile"))
    ensures r.Some? && r.value.fn == InstallPackageUrl <==>
      !Has(params, "localfile") && Has(params, "url") && Has(params, "hash")
    ensures r.Some? && r.value.fn == InstallPackageUrl ==>
      Dicts.Get(r.value.kwargs, "url") == Some(Field(params, "url"))
      && Dicts.Get(r.value.kwargs, "package_hash") == Some(Field(params, "hash"))
    ensures r.Some? && r.value.fn == InstallPackageName ==>
      Dicts.Get(r.value.kwargs, "name") == Some(Field(params, "name"))
  {
    if Has(params, "localfile") then
      Some(Command(InstallPackageFile, [("localfile", Field(params, "localfile")), ("activate", VBool(activate))]))
    else if Has(params, "url") && Has(params, "hash") then
      var kwargs := [("url", Field(params, "url")), ("package_hash", Field(params, "hash")), ("activate", VBool(activate))];
      assert Dicts.Get(kwargs, "activate") == Some(VBool(activate)) by {
        var head, last := kwargs[..2], [("activate", VBool(activate))];
        assert kwargs == head + last;
        assert !Dicts.HasKey(head, "activate") by {
          assert head[0].0 != "activate" && head[1].0 != "activate";
        }
        Dicts.GetAppendRight(head, last, "activate");
      }
      Some(Command(InstallPackageUrl, kwargs))
    else if Has(params, "name") then
      Some(Command(InstallPackageName, [("name", Field(params, "name")), ("activate", VBool(activate))]))
    else None
  }

  /** A `url` without a `hash` is not enough for the url branch: `name` is used, or nothing. */
  lemma UrlWithoutHashFallsThrough(params: Spec, activate: bool)
    requires !Has(params, "localfile") && Has(params, "url") && !Has(params, "hash")
    ensures Has(params, "name") ==> InstallCommand(params, activate).value.fn == InstallPackageName
    ensures !Has(params, "name") ==> InstallCommand(params, activate).None?
  {
  }

  // ---------------------------------------------------------------------------------------------
  // package_install_spec
  // ---------------------------------------------------------------------------------------------

  /** The three schemas, each naming its required string fields. */
  datatype Schema = LocalfileSchema | UrlSchema | NameSchema

  function SchemaFields(s: Schema): seq<string>
  {
    match s
    case LocalfileSchema => ["localfile"]
    case UrlSchema => ["url", "hash"]
    case NameSchema => ["name"]
  }

  datatype SpecError =
    | InvalidInput(message: string)
    | ValidationError(message: string)
    | InternalError(message: string)
    | Crashed(message: string)   // an exception that is not one of the daemon's own

  const NoSpecMessage := "You must provide one of \"localfile\", \"url\", \"name\""

  /** Whether Python's `field in jsn` can be asked of a decoded JSON value at all. */
  predicate Iterable(jsn: Value)
  {
    jsn.VDict? || jsn.VStr? || jsn.VList?
  }

  /**
   * Python's `field in jsn` on a decoded JSON value: a key of an object, a substring of a
   * string, an element of an array.
   */
  predicate Mentions(jsn: Value, field: string)
  {
    match jsn
    case VDict(entries) => Has(entries, field)
    case VStr(s) => Text.Contains(s, field)
    case VList(items) => VStr(field) in items
    case _ => false
  }

  /**
   * The schema of the first of `localfile`, `url`, `name` the document mentions. Asking a number,
   * a boolean or `null` raises `TypeError`.
   */
  function ChooseSchema(jsn: Value): (r: Result<Schema, SpecError>)
    ensures r.Err? && r.error.Crashed? <==> !Iterable(jsn)
    ensures Iterable(jsn) ==> (r.Err? <==> !Mentions(jsn, "localfile") && !Mentions(jsn, "url") && !Mentions(jsn, "name"))
    ensures r.Err? && Iterable(jsn) ==> r.error == ValidationError(NoSpecMessage)
    ensures r == Ok(LocalfileSchema) <==> Mentions(jsn, "localfile")
    ensures r == Ok(UrlSchema) <==> !Mentions(jsn, "localfile") && Mentions(jsn, "url")
  {
    if !Iterable(jsn) then Err(Crashed("argument of type is not iterable"))
    else if Mentions(jsn, "localfile") then Ok(LocalfileSchema)
    else if Mentions(jsn, "url") then Ok(UrlSchema)
    else if Mentions(jsn, "name") then Ok(NameSchema)
    else Err(ValidationError(NoSpecMessage))
  }

  /** The validator's verdict: every field declared and a string, every declared field present. */
  predicate Fits(jsn: Spec, fields: seq<string>)
  {
    && (forall i :: 0 <= i < |jsn| ==> jsn[i].0.KStr? && jsn[i].0.s in fields && jsn[i].1.VStr?)
    && (forall f :: f in fields ==> Has(jsn, f))
  }

  /**
   * The request body: JSON (already decoded to any JSON value, `None` if it was not JSON) or a
   * multipart form.
   */
  datatype Body = JsonBody(json: Option<Value>) | FormBody(form: Dicts.Dict<string, string>)

  /** The decoded document of a request, before any schema is chosen. */
  function Document(body: Body, decode: string -> Option<Value>): (r: Result<Value, SpecError>)
    ensures r.Err? ==> r.error.InvalidInput? || r.error.ValidationError?
    ensures r.Err? && r.error.InvalidInput? <==> body.FormBody? && !Dicts.HasKey(body.form, "specfile")
    ensures body.JsonBody? ==> r == if body.json.Some? then Ok(body.json.value) else Err(ValidationError("Request was not json"))
    ensures body.FormBody? && Dicts.HasKey(body.form, "specfile") ==>
      (r.Ok? <==> decode(Dicts.Get(body.form, "specfile").value).Some?)
      && (r.Ok? ==> r.value == decode(Dicts.Get(body.form, "specfile").value).value)
  {
    match body
    case FormBody(form) =>
      (match Dicts.Get(form, "specfile")
       case None => Err(InvalidInput("Missing specfile"))
       case Some(text) =>
         (match decode(text)
          case None => Err(ValidationError("specfile was not valid json"))
          case Some(j) => Ok(j)))
    case JsonBody(j) =>
      if j.None? then Err(ValidationError("Request was not json")) else Ok(j.value)
  }

  /** A decoded document that is an object fitting the schema its own fields select. */
  predicate Valid(jsn: Value)
  {
    jsn.VDict? && ChooseSchema(jsn).Ok? && Fits(jsn.entries, SchemaFields(ChooseSchema(jsn).value))
  }

  /**
   * `package_install_spec`: the validated document, or why it was refused. A string or an array
   * that mentions a schema's field reaches the validator, which refuses a document that is not an
   * object with an exception of its own (`DocumentError`).
   */
  function PackageInstallSpec(body: Body, decode: string -> Option<Value>): (r: Result<Spec, SpecError>)
    ensures r.Ok? <==> Document(body, decode).Ok? && Valid(Document(body, decode).value)
    ensures r.Ok? ==> Document(body, decode) == Ok(VDict(r.value))
    ensures Document(body, decode).Err? ==> r == Err(Document(body, decode).error)
    ensures Document(body, decode).Ok? ==>
      var jsn := Document(body, decode).value;
      && (r.Err? && r.error.Crashed? <==> !Iterable(jsn) || (!jsn.VDict? && ChooseSchema(jsn).Ok?))
      && (r.Err? && r.error.ValidationError? <==> Iterable(jsn) && !Valid(jsn) && (jsn.VDict? || ChooseSchema(jsn).Err?))
    ensures r.Err? ==> !r.error.InternalError?
  {
    var jsn :- Document(body, decode);
    var schema :- ChooseSchema(jsn);
    if !jsn.VDict? then Err(Crashed("document must be a dict"))
    else if !Fits(jsn.entries, SchemaFields(schema)) then Err(ValidationError("Request failed to validate"))
    else Ok(jsn.entries)
  }

  /**
   * A JSON string or array that mentions a field, or `null`, is not refused as invalid input: it
   * crashes. A string that mentions none is refused like an object without the fields.
   */
  lemma NonObjectMentioningFieldCrashes(decode: string -> Option<Value>)
    ensures PackageInstallSpec(JsonBody(Some(VStr("xnamex"))), decode).error.Crashed?
    ensures PackageInstallSpec(JsonBody(Some(VList([VStr("url")]))), decode).error.Crashed?
    ensures PackageInstallSpec(JsonBody(Some(VNone)), decode).error.Crashed?
    ensures PackageInstallSpec(JsonBody(Some(VStr(""))), decode) == Err(ValidationError(NoSpecMessage))
  {
    assert Text.Contains("xnamex", "name") by {
      assert "name" <= "namex";
      assert "xnamex"[1..] == "namex";
    }
    assert !Text.Contains("", "localfile") && !Text.Contains("", "url") && !Text.Contains("", "name");
  }

  /**
   * A document that passed validation always selects an install command: the "invalid package
   * spec made it through validation" error cannot happen.
   */
  lemma ValidatedSpecHasCommand(body: Body, decode: string -> Option<Value>, activate: bool)
    requires PackageInstallSpec(body, decode).Ok?
    ensures InstallCommand(PackageInstallSpec(body, decode).value, activate).Some?
  {
    var jsn := PackageInstallSpec(body, decode).value;
    var s := ChooseSchema(VDict(jsn)).value;
    assert Fits(jsn, SchemaFields(s));
    assert SchemaFields(s)[0] in SchemaFields(s);
    if s == UrlSchema {
      assert "hash" in SchemaFields(s);
    }
  }

  /** A validated document names exactly one way to install: its fields are those of one schema. */
  lemma ValidatedSpecIsExclusive(body: Body, decode: string -> Option<Value>)
    requires PackageInstallSpec(body, decode).Ok?
    ensures var jsn := PackageInstallSpec(body, decode).value;
      (Has(jsn, "localfile") ==> !Has(jsn, "url") && !Has(jsn, "name"))
      && (Has(jsn, "url") ==> !Has(jsn, "name"))
  {
    var jsn := PackageInstallSpec(body, decode).value;
    var s := ChooseSchema(VDict(jsn)).value;
    assert Fits(jsn, SchemaFields(s));
    forall f | f in ["url", "name", "localfile"] && Has(jsn, f)
      ensures f in SchemaFields(s)
    {
      var i :| 0 <= i < |jsn| && jsn[i].0 == KStr(f);
    }
  }

  // ---------------------------------------------------------------------------------------------
  // package_fetch / package_install
  // ---------------------------------------------------------------------------------------------

  /** What the endpoint queues: the command, always with `activate=True`, and the method name. */
  datatype Job = Job(command: Command, requestMethod: string)

  function QueueInstall(body: Body, decode: string -> Option<Value>, requestMethod: string): (r: Result<Job, SpecError>)
    ensures r.Ok? ==> Dicts.Get(r.value.command.kwargs, "activate") == Some(VBool(true)) && r.value.requestMethod == requestMethod
    ensures r.Err? ==> PackageInstallSpec(body, decode).Err? && r.error == PackageInstallSpec(body, decode).error
  {
    var params :- PackageInstallSpec(body, decode);
    ValidatedSpecHasCommand(body, decode, true);
    match InstallCommand(params, true)
    case None => Err(InternalError("Invalid package spec made it through validation"))
    case Some(c) => Ok(Job(c, requestMethod))
  }

  function PackageFetch(body: Body, decode: string -> Option<Value>): Result<Job, SpecError>
  {
    QueueInstall(body, decode, "package.fetch")
  }

  function PackageInstall(body: Body, decode: string -> Option<Value>): Result<Job, SpecError>
  {
    QueueInstall(body, decode, "package.install")
  }

  /** Fetch and install differ only in the request method they record. */
  lemma FetchAndInstallAgree(body: Body, decode: string -> Option<Value>)
    ensures PackageFetch(body, decode).Ok? <==> PackageInstall(body, decode).Ok?
    ensures PackageFetch(body, decode).Ok? ==>
      PackageFetch(body, decode).value.command == PackageInstall(body, decode).value.command
  {
  }

  // ---------------------------------------------------------------------------------------------
  // error_handler and wrap_sync
  // ---------------------------------------------------------------------------------------------

  datatype Response = Response(body: Value, status: int)

  /** How an endpoint's handler finished. */
  datatype HandlerOutcome =
    | Responded(response: Response)
    | RaisedCitrine(asDict: Value, statusCode: int)  // one of the daemon's errors: its `to_dict()` and status
    | RaisedOther(text: string)

  /** `error_handler`: a daemon error becomes a response; anything else propagates (`Err`). */
  function ErrorHandler(o: HandlerOutcome): (r: Result<Response, string>)
    ensures o.Responded? ==> r == Ok(o.response)
    ensures o.RaisedCitrine? ==> r == Ok(Response(o.asDict, o.statusCode))
    ensures o.RaisedOther? ==> r == Err(o.text)
  {
    match o
    case Responded(resp) => Ok(resp)
    case RaisedCitrine(d, code) => Ok(Response(d, code))
    case RaisedOther(t) => Err(t)
  }

  /** `wrap_sync`'s body: the job's result, `None` standing for success. */
  function SyncBody(result: Value): (r: Value)
    ensures result.VNone? ==> r == StrDict([("status", VStr("OK"))])
    ensures !result.VNone? ==> r == result
    ensures !r.VNone?
  {
    if result.VNone? then StrDict([("status", VStr("OK"))]) else result
  }

  // ---------------------------------------------------------------------------------------------
  // package_install_params (client side)
  // ---------------------------------------------------------------------------------------------

  /** The request payload: a JSON body, or a file upload. */
  datatype RequestData = Jsn(json: Dicts.Dict<string, string>) | Files(files: Dicts.Dict<string, string>)

  datatype ClientError = FileNotFound(message: string) | InvalidOptions(message: string)

  /**
   * The client's choice among its options: name, then specfile, then localfile, then url with
   * hash. `isFile` and `read` stand for the file system.
   */
  function PackageInstallParams(
    name: Option<string>, specfile: Option<string>, localfile: Option<string>,
    url: Option<string>, packageHash: Option<string>,
    isFile: string -> bool, read: string -> string): (r: Result<RequestData, ClientError>)
    ensures name.Some? ==> r == Ok(Jsn([("name", name.value)]))
    ensures name.None? && specfile.Some? && !isFile(specfile.value) ==> r.Err? && r.error.FileNotFound?
    ensures name.None? && specfile.Some? && isFile(specfile.value) ==>
      r == Ok(Files([("specfile", read(specfile.value))]))
    ensures name.None? && specfile.None? && localfile.Some? ==> r == Ok(Jsn([("localfile", localfile.value)]))
    ensures name.None? && specfile.None? && localfile.None? && url.Some? && packageHash.Some? ==>
      r == Ok(Jsn([("url", url.value), ("hash", packageHash.value)]))
    ensures r.Err? && r.error.InvalidOptions? <==>
      name.None? && specfile.None? && localfile.None? && (url.None? || packageHash.None?)
  {
    if name.Some? then Ok(Jsn([("name", name.value)]))
    else if specfile.Some? then
      if !isFile(specfile.value) then Err(FileNotFound("Could not find file " + specfile.value))
      else Ok(Files([("specfile", read(specfile.value))]))
    else if localfile.Some? then Ok(Jsn([("localfile", localfile.value)]))
    else if url.Some? && packageHash.Some? then Ok(Jsn([("url", url.value), ("hash", packageHash.value)]))
    else Err(InvalidOptions("You must specify \"name\" or one of \"specfile\", \"localfile\", (\"url\" + \"package_hash\")"))
  }

  /** The JSON object a client payload decodes to on the daemon's side. */
  function AsSpec(json: Dicts.Dict<string, string>): (s: Spec)
    ensures |s| == |json|
    ensures forall i :: 0 <= i < |s| ==> s[i] == (KStr(json[i].0), VStr(json[i].1))
  {
    seq(|json|, i requires 0 <= i < |json| => (KStr(json[i].0), VStr(json[i].1)))
  }

  /**
   * The client and the daemon agree: every JSON payload the client builds passes the daemon's
   * validation and selects the install function for the option the client chose.
   */
  lemma ClientPayloadAccepted(
    name: Option<string>, localfile: Option<string>, url: Option<string>, packageHash: Option<string>,
    isFile: string -> bool, read: string -> string, decode: string -> Option<Value>)
    requires PackageInstallParams(name, None, localfile, url, packageHash, isFile, read).Ok?
    ensures var data := PackageInstallParams(name, None, localfile, url, packageHash, isFile, read).value;
      && data.Jsn?
      && PackageInstallSpec(JsonBody(Some(VDict(AsSpec(data.json)))), decode) == Ok(AsSpec(data.json))
      && InstallCommand(AsSpec(data.json), true).Some?
      && InstallCommand(AsSpec(data.json), true).value.fn ==
           if name.Some? then InstallPackageName
           else if localfile.Some? then InstallPackageFile
           else InstallPackageUrl
  {
    var data := PackageInstallParams(name, None, localfile, url, packageHash, isFile, read).value;
    var s := AsSpec(data.json);
    if name.Some? {
      assert s == [(KStr("name"), VStr(name.value))];
      HasOnly(s, "name", VStr(name.value));
    } else if localfile.Some? {
      assert s == [(KStr("localfile"), VStr(localfile.value))];
      HasOnly(s, "localfile", VStr(localfile.value));
    } else {
      assert s == [(KStr("url"), VStr(url.value)), (KStr("hash"), VStr(packageHash.value))];
      HasUrlHash(s, url.value, packageHash.value);
    }
  }

  lemma HasOnly(s: Spec, k: string, v: Value)
    requires s == [(KStr(k), v)]
    ensures forall f :: Has(s, f) <==> f == k
  {
    assert s[0].0 == KStr(k);
  }

  lemma HasUrlHash(s: Spec, url: string, hash: string)
    requires s == [(KStr("url"), VStr(url)), (KStr("hash"), VStr(hash))]
    ensures forall f :: Has(s, f) <==> f == "url" || f == "hash"
  {
    assert s[0].0 == KStr("url") && s[1].0 == KStr("hash");
  }
}

=== FILE: interfaces.dfy ===
/**
 * The UIs' interface packages: two `|`-separated indices (package to interface, interface to
 * `(url, hash)`), the list of interfaces the daemon's installed packages call for, where each
 * one is installed from, and the file paths of an installed interface's views.
 *
 * The first UI downloads both indices and lets a package list several interfaces; the second
 * reads them from local files and keeps one interface per package. The daemon's package list,
 * the downloads and the file reads are parameters.
 */
module Interfaces {
  import opened Wrappers
  import Text
  import Dicts
  import opened IndexRows

  /** Interface name to `(url, hash)`. */
  type InterfaceIndex = Dicts.Dict<string, (string, string)>

  /**
   * `f.readlines()`: the lines of a file; their terminators are dropped, as each line is stripped.
   * The lines, joined back with their terminators, are the file again, and an empty file has none.
   */
  function FileLines(text: string): (r: seq<string>)
    ensures forall i :: 0 <= i < |r| ==> '\n' !in r[i]
    ensures |r| == 0 <==> text == ""
    ensures Text.Join(r, '\n') + (if |text| > 0 && text[|text| - 1] == '\n' then "\n" else "") == text
  {
    var parts := Text.Split(text, '\n');
    if parts[|parts| - 1] == "" then
      var r := parts[..|parts| - 1];
      assert parts == r + [""];
      assert |r| > 0 ==> Text.Join(parts, '\n') == Text.Join(r, '\n') + "\n" by {
        if |r| > 0 { Text.JoinAppendEmpty(r, '\n'); }
      }
      r
    else
      assert |text| > 0 && text[|text| - 1] != '\n' by { Text.JoinLastChar(parts, '\n'); }
      parts
  }

  /** The interface index from its lines: `name|url|hash`, each line stripped, a later line overriding. */
  function BuildInterfaceIndex(lines: seq<string>): (b: Built<InterfaceIndex>)
    ensures Dicts.DistinctKeys(b.index)
  {
    var p := ParseLines(lines, true, 3);
    Dicts.FromPairsDistinct(Triples(p.records));
    Built(Dicts.FromPairs(Triples(p.records)), p.badFields)
  }

  /** The first UI's package-interface index: `package|interface`, listing every interface in order. */
  function BuildGroupedIndex(lines: seq<string>): (b: Built<Dicts.Dict<string, seq<string>>>)
    ensures b.badFields.None? <==> forall i :: 0 <= i < |lines| ==> |Fields(lines[i], true)| == 2
  {
    var p := ParseLines(lines, true, 2);
    Built(Group(Pairs(p.records)), p.badFields)
  }

  /** The second UI's package-interface index: `package|interface`, a later line overriding. */
  function BuildSingleIndex(lines: seq<string>): (b: Built<Dicts.Dict<string, string>>)
    ensures Dicts.DistinctKeys(b.index)
    ensures b.badFields.None? <==> forall i :: 0 <= i < |lines| ==> |Fields(lines[i], true)| == 2
  {
    var p := ParseLines(lines, true, 2);
    Dicts.FromPairsDistinct(Pairs(p.records));
    Built(Dicts.FromPairs(Pairs(p.records)), p.badFields)
  }

  function DownloadedGrouped(text: string): Built<Dicts.Dict<string, seq<string>>>
  {
    BuildGroupedIndex(FetchedLines(text))
  }

  function DownloadedInterfaces(text: string): Built<InterfaceIndex>
  {
    BuildInterfaceIndex(FetchedLines(text))
  }

  function FileSingle(text: string): Built<Dicts.Dict<string, string>>
  {
    BuildSingleIndex(FileLines(text))
  }

  function FileInterfaces(text: string): Built<InterfaceIndex>
  {
    BuildInterfaceIndex(FileLines(text))
  }

  /**
   * `get_package_interface_index` of the first UI: downloaded once; the global is set only after
   * the download, so a failed download leaves it unset and the next call tries again.
   */
  function GroupedIndex(state: Option<Dicts.Dict<string, seq<string>>>, fetched: Option<string>)
    : (r: (Option<Dicts.Dict<string, seq<string>>>, Result<Dicts.Dict<string, seq<string>>, IndexError>))
    ensures state.None? && fetched.None? ==> r == (None, Err(FetchFailed))
    ensures state.Some? ==> r == (state, Ok(state.value))
  {
    Lazy(state, fetched, DownloadedGrouped, [], false)
  }

  /** `get_interface_index` of the first UI. */
  function DownloadedInterfaceIndex(state: Option<InterfaceIndex>, fetched: Option<string>)
    : (r: (Option<InterfaceIndex>, Result<InterfaceIndex, IndexError>))
    ensures state.None? && fetched.None? ==> r == (None, Err(FetchFailed))
    ensures state.Some? ==> r == (state, Ok(state.value))
  {
    Lazy(state, fetched, DownloadedInterfaces, [], false)
  }

  /** `get_package_interface_index` of the second UI, read from a file once. */
  function SingleIndex(state: Option<Dicts.Dict<string, string>>, read: Option<string>)
    : (r: (Option<Dicts.Dict<string, string>>, Result<Dicts.Dict<string, string>, IndexError>))
    ensures state.None? && read.None? ==> r == (None, Err(FetchFailed))
    ensures state.Some? ==> r == (state, Ok(state.value))
  {
    Lazy(state, read, FileSingle, [], false)
  }

  /** `get_interface_index` of the second UI, read from a file once. */
  function FileInterfaceIndex(state: Option<InterfaceIndex>, read: Option<string>)
    : (r: (Option<InterfaceIndex>, Result<InterfaceIndex, IndexError>))
    ensures state.None? && read.None? ==> r == (None, Err(FetchFailed))
    ensures state.Some? ==> r == (state, Ok(state.value))
  {
    Lazy(state, read, FileInterfaces, [], false)
  }

  /** With well-formed lines, a package lists exactly the interfaces of its lines, in line order. */
  lemma GroupedIndexLists(lines: seq<string>, package: string)
    requires BuildGroupedIndex(lines).badFields.None?
    ensures var pairs := Pairs(ParseLines(lines, true, 2).records);
      Dicts.Get(BuildGroupedIndex(lines).index, package) ==
        if Mentions(pairs, package) then Some(ValuesOf(pairs, package)) else None
  {
    GroupGet(Pairs(ParseLines(lines, true, 2).records), package);
  }

  /** With well-formed lines, a package maps to the interface of its last line. */
  lemma SingleIndexLastWins(lines: seq<string>, package: string)
    requires BuildSingleIndex(lines).badFields.None?
    ensures Dicts.Get(BuildSingleIndex(lines).index, package) ==
      Dicts.LastValue(Pairs(ParseLines(lines, true, 2).records), package)
  {
    Dicts.FromPairsGet(Pairs(ParseLines(lines, true, 2).records), package);
  }

  /** With well-formed lines, an interface maps to the `(url, hash)` of its last line. */
  lemma InterfaceIndexLastWins(lines: seq<string>, name: string)
    requires BuildInterfaceIndex(lines).badFields.None?
    ensures Dicts.Get(BuildInterfaceIndex(lines).index, name) ==
      Dicts.LastValue(Triples(ParseLines(lines, true, 3).records), name)
  {
    Dicts.FromPairsGet(Triples(ParseLines(lines, true, 3).records), name);
  }

  /** `_check_wanted_interfaces` of the first UI: the lists of the indexed installed packages, concatenated. */
  function WantedGrouped(packages: seq<string>, index: Dicts.Dict<string, seq<string>>): (r: seq<string>)
    ensures |packages| > 0 ==> Dicts.Get(index, packages[0]).GetOr([]) <= r
    ensures r == [] <==> forall i :: 0 <= i < |packages| ==> Dicts.Get(index, packages[i]).GetOr([]) == []
  {
    if |packages| == 0 then []
    else Dicts.Get(index, packages[0]).GetOr([]) + WantedGrouped(packages[1..], index)
  }

  /** An interface is wanted exactly when some installed package lists it. */
  lemma {:induction false} WantedGroupedIff(packages: seq<string>, index: Dicts.Dict<string, seq<string>>, x: string)
    ensures x in WantedGrouped(packages, index) <==>
      exists i :: 0 <= i < |packages| && x in Dicts.Get(index, packages[i]).GetOr([])
  {
    if |packages| > 0 {
      WantedGroupedIff(packages[1..], index, x);
      if x in WantedGrouped(packages[1..], index) {
        var i :| 0 <= i < |packages[1..]| && x in Dicts.Get(index, packages[1..][i]).GetOr([]);
        assert x in Dicts.Get(index, packages[i + 1]).GetOr([]);
      }
      if exists i :: 0 <= i < |packages| && x in Dicts.Get(index, packages[i]).GetOr([]) {
        var i :| 0 <= i < |packages| && x in Dicts.Get(index, packages[i]).GetOr([]);
        if i > 0 {
          assert x in Dicts.Get(index, packages[1..][i - 1]).GetOr([]);
        }
      }
    }
  }

  /** `list_available_interfaces`: one `(package, interface)` pair per listed interface. */
  function AvailablePairs(packages: seq<string>, index: Dicts.Dict<string, seq<string>>): (r: seq<(string, string)>)
    ensures forall i :: 0 <= i < |r| ==> r[i].0 in packages
    ensures forall i :: 0 <= i < |r| ==> r[i].1 in Dicts.Get(index, r[i].0).GetOr([])
  {
    if |packages| == 0 then []
    else
      var listed := Dicts.Get(index, packages[0]).GetOr([]);
      seq(|listed|, j requires 0 <= j < |listed| => (packages[0], listed[j])) + AvailablePairs(packages[1..], index)
  }

  /** Every interface an installed package lists is paired with that package. */
  lemma {:induction false} AvailablePairsComplete(packages: seq<string>, index: Dicts.Dict<string, seq<string>>, k: nat, x: string)
    requires k < |packages| && x in Dicts.Get(index, packages[k]).GetOr([])
    ensures (packages[k], x) in AvailablePairs(packages, index)
  {
    var listed := Dicts.Get(index, packages[0]).GetOr([]);
    var head := seq(|listed|, j requires 0 <= j < |listed| => (packages[0], listed[j]));
    var tail := AvailablePairs(packages[1..], index);
    assert AvailablePairs(packages, index) == head + tail;
    if k == 0 {
      var j :| 0 <= j < |listed| && listed[j] == x;
      assert head[j] == (packages[0], x);
    } else {
      assert packages[1..][k - 1] == packages[k];
      AvailablePairsComplete(packages[1..], index, k - 1, x);
    }
  }

  function Interfaces(pairs: seq<(string, string)>): (r: seq<string>)
    ensures |r| == |pairs| && forall i :: 0 <= i < |r| ==> r[i] == pairs[i].1
  {
    seq(|pairs|, i requires 0 <= i < |pairs| => pairs[i].1)
  }

  /** The available pairs carry exactly the wanted interfaces, in the same order. */
  lemma {:induction false} AvailableMatchesWanted(packages: seq<string>, index: Dicts.Dict<string, seq<string>>)
    ensures Interfaces(AvailablePairs(packages, index)) == WantedGrouped(packages, index)
  {
    if |packages| > 0 {
      AvailableMatchesWanted(packages[1..], index);
      var listed := Dicts.Get(index, packages[0]).GetOr([]);
      var head := seq(|listed|, j requires 0 <= j < |listed| => (packages[0], listed[j]));
      var tail := AvailablePairs(packages[1..], index);
      assert AvailablePairs(packages, index) == head + tail;
      assert Interfaces(head + tail) == Interfaces(head) + Interfaces(tail);
      assert Interfaces(head) == listed;
    }
  }

  /** `check_wanted_interfaces` of the second UI: the interface of each indexed installed package. */
  function WantedSingle(packages: seq<string>, index: Dicts.Dict<string, string>): (r: seq<string>)
    ensures |r| <= |packages|
  {
    if |packages| == 0 then []
    else
      (match Dicts.Get(index, packages[0])
       case Some(iface) => [iface]
       case None => [])
      + WantedSingle(packages[1..], index)
  }

  /** An interface is wanted exactly when it is the index entry of some installed package. */
  lemma {:induction false} WantedSingleIff(packages: seq<string>, index: Dicts.Dict<string, string>, x: string)
    ensures x in WantedSingle(packages, index) <==>
      exists i :: 0 <= i < |packages| && Dicts.Get(index, packages[i]) == Some(x)
  {
    if |packages| > 0 {
      WantedSingleIff(packages[1..], index, x);
      if x in WantedSingle(packages[1..], index) {
        var i :| 0 <= i < |packages[1..]| && Dicts.Get(index, packages[1..][i]) == Some(x);
        assert Dicts.Get(index, packages[i + 1]) == Some(x);
      }
      if exists i :: 0 <= i < |packages| && Dicts.Get(index, packages[i]) == Some(x) {
        var i :| 0 <= i < |packages| && Dicts.Get(index, packages[i]) == Some(x);
        if i > 0 {
          assert Dicts.Get(index, packages[1..][i - 1]) == Some(x);
        }
      }
    }
  }

  /** With every installed package indexed, there is one wanted interface per package, in package order. */
  lemma {:induction false} WantedSingleAllIndexed(packages: seq<string>, index: Dicts.Dict<string, string>)
    requires forall i :: 0 <= i < |packages| ==> Dicts.HasKey(index, packages[i])
    ensures |WantedSingle(packages, index)| == |packages|
    ensures forall i :: 0 <= i < |packages| ==> Some(WantedSingle(packages, index)[i]) == Dicts.Get(index, packages[i])
  {
    if |packages| > 0 {
      WantedSingleAllIndexed(packages[1..], index);
      var head := Dicts.Get(index, packages[0]).value;
      assert WantedSingle(packages, index) == [head] + WantedSingle(packages[1..], index);
      forall i | 0 <= i < |packages|
        ensures Some(WantedSingle(packages, index)[i]) == Dicts.Get(index, packages[i])
      {
        if i > 0 {
          assert packages[i] == packages[1..][i - 1];
        }
      }
    }
  }

  /** Where an interface's archive comes from. */
  datatype Source = LocalFile(path: string) | Download(url: string, hash: string)

  /** A url starting with `/` is a local path; any other is downloaded and checked against its hash. */
  function ChooseSource(url: string, hash: string): (s: Source)
    ensures s.LocalFile? <==> |url| > 0 && url[0] == '/'
    ensures s.LocalFile? ==> s.path == url
    ensures s.Download? ==> s == Download(url, hash)
  {
    if Text.StartsWith(url, "/") then LocalFile(url) else Download(url, hash)
  }

  /** `index[name]` on an interface that is not in the index: `KeyError`. */
  datatype LocateError = KeyError(name: string)

  /** `install_interface(name)` of the first UI, up to the archive it installs. */
  function InstallSource(index: InterfaceIndex, name: string): (r: Result<Source, LocateError>)
    ensures r.Err? <==> !Dicts.HasKey(index, name)
    ensures r.Ok? ==> r.value == ChooseSource(Dicts.Get(index, name).value.0, Dicts.Get(index, name).value.1)
  {
    match Dicts.Get(index, name)
    case None => Err(KeyError(name))
    case Some(entry) => Ok(ChooseSource(entry.0, entry.1))
  }

  /** `synchronize`'s progress: the archives installed, in order, and the error that stopped it, if any. */
  datatype SyncRun = SyncRun(installed: seq<Source>, stopped: Option<LocateError>)

  /** `wanted[i]` is the first wanted interface missing from the interface index. */
  predicate FirstMissing(wanted: seq<string>, index: InterfaceIndex, i: int)
  {
    && 0 <= i < |wanted|
    && !Dicts.HasKey(index, wanted[i])
    && forall j :: 0 <= j < i ==> Dicts.HasKey(index, wanted[j])
  }

  /**
   * `synchronize`: the archive of each wanted interface is installed in order; the first
   * interface missing from the interface index raises `KeyError`, after the ones before it
   * have been installed.
   */
  function SyncPlan(wanted: seq<string>, index: InterfaceIndex): (r: SyncRun)
    ensures |r.installed| <= |wanted|
    ensures forall i :: 0 <= i < |r.installed| ==> InstallSource(index, wanted[i]) == Ok(r.installed[i])
    ensures r.stopped.None? ==> |r.installed| == |wanted|
    ensures r.stopped.Some? ==>
      FirstMissing(wanted, index, |r.installed|) && r.stopped.value == KeyError(wanted[|r.installed|])
  {
    if |wanted| == 0 then SyncRun([], None)
    else
      match InstallSource(index, wanted[0])
      case Err(e) => SyncRun([], Some(e))
      case Ok(first) =>
        var rest := SyncPlan(wanted[1..], index);
        assert forall i :: 0 <= i < |rest.installed| ==> wanted[1..][i] == wanted[i + 1];
        SyncRun([first] + rest.installed, rest.stopped)
  }

  /** Synchronising runs to the end exactly when every wanted interface is in the interface index. */
  lemma SyncPlanOkIff(wanted: seq<string>, index: InterfaceIndex)
    ensures SyncPlan(wanted, index).stopped.None? <==> forall i :: 0 <= i < |wanted| ==> Dicts.HasKey(index, wanted[i])
  {
  }

  /** An installed interface's view. */
  datatype View = View(name: string, root: string, page: string)

  /** A view's root: the interface directory joined with the `/`-separated parts of its root. */
  function ViewRoot(fpath: string, root: string): (r: string)
    ensures Text.StartsWith(r, fpath)
  {
    var parts := Text.Split(root, '/');
    assert forall i :: 0 <= i < |parts| ==> !Text.StartsWith(parts[i], "/") by {
      forall i | 0 <= i < |parts|
        ensures !Text.StartsWith(parts[i], "/")
      {
        assert |parts[i]| == 0 || parts[i][0] != '/';
      }
    }
    Text.PathJoinKeepsPrefix(fpath, parts);
    Text.PathJoin(fpath, parts)
  }

  /** `InterfaceView.get_page`. */
  function GetPage(view: View): (r: string)
    ensures !Text.StartsWith(view.page, "/") ==> Text.StartsWith(r, view.root) && Text.EndsWith(r, view.page)
  {
    assert [view.page][1..] == [];
    var r := Text.JoinStep(view.root, view.page);
    assert Text.PathJoin(view.root, [view.page]) == Text.PathJoin(r, []) == r;
    assert !Text.StartsWith(view.page, "/") ==> view.root <= r && r[|r| - |view.page|..] == view.page by {
      if !Text.StartsWith(view.page, "/") {
        var sep := if |view.root| == 0 || view.root[|view.root| - 1] == '/' then "" else "/";
        assert r == view.root + sep + view.page;
      }
    }
    r
  }

  /** `Interface.load`'s views, one per entry of the metadata's `views`, in order. */
  function LoadViews(fpath: string, views: seq<(string, (string, string))>): (r: seq<View>)
    ensures |r| == |views|
    ensures forall i :: 0 <= i < |r| ==> r[i].name == views[i].0 && r[i].page == views[i].1.1
  {
    seq(|views|, i requires 0 <= i < |views| => View(views[i].0, ViewRoot(fpath, views[i].1.0), views[i].1.1))
  }

  /**
   * For a directory and a root made of plain segments, a view's root is the directory, one `/`,
   * and the root as written; its page adds one more `/` and the page name.
   */
  lemma ViewPaths(fpath: string, root: string, page: string)
    requires |fpath| > 0 && fpath[|fpath| - 1] != '/'
    requires forall i :: 0 <= i < |Text.Split(root, '/')| ==> Text.PlainPart(Text.Split(root, '/')[i])
    requires Text.PlainPart(page)
    ensures ViewRoot(fpath, root) == fpath + "/" + root
    ensures GetPage(View("", ViewRoot(fpath, root), page)) == fpath + "/" + root + "/" + page
  {
    var parts := Text.Split(root, '/');
    Text.PathJoinPlain(fpath, parts);
    var r := fpath + "/" + root;
    assert r[|r| - 1] != '/' by {
      assert root == Text.Join(parts, '/');
      LastOfJoin(parts);
    }
    Text.PathJoinPlain(r, [page]);
  }

  /** The last character of a join of plain parts is that of its last part. */
  lemma {:induction false} LastOfJoin(parts: seq<string>)
    requires |parts| > 0
    requires forall i :: 0 <= i < |parts| ==> Text.PlainPart(parts[i])
    ensures var j := Text.Join(parts, '/'); |j| > 0 && j[|j| - 1] != '/'
  {
    if |parts| > 1 {
      LastOfJoin(parts[1..]);
      var rest := Text.Join(parts[1..], '/');
      assert Text.Join(parts, '/') == parts[0] + ['/'] + rest;
    }
  }

  /** `os.path.join` restarts at an absolute part: a page written as `/x` ignores the root. */
  lemma AbsolutePageIgnoresRoot(root: string, page: string)
    requires |page| > 0 && page[0] == '/'
    ensures GetPage(View("", root, page)) == page
  {
    assert Text.StartsWith(page, "/") by {
      assert |"/"| <= |page| && "/"[0] == page[0];
    }
    assert [page][1..] == [];
    assert Text.PathJoin(root, [page]) == Text.PathJoin(Text.JoinStep(root, page), []);
  }
}

=== FILE: jobs.dfy ===
/**
 * The daemons' asynchronous jobs (`AsyncFuture` in both `server/parallel.py` files), modelled
 * sequentially: a future is a record, `run` and `interrupt` are functions from record to record,
 * and the job cache is an insertion-ordered dict from uid to future.
 *
 * The job's own function is not modelled; what it does is the `Outcome` passed to `Run`. A worker
 * thread running the job while another thread interrupts it is modelled by splitting `Run` into
 * `Start` and `Finish` and applying `Interrupt` in between.
 */
module Jobs {
  import opened Wrappers
  import Dicts
  import opened PyValue

  datatype FutureState = Initialized | Running | Done | Error | Interrupted

  /** The integer each state stands for in the source. */
  function Code(s: FutureState): int
  {
    match s
    case Initialized => 0
    case Running => 1
    case Done => 2
    case Error => -1
    case Interrupted => -2
  }

  /** `FutureState.get_msg(code)`: the label of a state code, `None` for any other integer. */
  function GetMsg(code: int): Option<string>
  {
    if code == 0 then Some("Initializing")
    else if code == 1 then Some("In Progress")
    else if code == 2 then Some("Done")
    else if code == -1 then Some("Error")
    else if code == -2 then Some("Interrupted")
    else None
  }

  /** The label of a state: defined for every state, and different states get different labels. */
  function Label(s: FutureState): (l: string)
    ensures GetMsg(Code(s)) == Some(l)
    ensures forall t :: GetMsg(Code(t)) == Some(l) ==> t == s
  {
    GetMsg(Code(s)).value
  }

  datatype Exc =
    | JobInterrupted(message: string)          // raised into the worker by `interrupt`
    | OtherException(kind: string, message: string)

  /** What the job's function did when called. */
  datatype Outcome = Returned(value: Value) | Raised(exc: Exc)

  datatype Future = Future(
    uid: string,
    state: FutureState,
    resultVal: Value,
    resultExc: Option<Exc>,
    extraData: Dicts.Dict<string, Value>,
    cacheExpire: Option<int>)   // seconds; `None` until a worker has finished the job

  type Cache = Dicts.Dict<string, Future>

  datatype JobError = NoSuchJob(uid: string)

  /** Seconds a finished job stays in the cache (`job_cache_hold_time`). */
  const HoldTime: int := 60

  /** A future as `__init__` leaves it. */
  function NewFuture(uid: string): Future
  {
    Future(uid, Initialized, VNone, None, [], None)
  }

  /** `AsyncFuture(...)`: a fresh future under `uid`, registered in the job cache. */
  function Create(cache: Cache, uid: string): (r: (Cache, Future))
    ensures r.1.uid == uid && r.1.state == Initialized && r.1.resultExc == None && r.1.cacheExpire == None
    ensures Dicts.Get(r.0, uid) == Some(r.1)
    ensures forall other :: other != uid ==> Dicts.Get(r.0, other) == Dicts.Get(cache, other)
  {
    var f := NewFuture(uid);
    var c := Dicts.Put(cache, uid, f);
    Dicts.GetPut(cache, uid, f, uid);
    assert forall other :: other != uid ==> Dicts.Get(c, other) == Dicts.Get(cache, other) by {
      forall other | other != uid ensures Dicts.Get(c, other) == Dicts.Get(cache, other) {
        Dicts.GetPut(cache, uid, f, other);
      }
    }
    (c, f)
  }

  /** `get_future(uid)`. */
  function GetFuture(cache: Cache, uid: string): (r: Result<Future, JobError>)
    ensures r.Err? <==> !Dicts.HasKey(cache, uid)
    ensures r.Err? ==> r.error == NoSuchJob(uid)
    ensures r.Ok? ==> exists i :: 0 <= i < |cache| && cache[i] == (uid, r.value)
  {
    match Dicts.Get(cache, uid)
    case None => Err(NoSuchJob(uid))
    case Some(f) => Ok(f)
  }

  /** A created future can be fetched back by its uid, and then starts out initialised. */
  lemma CreateThenGet(cache: Cache, uid: string, other: string)
    ensures var (c, f) := Create(cache, uid);
      && GetFuture(c, uid) == Ok(f)
      && f.state == Initialized
      && (other != uid ==> GetFuture(c, other) == GetFuture(cache, other))
  {
  }

  // ---------------------------------------------------------------------------------------
  // `run` and `interrupt`

  /** The first half of `run`: the transition to RUNNING before the function is called. */
  function Start(f: Future): Future
  {
    f.(state := Running)
  }

  /** The second half of `run`: record what the function did. */
  function Finish(f: Future, o: Outcome): (g: Future)
    ensures g.uid == f.uid && g.extraData == f.extraData && g.cacheExpire == f.cacheExpire
    ensures o.Returned? ==> g.state == Done && g.resultVal == o.value && g.resultExc == f.resultExc
    ensures o.Raised? ==> g.resultExc == Some(o.exc) && g.resultVal == f.resultVal
    ensures o.Raised? && o.exc.JobInterrupted? ==> g.state == f.state
    ensures o.Raised? && o.exc.OtherException? ==> g.state == Error
  {
    match o
    case Returned(v) => f.(resultVal := v, state := Done)
    case Raised(e) =>
      if e.JobInterrupted? then f.(resultExc := Some(e))
      else f.(state := Error, resultExc := Some(e))
  }

  /** `run(thread)`: nothing unless the future is still initialised. */
  function Run(f: Future, o: Outcome): (g: Future)
    ensures f.state != Initialized ==> g == f
    ensures f.state == Initialized ==> g == Finish(Start(f), o)
  {
    if f.state != Initialized then f else Finish(Start(f), o)
  }

  /** `interrupt()`: a future that has not finished becomes INTERRUPTED; any other is left alone. */
  function Interrupt(f: Future): (g: Future)
    ensures g.uid == f.uid && g.resultVal == f.resultVal && g.resultExc == f.resultExc
    ensures g.extraData == f.extraData && g.cacheExpire == f.cacheExpire
    ensures (f.state == Running || f.state == Initialized) ==> g.state == Interrupted
    ensures !(f.state == Running || f.state == Initialized) ==> g == f
  {
    if f.state == Running || f.state == Initialized then f.(state := Interrupted) else f
  }

  /** The transitions the comment in `__init__` documents. */
  predicate Documented(from: FutureState, to: FutureState)
  {
    || (from == Initialized && (to == Running || to == Interrupted))
    || (from == Running && (to == Done || to == Error || to == Interrupted))
  }

  /**
   * Run with no interruption: the state moves along documented transitions only, ending DONE
   * on a return, ERROR on an ordinary exception, and staying RUNNING on a `JobInterrupted`
   * that no `interrupt` call produced.
   */
  lemma RunFollowsDiagram(f: Future, o: Outcome)
    requires f.state == Initialized
    ensures Documented(f.state, Start(f).state)
    ensures var g := Run(f, o);
      && (g.state == Running || Documented(Running, g.state))
      && (o.Returned? ==> g.state == Done && g.resultVal == o.value)
      && (o.Raised? && o.exc.OtherException? ==> g.state == Error && g.resultExc == Some(o.exc))
      && (o.Raised? && o.exc.JobInterrupted? ==> g.state == Running && g.resultExc == Some(o.exc))
  {
  }

  /** A future runs at most once: running it again changes nothing. */
  lemma RunOnce(f: Future, o1: Outcome, o2: Outcome)
    ensures Run(Run(f, o1), o2) == Run(f, o1)
  {
  }

  /** A future interrupted before a worker picks it up is never run. */
  lemma InterruptedBeforeStartNeverRuns(f: Future, o: Outcome)
    requires f.state == Initialized
    ensures Run(Interrupt(f), o) == Interrupt(f)
    ensures Run(Interrupt(f), o).state == Interrupted
  {
  }

  /** Interrupting twice is interrupting once. */
  lemma InterruptIdempotent(f: Future)
    ensures Interrupt(Interrupt(f)) == Interrupt(f)
  {
  }

  /** DONE, ERROR and INTERRUPTED are final for both operations. */
  lemma FinalStatesStay(f: Future, o: Outcome)
    requires f.state == Done || f.state == Error || f.state == Interrupted
    ensures Run(f, o) == f && Interrupt(f) == f
  {
  }

  /**
   * An interrupt that lands while the job runs, followed by the `JobInterrupted` it raises in the
   * worker, leaves the job INTERRUPTED with the exception recorded.
   */
  lemma InterruptDuringRun(f: Future, msg: string)
    requires f.state == Initialized
    ensures var g := Finish(Interrupt(Start(f)), Raised(JobInterrupted(msg)));
      g.state == Interrupted && g.resultExc == Some(JobInterrupted(msg))
  {
  }

  /**
   * When the function returns before the asynchronously raised `JobInterrupted` reaches it, the
   * final transition to DONE overwrites INTERRUPTED: a change the documented diagram does not have.
   */
  lemma LateReturnOverridesInterrupt(f: Future, v: Value)
    requires f.state == Initialized
    ensures Finish(Interrupt(Start(f)), Returned(v)).state == Done
    ensures !Documented(Interrupted, Done)
  {
  }

  // ---------------------------------------------------------------------------------------
  // `to_dict`

  /** The values `to_dict` puts in its dict. */
  datatype Field =
    | FText(text: string)
    | FData(data: Dicts.Dict<string, Value>)
    | FExc(exc: Exc)
    | FValue(value: Value)

  /** `to_dict()`. An exception object is always truthy, so `error` appears whenever one is recorded. */
  function ToDict(f: Future): (d: Dicts.Dict<string, Field>)
    ensures 3 <= |d| <= 5
    ensures d[..3] == [("uid", FText(f.uid)), ("status", FText(Label(f.state))), ("data", FData(f.extraData))]
  {
    var base := [("uid", FText(f.uid)), ("status", FText(Label(f.state))), ("data", FData(f.extraData))];
    var withError := if f.resultExc.Some? then base + [("error", FExc(f.resultExc.value))] else base;
    if Truthy(f.resultVal) then withError + [("result", FValue(f.resultVal))] else withError
  }

  /** Lookup in a dict made of a fixed head and optional extra entries. */
  lemma GetAfterHead(head: Dicts.Dict<string, Field>, tail: Dicts.Dict<string, Field>, k: string)
    requires !Dicts.HasKey(head, k)
    ensures Dicts.Get(head + tail, k) == Dicts.Get(tail, k)
  {
    Dicts.GetAppendRight(head, tail, k);
  }

  /**
   * `to_dict` always has the uid, the status label and the extra data; it has `error` exactly
   * when an exception was recorded and `result` exactly when the result value is truthy.
   */
  lemma ToDictFields(f: Future)
    ensures var d := ToDict(f);
      && Dicts.Get(d, "uid") == Some(FText(f.uid))
      && Dicts.Get(d, "status") == Some(FText(Label(f.state)))
      && Dicts.Get(d, "data") == Some(FData(f.extraData))
      && Dicts.Get(d, "error") == (if f.resultExc.Some? then Some(FExc(f.resultExc.value)) else None)
      && Dicts.Get(d, "result") == (if Truthy(f.resultVal) then Some(FValue(f.resultVal)) else None)
  {
    ToDictHead(f);
    ToDictTail(f);
  }

  lemma ToDictHead(f: Future)
    ensures var d := ToDict(f);
      && Dicts.Get(d, "uid") == Some(FText(f.uid))
      && Dicts.Get(d, "status") == Some(FText(Label(f.state)))
      && Dicts.Get(d, "data") == Some(FData(f.extraData))
  {
    var d := ToDict(f);
    assert "uid" != "status" && "uid" != "data" && "status" != "data";
    assert d[0] == ("uid", FText(f.uid));
    assert Dicts.Get(d, "status") == Some(FText(Label(f.state))) by {
      assert d == d[..1] + d[1..];
      assert !Dicts.HasKey(d[..1], "status");
      GetAfterHead(d[..1], d[1..], "status");
    }
    assert Dicts.Get(d, "data") == Some(FData(f.extraData)) by {
      assert d == d[..2] + d[2..];
      assert !Dicts.HasKey(d[..2], "data");
      GetAfterHead(d[..2], d[2..], "data");
    }
  }

  lemma ToDictTail(f: Future)
    ensures var d := ToDict(f);
      && Dicts.Get(d, "error") == (if f.resultExc.Some? then Some(FExc(f.resultExc.value)) else None)
      && Dicts.Get(d, "result") == (if Truthy(f.resultVal) then Some(FValue(f.resultVal)) else None)
  {
    var d := ToDict(f);
    var head := d[..3];
    var tail := d[3..];
    assert d == head + tail;
    assert !Dicts.HasKey(head, "error") && !Dicts.HasKey(head, "result") by {
      assert "error" != "uid" && "error" != "status" && "error" != "data";
      assert "result" != "uid" && "result" != "status" && "result" != "data";
    }
    GetAfterHead(head, tail, "error");
    GetAfterHead(head, tail, "result");
    assert "error" != "result";
    if f.resultExc.Some? && Truthy(f.resultVal) {
      assert tail == [("error", FExc(f.resultExc.value)), ("result", FValue(f.resultVal))];
    } else if f.resultExc.Some? {
      assert tail == [("error", FExc(f.resultExc.value))];
    } else if Truthy(f.resultVal) {
      assert tail == [("result", FValue(f.resultVal))];
    } else {
      assert tail == [];
    }
  }

  /** A job that raised an ordinary exception reports status "Error", the exception and no result. */
  lemma FailedJobReport(uid: string, e: Exc)
    requires e.OtherException?
    ensures var d := ToDict(Run(NewFuture(uid), Raised(e)));
      && Dicts.Get(d, "status") == Some(FText("Error"))
      && Dicts.Get(d, "error") == Some(FExc(e))
      && Dicts.Get(d, "result") == None
  {
    ToDictFields(Run(NewFuture(uid), Raised(e)));
  }

  /** A job that returned a falsy value, such as `0` or `{}`, reports no `result` key at all. */
  lemma FalsyResultOmitted(uid: string)
    ensures var d := ToDict(Run(NewFuture(uid), Returned(VInt(0))));
      && Dicts.Get(d, "status") == Some(FText("Done"))
      && Dicts.Get(d, "result") == None && Dicts.Get(d, "error") == None
  {
    ToDictFields(Run(NewFuture(uid), Returned(VInt(0))));
  }

  // ---------------------------------------------------------------------------------------
  // The worker loop and the janitor (the first daemon only)

  /**
   * One pass of the worker loop over job `f` at time `now`: run it, decide whether the database
   * session commits, and set the time the job leaves the cache.
   */
  function WorkerProcess(f: Future, o: Outcome, now: int): (r: (Future, bool))
    ensures r.1 <==> r.0.state == Done
    ensures r.0.cacheExpire == Some(now + HoldTime)
    ensures r.0 == Run(f, o).(cacheExpire := Some(now + HoldTime))
  {
    var g := Run(f, o);
    (g.(cacheExpire := Some(now + HoldTime)), g.state == Done)
  }

  /** The database session commits exactly for a job whose function returned. */
  lemma CommitOnlyWhenDone(uid: string, o: Outcome, now: int)
    ensures WorkerProcess(NewFuture(uid), o, now).1 <==> o.Returned?
  {
  }

  predicate Expired(f: Future, now: int)
  {
    f.cacheExpire.Some? && f.cacheExpire.value < now
  }

  /** `uid` is the key of an entry that has expired at `now`. */
  predicate ExpiredEntry(cache: Cache, uid: string, now: int)
  {
    exists i :: 0 <= i < |cache| && cache[i].0 == uid && Expired(cache[i].1, now)
  }

  /** The first loop of the janitor: the uids of expired entries, in cache order. */
  function PurgeIds(cache: Cache, now: int): (ids: seq<string>)
    ensures forall uid :: uid in ids <==> ExpiredEntry(cache, uid, now)
  {
    if |cache| == 0 then []
    else
      var rest := PurgeIds(cache[1..], now);
      var ids := (if Expired(cache[0].1, now) then [cache[0].0] else []) + rest;
      assert forall uid :: ExpiredEntry(cache, uid, now) <==>
        (cache[0].0 == uid && Expired(cache[0].1, now)) || ExpiredEntry(cache[1..], uid, now) by {
        forall uid | ExpiredEntry(cache, uid, now)
          ensures (cache[0].0 == uid && Expired(cache[0].1, now)) || ExpiredEntry(cache[1..], uid, now)
        {
          var i :| 0 <= i < |cache| && cache[i].0 == uid && Expired(cache[i].1, now);
          if i > 0 { assert cache[1..][i - 1] == cache[i]; }
        }
        forall uid | ExpiredEntry(cache[1..], uid, now) ensures ExpiredEntry(cache, uid, now) {
          var i :| 0 <= i < |cache[1..]| && cache[1..][i].0 == uid && Expired(cache[1..][i].1, now);
          assert cache[i + 1] == cache[1..][i];
        }
      }
      ids
  }

  /** The second loop of the janitor: `job_cache.pop(uid)` for each collected uid. */
  function PopAll(cache: Cache, ids: seq<string>): Cache
    decreases |ids|
  {
    if |ids| == 0 then cache else PopAll(Dicts.Remove(cache, ids[0]), ids[1..])
  }

  /** One janitor pass at time `now`. */
  function Janitor(cache: Cache, now: int): Cache
  {
    PopAll(cache, PurgeIds(cache, now))
  }

  /** After popping, a popped uid is gone and every other uid reads as before. */
  lemma {:induction false} PopAllGet(cache: Cache, ids: seq<string>, k: string)
    ensures Dicts.Get(PopAll(cache, ids), k) == if k in ids then None else Dicts.Get(cache, k)
    decreases |ids|
  {
    if |ids| > 0 {
      var c := Dicts.Remove(cache, ids[0]);
      PopAllGet(c, ids[1..], k);
      if k == ids[0] {
        if k !in ids[1..] {
          assert !Dicts.HasKey(c, k);
        }
      } else {
        Dicts.GetRemove(cache, ids[0], k);
      }
    }
  }

  /** The janitor removes exactly the jobs whose expiry time is set and already past. */
  lemma JanitorRemovesExactlyExpired(cache: Cache, now: int, uid: string)
    requires Dicts.DistinctKeys(cache)
    ensures Dicts.Get(Janitor(cache, now), uid) ==
      (match Dicts.Get(cache, uid)
       case Some(f) => if Expired(f, now) then None else Some(f)
       case None => None)
  {
    PopAllGet(cache, PurgeIds(cache, now), uid);
    if Dicts.HasKey(cache, uid) {
      var i := Dicts.KeyIndex(cache, uid);
      Dicts.GetDistinct(cache, i);
      if uid in PurgeIds(cache, now) {
        var j :| 0 <= j < |cache| && cache[j].0 == uid && Expired(cache[j].1, now);
        assert i == j;
      }
    }
  }

  /**
   * A job the worker finished at time `now` survives every janitor pass up to `now + 60` and is
   * removed by the first pass after that.
   */
  lemma FinishedJobLifetime(f: Future, o: Outcome, now: int, t: int)
    ensures var g := WorkerProcess(f, o, now).0;
      Expired(g, t) <==> t > now + HoldTime
  {
  }
}

=== FILE: package_repo.dfy ===
/**
 * The daemons' package repository index (`package/repo.py` in both daemons): a downloaded text of
 * `name|url|hash` lines, loaded into a global dict the first time it is needed, then searched by
 * name and looked up for installation.
 *
 * The download is a parameter: the text it returned, or `None` when it raised.
 */
module PackageRepo {
  import opened Wrappers
  import Text
  import Dicts
  import opened IndexRows

  /** Package name to `(url, hash)`. */
  type Index = Dicts.Dict<string, (string, string)>

  datatype RepoError =
    | RepositoryError(message: string)      // the download failed
    | RowError(fields: nat)                 // a line did not unpack into three fields
    | PackageInstallError(message: string)  // the looked-up name is not in the index

  /** `_pull_index` on the lines of the index: every line assigns its name, in order. */
  function BuildLines(lines: seq<string>): (b: Built<Index>)
    ensures Dicts.DistinctKeys(b.index)
  {
    var p := ParseLines(lines, false, 3);
    Dicts.FromPairsDistinct(Triples(p.records));
    Built(Dicts.FromPairs(Triples(p.records)), p.badFields)
  }

  function Build(text: string): Built<Index>
  {
    BuildLines(FetchedLines(text))
  }

  /** `_get_index`: the global is set to `{}` before the download. */
  function GetIndex(state: Option<Index>, url: string, fetched: Option<string>): (r: (Option<Index>, Result<Index, RepoError>))
    ensures state.Some? ==> r == (state, Ok(state.value))
    ensures state.None? && fetched.None? ==>
      r == (Some([]), Err(RepositoryError("Could not sync repository from " + url)))
  {
    var (s, res) := Lazy(state, fetched, Build, [], true);
    (s, match res
        case Ok(index) => Ok(index)
        case Err(FetchFailed) => Err(RepositoryError("Could not sync repository from " + url))
        case Err(UnpackError(n)) => Err(RowError(n)))
  }

  /** The names that contain `query`, ignoring ASCII case, in index order. */
  function Matching(names: seq<string>, query: string): (r: seq<string>)
    ensures |r| <= |names|
  {
    if |names| == 0 then []
    else
      (if Text.Contains(Text.Lower(names[0]), Text.Lower(query)) then [names[0]] else [])
      + Matching(names[1..], query)
  }

  /** `search_package(query)`: the `packages` list of the reply. */
  function SearchPackage(state: Option<Index>, url: string, fetched: Option<string>, query: string)
    : (r: (Option<Index>, Result<seq<string>, RepoError>))
    ensures r.0 == GetIndex(state, url, fetched).0
    ensures r.1.Ok? <==> GetIndex(state, url, fetched).1.Ok?
  {
    var (s, res) := GetIndex(state, url, fetched);
    (s, match res
        case Ok(index) => Ok(Matching(Dicts.Keys(index), query))
        case Err(e) => Err(e))
  }

  /** A name is found exactly when it is in the index and contains the query, ignoring case. */
  lemma {:induction false} MatchingIff(names: seq<string>, query: string, x: string)
    ensures x in Matching(names, query) <==> x in names && Text.Contains(Text.Lower(x), Text.Lower(query))
  {
    if |names| > 0 {
      MatchingIff(names[1..], query, x);
      assert names == [names[0]] + names[1..];
    }
  }

  /** Every string contains the empty string, so an empty query lists the whole index. */
  lemma {:induction false} EmptyQueryMatchesAll(names: seq<string>)
    ensures Matching(names, "") == names
  {
    if |names| > 0 {
      EmptyQueryMatchesAll(names[1..]);
      assert Text.Lower("") == "";
      assert Text.Contains(Text.Lower(names[0]), "");
      assert names == [names[0]] + names[1..];
    }
  }

  /** `index_lookup(name)`. */
  function IndexLookup(state: Option<Index>, url: string, fetched: Option<string>, name: string)
    : (r: (Option<Index>, Result<(string, string), RepoError>))
    ensures r.0 == GetIndex(state, url, fetched).0
    ensures GetIndex(state, url, fetched).1.Ok? ==>
      match Dicts.Get(GetIndex(state, url, fetched).1.value, name)
      case Some(entry) => r.1 == Ok(entry)
      case None => r.1 == Err(PackageInstallError("Could not find package " + name))
  {
    var (s, res) := GetIndex(state, url, fetched);
    (s, match res
        case Ok(index) =>
          (match Dicts.Get(index, name)
           case Some(entry) => Ok(entry)
           case None => Err(PackageInstallError("Could not find package " + name)))
        case Err(e) => Err(e))
  }

  /**
   * Every line reads back as the record it was written from, and of two lines for the same name
   * the later one wins.
   */
  lemma LaterLineOverrides(name: string, url1: string, hash1: string, url2: string, hash2: string)
    requires '|' !in name && '|' !in url1 && '|' !in hash1 && '|' !in url2 && '|' !in hash2
    ensures var b := BuildLines([Line([name, url1, hash1]), Line([name, url2, hash2])]);
      b.badFields.None? && Dicts.Get(b.index, name) == Some((url2, hash2))
  {
    ParseTwoRecords(name, url1, hash1, url2, hash2);
    var pairs := Triples([[name, url1, hash1], [name, url2, hash2]]);
    assert pairs == [(name, (url1, hash1)), (name, (url2, hash2))];
    Dicts.FromPairsGet(pairs, name);
    assert Dicts.LastValue(pairs, name) == Some((url2, hash2));
  }

  lemma ParseTwoRecords(name: string, url1: string, hash1: string, url2: string, hash2: string)
    requires '|' !in name && '|' !in url1 && '|' !in hash1 && '|' !in url2 && '|' !in hash2
    ensures ParseLines([Line([name, url1, hash1]), Line([name, url2, hash2])], false, 3) ==
      Parsed([[name, url1, hash1], [name, url2, hash2]], None)
  {
    var first, second := [name, url1, hash1], [name, url2, hash2];
    forall i | 0 <= i < 3
      ensures '|' !in first[i] && '|' !in second[i]
    {
      if i == 0 {
        assert first[i] == name && second[i] == name;
      } else if i == 1 {
        assert first[i] == url1 && second[i] == url2;
      } else {
        assert first[i] == hash1 && second[i] == hash2;
      }
    }
    ParseTwoLines(first, second);
  }

  lemma ParseTwoLines(first: seq<string>, second: seq<string>)
    requires |first| == 3 && |second| == 3
    requires forall i :: 0 <= i < 3 ==> '|' !in first[i] && '|' !in second[i]
    ensures ParseLines([Line(first), Line(second)], false, 3) == Parsed([first, second], None)
  {
    FieldsOfLine(first);
    FieldsOfLine(second);
    var lines := [Line(first), Line(second)];
    assert lines[1..] == [Line(second)];
    assert lines[1..][1..] == [];
    assert ParseLines([Line(second)], false, 3) == Parsed([second], None);
  }

  /** With every line well-formed, a lookup finds the last line naming the package. */
  lemma LookupFindsLastLine(url: string, text: string, name: string)
    requires Build(text).badFields.None?
    ensures var p := ParseLines(FetchedLines(text), false, 3);
      IndexLookup(None, url, Some(text), name).1 ==
        match Dicts.LastValue(Triples(p.records), name)
        case Some(entry) => Ok(entry)
        case None => Err(PackageInstallError("Could not find package " + name))
  {
    var p := ParseLines(FetchedLines(text), false, 3);
    Dicts.FromPairsGet(Triples(p.records), name);
  }

  /**
   * A failed download is not retried: the global already holds `{}`, so every later lookup
   * reports the package as missing, whatever the repository would now return.
   */
  lemma FailedPullNotRetried(url: string, later: Option<string>, name: string)
    ensures var (s, r) := GetIndex(None, url, None);
      && r.Err?
      && IndexLookup(s, url, later, name) == (s, Err(PackageInstallError("Could not find package " + name)))
  {
  }

  /** Once loaded, the index is not fetched again: the download's result plays no part. */
  lemma LookupIgnoresLaterFetch(index: Index, url: string, fetched: Option<string>, other: Option<string>, name: string)
    ensures IndexLookup(Some(index), url, fetched, name) == IndexLookup(Some(index), url, other, name)
  {
  }
}

=== FILE: pyint.dfy ===
/**
 * Python's conversions between `int` and decimal text: `int(s)` on a string and `str(n)`.
 * `int(s)` accepts surrounding whitespace, one optional sign, and digits in which single
 * underscores may separate digits (`"1_000"`). Only ASCII digits and ASCII whitespace are
 * modelled: Python also accepts other Unicode decimal digits and whitespace, which this model
 * reads as `None`, the way it models `ValueError`.
 */
module PyInt {
  import opened Wrappers
  import Text

  predicate IsDigit(c: char)
  {
    '0' <= c <= '9'
  }

  predicate AllDigits(s: string)
  {
    forall i :: 0 <= i < |s| ==> IsDigit(s[i])
  }

  function DigitValue(c: char): nat
    requires IsDigit(c)
  {
    c as int - '0' as int
  }

  function DigitChar(d: nat): (c: char)
    requires d < 10
    ensures IsDigit(c) && DigitValue(c) == d
  {
    ('0' as int + d) as char
  }

  /** The number a string of decimal digits denotes, most significant digit first. */
  function DigitsValue(s: string): nat
    requires AllDigits(s)
  {
    if |s| == 0 then 0 else DigitsValue(s[..|s| - 1]) * 10 + DigitValue(s[|s| - 1])
  }

  /** Python's `str(n)` for a natural number: shortest decimal digits, no leading zero. */
  function NatToDigits(n: nat): (s: string)
    ensures |s| >= 1 && AllDigits(s)
    ensures |s| > 1 ==> s[0] != '0'
  {
    if n < 10 then [DigitChar(n)] else NatToDigits(n / 10) + [DigitChar(n % 10)]
  }

  /** Reading back the digits of `n` gives `n`. */
  lemma {:induction false} DigitsRoundTrip(n: nat)
    ensures DigitsValue(NatToDigits(n)) == n
  {
    if n >= 10 {
      var s := NatToDigits(n);
      assert s[..|s| - 1] == NatToDigits(n / 10);
      DigitsRoundTrip(n / 10);
    }
  }

  /** Python's `str(i)` for any integer. */
  function Render(i: int): string
  {
    if i < 0 then "-" + NatToDigits(-i) else NatToDigits(i)
  }

  /** Digits in which single underscores may stand between two digits. */
  predicate DigitBody(s: string)
  {
    && |s| > 0
    && IsDigit(s[0]) && IsDigit(s[|s| - 1])
    && (forall i :: 0 <= i < |s| ==> IsDigit(s[i]) || s[i] == '_')
    && (forall i :: 0 <= i < |s| - 1 ==> s[i] == '_' ==> s[i + 1] != '_')
  }

  /** The digits of `s` with every underscore dropped. */
  function DropUnderscores(s: string): (r: string)
    requires forall i :: 0 <= i < |s| ==> IsDigit(s[i]) || s[i] == '_'
    ensures AllDigits(r) && |r| <= |s|
    ensures AllDigits(s) ==> r == s
  {
    if |s| == 0 then ""
    else if s[0] == '_' then DropUnderscores(s[1..])
    else [s[0]] + DropUnderscores(s[1..])
  }

  /** Python's `int(s)` on a string: `Some(value)`, or `None` where Python raises `ValueError`. */
  function Parse(s: string): (r: Option<int>)
    ensures Text.Strip(s) == "" ==> r == None
    ensures |s| > 0 && AllDigits(s) ==> r == Some(DigitsValue(s))
  {
    var t := Text.Strip(s);
    if |s| > 0 && AllDigits(s) then
      Text.StripNoSpace(s);
      assert t == s;
      Some(DigitsValue(s))
    else if |t| == 0 then None
    else
      var negative := t[0] == '-';
      var body := if t[0] == '-' || t[0] == '+' then t[1..] else t;
      if !DigitBody(body) then None
      else
        var v: int := DigitsValue(DropUnderscores(body));
        Some(if negative then -v else v)
  }

  /** Text that starts with a letter is not an integer. */
  lemma ParseLetterStart(s: string)
    requires |s| > 0 && ('a' <= s[0] <= 'z' || 'A' <= s[0] <= 'Z')
    requires !Text.IsSpace(s[|s| - 1])
    ensures Parse(s) == None
  {
    Text.StripNoSpace(s);
    assert !IsDigit(s[0]);
  }

  /** `int(str(i)) == i` for every integer. */
  lemma ParseRender(i: int)
    ensures Parse(Render(i)) == Some(i)
  {
    var s := Render(i);
    var n: nat := if i < 0 then -i else i;
    var digits := NatToDigits(n);
    DigitsRoundTrip(n);
    Text.StripNoSpace(s);
    if i < 0 {
      assert s[1..] == digits;
      assert !AllDigits(s) by { assert !IsDigit(s[0]); }
    }
  }
}

=== FILE: pyvalue.dfy ===
/**
 * The dynamically typed values the modelled code passes around: parsed JSON, YAML
 * configuration, command-line parameters. A dict is an insertion-ordered list of entries
 * (see `Dicts`); its keys are strings or integers.
 */
module PyValue {
  import Dicts

  datatype Key = KStr(s: string) | KInt(i: int)

  datatype Value =
    | VNone
    | VBool(b: bool)
    | VInt(i: int)
    | VFloat(text: string)   // a float, kept as text Python's `float()` accepts
    | VStr(s: string)
    | VList(items: seq<Value>)
    | VDict(entries: Dicts.Dict<Key, Value>)

  /** Python truthiness: `None`, `False`, `0`, `0.0` in any spelling, `""`, `[]` and `{}` are false. */
  predicate Truthy(v: Value)
  {
    match v
    case VNone => false
    case VBool(b) => b
    case VInt(i) => i != 0
    case VFloat(t) => !ZeroFloatText(t)
    case VStr(s) => s != ""
    case VList(items) => items != []
    case VDict(entries) => entries != []
  }

  /**
   * Float text whose value is zero: its mantissa, the part before any exponent, has no digit
   * but `0` (`"0.00"`, `"-0e5"`, `" .0 "`). `inf` and `nan` have letters and are not zero.
   */
  predicate ZeroFloatText(t: string)
    decreases |t|
  {
    |t| == 0 || t[0] == 'e' || t[0] == 'E' || (ZeroMantissaChar(t[0]) && ZeroFloatText(t[1..]))
  }

  /** A character a zero mantissa may hold: surrounding space, a sign, the point, `_`, or `0`. */
  predicate ZeroMantissaChar(c: char)
  {
    c == ' ' || c == '\t' || c == '\n' || c == '\r' || c == '+' || c == '-' || c == '.' || c == '_' || c == '0'
  }

  /** Spellings of zero are false whatever their form; any other digit in the mantissa is true. */
  lemma FloatZeroSpellings()
    ensures !Truthy(VFloat("0.00")) && !Truthy(VFloat("0e0")) && !Truthy(VFloat("-0.0"))
    ensures Truthy(VFloat("0.5")) && Truthy(VFloat("1e0"))
  {
  }

  /** A dict with string keys, written as key/value pairs. */
  function StrDict(pairs: seq<(string, Value)>): (d: Value)
    ensures d.VDict? && |d.entries| == |pairs|
  {
    VDict(seq(|pairs|, i requires 0 <= i < |pairs| => (KStr(pairs[i].0), pairs[i].1)))
  }
}

=== FILE: qt_xml.dfy ===
/**
 * The attribute handling of the interface's XML widget loader (`qt_util/qt_xml.py`): the
 * positional constructor arguments `arg0, arg1, …`, the split of the remaining attributes into
 * placement properties, setter calls and constructor keywords, and the reading of a setter's
 * attribute text into call arguments.
 *
 * An element's attributes are a dict from name to text in document order. Widget construction,
 * Qt's constant table, `eval` and float parsing are not modelled; float parsing is a parameter.
 */
module QtXml {
  import opened Wrappers
  import Text
  import Dicts
  import PyInt

  type Attrib = Dicts.Dict<string, string>

  const ArgPrefix: string := "arg"

  /** The name of the `i`-th positional argument: `'arg' + str(i)`. */
  function ArgKey(i: nat): string
  {
    ArgPrefix + PyInt.Render(i)
  }

  /** Different indices name different attributes. */
  lemma ArgKeyInjective(i: nat, j: nat)
    ensures ArgKey(i) == ArgKey(j) <==> i == j
  {
    assert ArgKey(i)[3..] == PyInt.Render(i);
    assert ArgKey(j)[3..] == PyInt.Render(j);
    PyInt.ParseRender(i);
    PyInt.ParseRender(j);
  }

  lemma {:induction false} RemoveShrinks(d: Attrib, k: string)
    requires Dicts.HasKey(d, k)
    ensures |Dicts.Remove(d, k)| < |d|
    decreases |d|
  {
    if d[0].0 != k {
      assert Dicts.HasKey(d[1..], k) by {
        var i :| 0 <= i < |d| && d[i].0 == k;
        assert d[1..][i - 1].0 == k;
      }
      RemoveShrinks(d[1..], k);
    }
  }

  /** `key` gives different indices different names. */
  ghost predicate Injective(key: nat -> string)
  {
    forall i, j :: key(i) == key(j) ==> i == j
  }

  lemma ArgKeysInjective()
    ensures Injective(ArgKey)
  {
    forall i: nat, j: nat | ArgKey(i) == ArgKey(j)
      ensures i == j
    {
      ArgKeyInjective(i, j);
    }
  }

  /** Some index in `[from, from + n)` is named `k`. */
  predicate Collected(key: nat -> string, k: string, from: nat, n: nat)
  {
    exists j: nat :: from <= j < from + n && k == key(j)
  }

  /**
   * The loop of `_get_positional` from index `from` on, index `i` being named `key(i)`: the
   * values of `key(from)`, `key(from + 1)`, … up to the first missing name, and the attributes
   * with those entries popped.
   */
  function Collect(attrib: Attrib, from: nat, key: nat -> string): (seq<string>, Attrib)
    decreases |attrib|
  {
    match Dicts.Get(attrib, key(from))
    case None => ([], attrib)
    case Some(v) =>
      RemoveShrinks(attrib, key(from));
      var sub := Collect(Dicts.Remove(attrib, key(from)), from + 1, key);
      ([v] + sub.0, sub.1)
  }

  /**
   * The loop collects the values of `key(from)`, `key(from + 1)`, … in order, stops at the first
   * name that is absent, and leaves every other attribute as it was.
   */
  lemma {:induction false} CollectSpec(attrib: Attrib, from: nat, key: nat -> string)
    requires Injective(key)
    ensures var r := Collect(attrib, from, key);
      forall j :: 0 <= j < |r.0| ==> Dicts.Get(attrib, key(from + j)) == Some(r.0[j])
    ensures var r := Collect(attrib, from, key);
      !Dicts.HasKey(attrib, key(from + |r.0|))
    ensures var r := Collect(attrib, from, key);
      forall k :: Dicts.Get(r.1, k) == if Collected(key, k, from, |r.0|) then None else Dicts.Get(attrib, k)
    decreases |attrib|
  {
    match Dicts.Get(attrib, key(from))
    case None =>
      NothingCollected(key, from);
      assert key(from + 0) == key(from);
    case Some(v) =>
      RemoveShrinks(attrib, key(from));
      var sub := Collect(Dicts.Remove(attrib, key(from)), from + 1, key);
      CollectSpec(Dicts.Remove(attrib, key(from)), from + 1, key);
      CollectStep(attrib, from, key, v, sub.0, sub.1);
  }

  lemma NothingCollected(key: nat -> string, from: nat)
    ensures forall k :: !Collected(key, k, from, 0)
  {
  }

  /** One step of the loop: what the recursive call says about the popped dict, for the whole one. */
  lemma CollectStep(attrib: Attrib, from: nat, key: nat -> string, v: string, vs: seq<string>, rest: Attrib)
    requires Injective(key)
    requires Dicts.Get(attrib, key(from)) == Some(v)
    requires forall j :: 0 <= j < |vs| ==> Dicts.Get(Dicts.Remove(attrib, key(from)), key(from + 1 + j)) == Some(vs[j])
    requires !Dicts.HasKey(Dicts.Remove(attrib, key(from)), key(from + 1 + |vs|))
    requires forall k ::
      Dicts.Get(rest, k) == if Collected(key, k, from + 1, |vs|) then None else Dicts.Get(Dicts.Remove(attrib, key(from)), k)
    ensures forall j :: 0 <= j < |[v] + vs| ==> Dicts.Get(attrib, key(from + j)) == Some(([v] + vs)[j])
    ensures !Dicts.HasKey(attrib, key(from + |[v] + vs|))
    ensures forall k :: Dicts.Get(rest, k) == if Collected(key, k, from, |[v] + vs|) then None else Dicts.Get(attrib, k)
  {
    CollectStepValues(attrib, from, key, v, vs);
    CollectStepLast(attrib, from, key, |vs|);
    CollectStepRest(attrib, from, key, |vs|, rest);
    assert |[v] + vs| == |vs| + 1;
  }

  lemma CollectStepLast(attrib: Attrib, from: nat, key: nat -> string, n: nat)
    requires Injective(key)
    requires !Dicts.HasKey(Dicts.Remove(attrib, key(from)), key(from + 1 + n))
    ensures !Dicts.HasKey(attrib, key(from + (n + 1)))
  {
    assert key(from + 1 + n) == key(from + (n + 1));
    Dicts.GetRemove(attrib, key(from), key(from + 1 + n));
  }

  lemma CollectStepRest(attrib: Attrib, from: nat, key: nat -> string, n: nat, rest: Attrib)
    requires Injective(key)
    requires forall k ::
      Dicts.Get(rest, k) == if Collected(key, k, from + 1, n) then None else Dicts.Get(Dicts.Remove(attrib, key(from)), k)
    ensures forall k :: Dicts.Get(rest, k) == if Collected(key, k, from, n + 1) then None else Dicts.Get(attrib, k)
  {
    forall k
      ensures Dicts.Get(rest, k) == if Collected(key, k, from, n + 1) then None else Dicts.Get(attrib, k)
    {
      CollectStepKey(attrib, from, key, n, k);
    }
  }

  lemma CollectStepValues(attrib: Attrib, from: nat, key: nat -> string, v: string, vs: seq<string>)
    requires Injective(key)
    requires Dicts.Get(attrib, key(from)) == Some(v)
    requires forall j :: 0 <= j < |vs| ==> Dicts.Get(Dicts.Remove(attrib, key(from)), key(from + 1 + j)) == Some(vs[j])
    ensures forall j :: 0 <= j < |[v] + vs| ==> Dicts.Get(attrib, key(from + j)) == Some(([v] + vs)[j])
  {
    forall j | 0 <= j < |[v] + vs|
      ensures Dicts.Get(attrib, key(from + j)) == Some(([v] + vs)[j])
    {
      if j > 0 {
        assert key(from + 1 + (j - 1)) == key(from + j);
        Dicts.GetRemoveSome(attrib, key(from), key(from + j), vs[j - 1]);
        assert ([v] + vs)[j] == vs[j - 1];
      }
    }
  }

  /** Popping `key(from)` first and collecting `n` more afterwards collects `n + 1` from `from`. */
  lemma CollectStepKey(attrib: Attrib, from: nat, key: nat -> string, n: nat, k: string)
    requires Injective(key)
    ensures (if Collected(key, k, from + 1, n) then None else Dicts.Get(Dicts.Remove(attrib, key(from)), k))
      == (if Collected(key, k, from, n + 1) then None else Dicts.Get(attrib, k))
  {
    if k == key(from) {
      assert Collected(key, k, from, n + 1);
      assert !Dicts.HasKey(Dicts.Remove(attrib, key(from)), k);
    } else {
      Dicts.GetRemove(attrib, key(from), k);
      assert Collected(key, k, from, n + 1) <==> Collected(key, k, from + 1, n) by {
        if Collected(key, k, from, n + 1) {
          var j: nat :| from <= j < from + n + 1 && k == key(j);
          assert j != from;
        }
      }
    }
  }

  /** `_get_positional(attrib)`: the positional arguments, and the attributes left behind. */
  function GetPositional(attrib: Attrib): (r: (seq<string>, Attrib))
    ensures forall j :: 0 <= j < |r.0| ==> Dicts.Get(attrib, ArgKey(j)) == Some(r.0[j])
    ensures !Dicts.HasKey(attrib, ArgKey(|r.0|))
    ensures forall k :: Dicts.Get(r.1, k) == if Collected(ArgKey, k, 0, |r.0|) then None else Dicts.Get(attrib, k)
  {
    ArgKeysInjective();
    CollectSpec(attrib, 0, ArgKey);
    var r := Collect(attrib, 0, ArgKey);
    assert ArgKey(0 + |r.0|) == ArgKey(|r.0|);
    assert forall j :: 0 <= j < |r.0| ==> ArgKey(0 + j) == ArgKey(j);
    r
  }

  /**
   * Collection stops at the first gap: with `arg0` and `arg2` but no `arg1`, only `arg0` is
   * positional and `arg2` stays behind with its value.
   */
  lemma GapStopsCollection(attrib: Attrib, v0: string, v2: string)
    requires Dicts.Get(attrib, "arg0") == Some(v0)
    requires !Dicts.HasKey(attrib, "arg1")
    requires Dicts.Get(attrib, "arg2") == Some(v2)
    ensures GetPositional(attrib).0 == [v0]
    ensures Dicts.Get(GetPositional(attrib).1, "arg2") == Some(v2)
  {
    assert ArgKey(0) == "arg0" by { assert PyInt.Render(0) == "0"; }
    assert ArgKey(1) == "arg1" by { assert PyInt.Render(1) == "1"; }
    assert ArgKey(2) == "arg2" by { assert PyInt.Render(2) == "2"; }
    var r := GetPositional(attrib);
    assert |r.0| == 1;
    assert r.0 == [v0] by { assert Dicts.Get(attrib, ArgKey(0)) == Some(r.0[0]); }
    assert !Collected(ArgKey, "arg2", 0, 1);
  }

  // ----- build_node's partition -----

  /** The entries of `d` whose key satisfies `p`, in order. */
  function Filter(d: Attrib, p: string -> bool): (r: Attrib)
    ensures forall k :: Dicts.Get(r, k) == if p(k) then Dicts.Get(d, k) else None
  {
    if |d| == 0 then []
    else
      var rest := Filter(d[1..], p);
      if p(d[0].0) then
        var r := [d[0]] + rest;
        assert forall k :: Dicts.Get(r, k) == if p(k) then Dicts.Get(d, k) else None by {
          forall k
            ensures Dicts.Get(r, k) == if p(k) then Dicts.Get(d, k) else None
          {
            if k != d[0].0 {
              assert r[1..] == rest;
            }
          }
        }
        r
      else
        assert forall k :: Dicts.Get(rest, k) == if p(k) then Dicts.Get(d, k) else None by {
          forall k
            ensures Dicts.Get(rest, k) == if p(k) then Dicts.Get(d, k) else None
          {
            if p(k) {
              assert k != d[0].0;
            }
          }
        }
        rest
  }

  /** `name` and `stretch` place the widget in its parent. */
  predicate IsPlacement(k: string)
  {
    k == "name" || k == "stretch"
  }

  /** Any other attribute starting with `set` is a setter call. */
  predicate IsSetter(k: string)
  {
    !IsPlacement(k) && Text.StartsWith(k, "set")
  }

  /** Everything else is passed to the widget's constructor as a keyword. */
  predicate IsKeyword(k: string)
  {
    !IsPlacement(k) && !Text.StartsWith(k, "set")
  }

  /** The four groups `build_node` hands on. */
  datatype Parts = Parts(positional: seq<string>, placement: Attrib, setters: Attrib, keywords: Attrib)

  /** `build_node`'s treatment of an element's attributes (lines 73-77). */
  function Partition(attrib: Attrib): (r: Parts)
    ensures r.positional == GetPositional(attrib).0
  {
    var (positional, rest) := GetPositional(attrib);
    Parts(positional, Filter(rest, IsPlacement), Filter(rest, IsSetter), Filter(rest, IsKeyword))
  }

  /**
   * Every attribute lands in exactly one group with its value: it is collected as a positional
   * argument, or it is a placement property, a setter or a constructor keyword.
   */
  lemma PartitionExact(attrib: Attrib, k: string)
    requires Dicts.HasKey(attrib, k)
    ensures var r := Partition(attrib);
      var n := |r.positional|;
      && (Collected(ArgKey, k, 0, n) ==>
            !Dicts.HasKey(r.placement, k) && !Dicts.HasKey(r.setters, k) && !Dicts.HasKey(r.keywords, k))
      && (!Collected(ArgKey, k, 0, n) && IsPlacement(k) ==>
            Dicts.Get(r.placement, k) == Dicts.Get(attrib, k) && !Dicts.HasKey(r.setters, k) && !Dicts.HasKey(r.keywords, k))
      && (!Collected(ArgKey, k, 0, n) && IsSetter(k) ==>
            Dicts.Get(r.setters, k) == Dicts.Get(attrib, k) && !Dicts.HasKey(r.placement, k) && !Dicts.HasKey(r.keywords, k))
      && (!Collected(ArgKey, k, 0, n) && IsKeyword(k) ==>
            Dicts.Get(r.keywords, k) == Dicts.Get(attrib, k) && !Dicts.HasKey(r.placement, k) && !Dicts.HasKey(r.setters, k))
  {
  }

  /** A collected positional argument is never also passed as a keyword. */
  lemma PositionalNotKeyword(attrib: Attrib, j: nat)
    requires j < |Partition(attrib).positional|
    ensures !Dicts.HasKey(Partition(attrib).keywords, ArgKey(j))
  {
    assert Collected(ArgKey, ArgKey(j), 0, |Partition(attrib).positional|);
  }

  // ----- _get_value -----

  /** One argument of a setter call. */
  datatype Arg =
    | QtConstant(name: string)  // `@Name`: the Qt namespace's constant of that name
    | Flag(b: bool)
    | Number(i: int)
    | Decimal(text: string)     // text Python's `float` accepts
    | Text(s: string)

  /** The arguments of a setter call: a Python expression's value, or one argument. */
  datatype SetterArgs = Evaluated(expr: string) | Single(arg: Arg)

  /** `_get_value(val)`, with `isFloat` saying which texts `float()` accepts. */
  function GetValue(val: string, isFloat: string -> bool): (r: SetterArgs)
    ensures r.Evaluated? <==> Text.StartsWith(val, "$(") && Text.EndsWith(val, ")")
    ensures r.Evaluated? ==> |val| >= 3 && r.expr == val[2..|val| - 1]
    ensures r.Single? && Text.StartsWith(val, "@") ==> r.arg == QtConstant(val[1..])
    ensures r.Single? && !Text.StartsWith(val, "@") ==>
      if val == "True" then r.arg == Flag(true)
      else if val == "False" then r.arg == Flag(false)
      else if PyInt.Parse(val).Some? then r.arg == Number(PyInt.Parse(val).value)
      else if isFloat(val) then r.arg == Decimal(val)
      else r.arg == Text(val)
  {
    if Text.StartsWith(val, "$(") && Text.EndsWith(val, ")") then
      assert |val| >= 3 by {
        assert val[1] == '(' && val[|val| - 1] == ')';
      }
      Evaluated(val[2..|val| - 1])
    else if Text.StartsWith(val, "@") then Single(QtConstant(val[1..]))
    else if val == "True" then Single(Flag(true))
    else if val == "False" then Single(Flag(false))
    else
      match PyInt.Parse(val)
      case Some(i) => Single(Number(i))
      case None => if isFloat(val) then Single(Decimal(val)) else Single(Text(val))
  }

  /** The text of an integer reads back as that integer, as the one argument of the setter. */
  lemma IntegerTextRoundTrip(i: int, isFloat: string -> bool)
    ensures GetValue(PyInt.Render(i), isFloat) == Single(Number(i))
  {
    var s := PyInt.Render(i);
    PyInt.ParseRender(i);
    assert s[0] == '-' || PyInt.IsDigit(s[0]);
    assert !Text.StartsWith(s, "$(") && !Text.StartsWith(s, "@");
    assert s != "True" && s != "False" by { assert s[0] != 'T' && s[0] != 'F'; }
  }

  /**
   * A value is passed through unchanged, as text, exactly when no earlier reading applies: it is
   * not `$(...)`, has no `@`, is neither `True` nor `False`, is no integer and no float.
   */
  lemma PlainTextPassesThrough(val: string, isFloat: string -> bool)
    ensures GetValue(val, isFloat) == Single(Text(val)) <==>
      && !(Text.StartsWith(val, "$(") && Text.EndsWith(val, ")"))
      && !Text.StartsWith(val, "@")
      && val != "True" && val != "False"
      && PyInt.Parse(val).None?
      && !isFloat(val)
  {
  }

  /** In particular, a word starting with a letter is no integer: only the float test decides. */
  lemma LetterTextPassesThrough(val: string, isFloat: string -> bool)
    requires |val| > 0 && ('a' <= val[0] <= 'z' || 'A' <= val[0] <= 'Z')
    requires !Text.IsSpace(val[|val| - 1])
    requires val != "True" && val != "False"
    ensures GetValue(val, isFloat) == Single(Text(val)) <==> !isFloat(val)
  {
    PyInt.ParseLetterStart(val);
    assert !Text.StartsWith(val, "$(") && !Text.StartsWith(val, "@") by {
      assert val[0] != '$' && val[0] != '@';
    }
    PlainTextPassesThrough(val, isFloat);
  }
}

=== FILE: registry.dfy ===
/**
 * The daemon's registries of callable models: `function_lookup` (package id to the functions a
 * package registered while it was loading, `core/functions.py`) and `endpoint_lookup` (endpoint
 * name to every registered candidate, `core.py`).
 *
 * The processing hooks are named, not run. The package being loaded, whether cerberus accepts
 * an `input_validator` schema, and which packages the database marks active are parameters.
 */
module Registry {
  import opened Wrappers
  import Dicts
  import PyValue

  /** The two processing hooks a registration supplies, by name. */
  datatype Hooks = Hooks(processInput: string, processOutput: string)

  datatype RegistryError =
    | PackageInstallError(message: string)
    | MissingFunction(message: string, status: nat)
    | MissingEndpoint(message: string, status: nat)

  const BadValidator := PackageInstallError("Package input_validator is incorrect")

  /** `model` defaults to the registered name. */
  function ModelOrName(model: Option<string>, name: string): (m: string)
    ensures model.None? ==> m == name
    ensures model.Some? ==> m == model.value
  {
    model.GetOr(name)
  }

  /** A validator schema passes when there is none or cerberus accepts it. */
  predicate ValidatorAccepted(inputValidator: Option<PyValue.Value>, schemaOk: PyValue.Value -> bool)
  {
    inputValidator.None? || schemaOk(inputValidator.value)
  }

  /** A schema check that accepts every schema, for registrations without a validator. */
  predicate AnySchema(schema: PyValue.Value)
  {
    true
  }

  // ----- function_lookup -----

  datatype Function = Function(name: string, packageId: int, model: string, hooks: Hooks, inputValidator: Option<PyValue.Value>)

  type FunctionLookup = Dicts.Dict<int, Dicts.Dict<string, Function>>

  /** Every function is filed under its own package id and its own name. */
  predicate FunctionsFiled(lookup: FunctionLookup)
  {
    forall i :: 0 <= i < |lookup| ==>
      forall j :: 0 <= j < |lookup[i].1| ==>
        lookup[i].1[j].1.name == lookup[i].1[j].0 && lookup[i].1[j].1.packageId == lookup[i].0
  }

  /**
   * `create_function` while package `pkg` is loading: a bad validator schema raises; otherwise
   * the function is stored unless the package already has one of that name.
   */
  function CreateFunction(lookup: FunctionLookup, pkg: int, name: string, hooks: Hooks, model: Option<string>,
                          inputValidator: Option<PyValue.Value>, schemaOk: PyValue.Value -> bool)
    : (r: Result<FunctionLookup, RegistryError>)
    ensures r.Err? <==> !ValidatorAccepted(inputValidator, schemaOk)
    ensures r.Err? ==> r.error == BadValidator
    ensures r.Ok? ==> Dicts.HasKey(r.value, pkg)
    ensures r.Ok? ==> forall p :: p != pkg ==> Dicts.Get(r.value, p) == Dicts.Get(lookup, p)
  {
    if !ValidatorAccepted(inputValidator, schemaOk) then Err(BadValidator)
    else
      var f := Function(name, pkg, ModelOrName(model, name), hooks, inputValidator);
      var functions := Dicts.Get(lookup, pkg).GetOr([]);
      var stored := if Dicts.HasKey(functions, name) then functions else Dicts.Put(functions, name, f);
      var r := Dicts.Put(lookup, pkg, stored);
      assert forall p :: p != pkg ==> Dicts.Get(r, p) == Dicts.Get(lookup, p) by {
        forall p | p != pkg
          ensures Dicts.Get(r, p) == Dicts.Get(lookup, p)
        {
          Dicts.GetPut(lookup, pkg, stored, p);
        }
      }
      Dicts.GetPut(lookup, pkg, stored, pkg);
      Ok(r)
  }

  /** The functions a package registered, or none. */
  function FunctionsOf(lookup: FunctionLookup, pkg: int): Dicts.Dict<string, Function>
  {
    Dicts.Get(lookup, pkg).GetOr([])
  }

  /**
   * The first registration of a name wins: the function stored after a successful
   * `create_function` is the earlier one if there was one, else the new one with its model
   * defaulting to the name. The package's other functions are unchanged.
   */
  lemma CreateFunctionStores(lookup: FunctionLookup, pkg: int, name: string, hooks: Hooks, model: Option<string>,
                             inputValidator: Option<PyValue.Value>, schemaOk: PyValue.Value -> bool, other: string)
    requires ValidatorAccepted(inputValidator, schemaOk)
    ensures var r := CreateFunction(lookup, pkg, name, hooks, model, inputValidator, schemaOk).value;
      var before := Dicts.Get(FunctionsOf(lookup, pkg), name);
      && (before.Some? ==> Dicts.Get(FunctionsOf(r, pkg), name) == before)
      && (before.None? ==>
            Dicts.Get(FunctionsOf(r, pkg), name) == Some(Function(name, pkg, ModelOrName(model, name), hooks, inputValidator)))
      && (other != name ==> Dicts.Get(FunctionsOf(r, pkg), other) == Dicts.Get(FunctionsOf(lookup, pkg), other))
  {
    var f := Function(name, pkg, ModelOrName(model, name), hooks, inputValidator);
    var functions := FunctionsOf(lookup, pkg);
    var stored := if Dicts.HasKey(functions, name) then functions else Dicts.Put(functions, name, f);
    Dicts.GetPut(lookup, pkg, stored, pkg);
    Dicts.GetPut(functions, name, f, other);
  }

  /** Registration keeps every function filed under its own package and name. */
  lemma CreateFunctionFiled(lookup: FunctionLookup, pkg: int, name: string, hooks: Hooks, model: Option<string>,
                            inputValidator: Option<PyValue.Value>, schemaOk: PyValue.Value -> bool)
    requires FunctionsFiled(lookup)
    requires ValidatorAccepted(inputValidator, schemaOk)
    ensures FunctionsFiled(CreateFunction(lookup, pkg, name, hooks, model, inputValidator, schemaOk).value)
  {
    var f := Function(name, pkg, ModelOrName(model, name), hooks, inputValidator);
    var functions := FunctionsOf(lookup, pkg);
    var stored := if Dicts.HasKey(functions, name) then functions else Dicts.Put(functions, name, f);
    var r := CreateFunction(lookup, pkg, name, hooks, model, inputValidator, schemaOk).value;
    assert r == Dicts.Put(lookup, pkg, stored);
    FunctionsOfFiled(lookup, pkg);
    PutFiled(functions, name, f, pkg);
    PutOuterFiled(lookup, pkg, stored);
  }

  /** Every function of one package's dict is filed under that package and its own name. */
  predicate InnerFiled(functions: Dicts.Dict<string, Function>, pkg: int)
  {
    forall j :: 0 <= j < |functions| ==> functions[j].1.name == functions[j].0 && functions[j].1.packageId == pkg
  }

  lemma FunctionsOfFiled(lookup: FunctionLookup, pkg: int)
    requires FunctionsFiled(lookup)
    ensures InnerFiled(FunctionsOf(lookup, pkg), pkg)
  {
    if Dicts.HasKey(lookup, pkg) {
      var k := Dicts.KeyIndex(lookup, pkg);
      Dicts.GetKeyIndex(lookup, pkg);
      assert FunctionsOf(lookup, pkg) == lookup[k].1;
    }
  }

  lemma {:induction false} PutFiled(functions: Dicts.Dict<string, Function>, name: string, f: Function, pkg: int)
    requires InnerFiled(functions, pkg)
    requires f.name == name && f.packageId == pkg
    ensures InnerFiled(Dicts.Put(functions, name, f), pkg)
    decreases |functions|
  {
    if |functions| > 0 && functions[0].0 != name {
      PutFiled(functions[1..], name, f, pkg);
    }
  }

  lemma {:induction false} PutOuterFiled(lookup: FunctionLookup, pkg: int, stored: Dicts.Dict<string, Function>)
    requires FunctionsFiled(lookup)
    requires InnerFiled(stored, pkg)
    ensures FunctionsFiled(Dicts.Put(lookup, pkg, stored))
    decreases |lookup|
  {
    if |lookup| > 0 && lookup[0].0 != pkg {
      PutOuterFiled(lookup[1..], pkg, stored);
      var r := Dicts.Put(lookup, pkg, stored);
      assert r == [lookup[0]] + Dicts.Put(lookup[1..], pkg, stored);
      forall i | 0 <= i < |r|
        ensures forall j :: 0 <= j < |r[i].1| ==> r[i].1[j].1.name == r[i].1[j].0 && r[i].1[j].1.packageId == r[i].0
      {
        if i > 0 {
          assert r[i] == Dicts.Put(lookup[1..], pkg, stored)[i - 1];
        }
      }
    }
  }

  /** `get_active_function(package_name, function_name)`, with `pkg` the row id of the package's latest active version. */
  function GetActiveFunction(lookup: FunctionLookup, packageName: string, pkg: int, functionName: string)
    : (r: Result<Function, RegistryError>)
    ensures !Dicts.HasKey(lookup, pkg) ==> r == Err(MissingFunction("No active package " + packageName, 400))
    ensures Dicts.HasKey(lookup, pkg) && !Dicts.HasKey(FunctionsOf(lookup, pkg), functionName) ==>
      r == Err(MissingFunction("Package " + packageName + " has no function " + functionName, 400))
    ensures r.Ok? <==> Dicts.HasKey(lookup, pkg) && Dicts.HasKey(FunctionsOf(lookup, pkg), functionName)
    ensures r.Ok? ==> Dicts.Get(FunctionsOf(lookup, pkg), functionName) == Some(r.value)
  {
    match Dicts.Get(lookup, pkg)
    case None => Err(MissingFunction("No active package " + packageName, 400))
    case Some(functions) =>
      match Dicts.Get(functions, functionName)
      case None => Err(MissingFunction("Package " + packageName + " has no function " + functionName, 400))
      case Some(f) => Ok(f)
  }

  /**
   * A function registered while its package loaded is found under its name: the new one, with
   * its model, unless the package had already registered that name.
   */
  lemma RegisteredFunctionFound(lookup: FunctionLookup, packageName: string, pkg: int, name: string, hooks: Hooks,
                                model: Option<string>)
    ensures var r := CreateFunction(lookup, pkg, name, hooks, model, None, AnySchema).value;
      var before := Dicts.Get(FunctionsOf(lookup, pkg), name);
      GetActiveFunction(r, packageName, pkg, name) ==
        Ok(if before.Some? then before.value else Function(name, pkg, ModelOrName(model, name), hooks, None))
  {
    CreateFunctionStores(lookup, pkg, name, hooks, model, None, AnySchema, name);
  }

  /** `list_active_function_names(package_id)`: the names of the package's functions, in order. */
  function ListActiveFunctionNames(lookup: FunctionLookup, pkg: int): (r: seq<string>)
    ensures !Dicts.HasKey(lookup, pkg) ==> r == []
    ensures |r| == |FunctionsOf(lookup, pkg)|
    ensures forall i :: 0 <= i < |r| ==> r[i] == FunctionsOf(lookup, pkg)[i].1.name
  {
    var functions := FunctionsOf(lookup, pkg);
    seq(|functions|, i requires 0 <= i < |functions| => functions[i].1.name)
  }

  /** With every function filed under its own name, the listed names are the dict's keys. */
  lemma ListedNamesAreKeys(lookup: FunctionLookup, pkg: int)
    requires FunctionsFiled(lookup)
    ensures ListActiveFunctionNames(lookup, pkg) == Dicts.Keys(FunctionsOf(lookup, pkg))
  {
    FunctionsOfFiled(lookup, pkg);
  }

  /** `clear_functions(package_id)`: the package's entry goes; nothing else changes. */
  function ClearFunctions(lookup: FunctionLookup, pkg: int): (r: FunctionLookup)
    ensures !Dicts.HasKey(r, pkg)
    ensures forall p :: p != pkg ==> Dicts.Get(r, p) == Dicts.Get(lookup, p)
  {
    var r := Dicts.Remove(lookup, pkg);
    assert forall p :: p != pkg ==> Dicts.Get(r, p) == Dicts.Get(lookup, p) by {
      forall p | p != pkg
        ensures Dicts.Get(r, p) == Dicts.Get(lookup, p)
      {
        Dicts.GetRemove(lookup, pkg, p);
      }
    }
    r
  }

  /** Clearing a package that has no entry leaves the registry exactly as it was. */
  lemma {:induction false} ClearAbsentIsNoOp(lookup: FunctionLookup, pkg: int)
    requires !Dicts.HasKey(lookup, pkg)
    ensures ClearFunctions(lookup, pkg) == lookup
    decreases |lookup|
  {
    if |lookup| > 0 {
      assert lookup[0].0 != pkg;
      ClearAbsentIsNoOp(lookup[1..], pkg);
      assert lookup == [lookup[0]] + lookup[1..];
    }
  }

  // ----- endpoint_lookup -----

  datatype Endpoint = Endpoint(name: string, model: string, hooks: Hooks, inputValidator: Option<PyValue.Value>, packageId: int)

  type EndpointLookup = Dicts.Dict<string, seq<Endpoint>>

  function Candidates(lookup: EndpointLookup, name: string): seq<Endpoint>
  {
    Dicts.Get(lookup, name).GetOr([])
  }

  /** `create_endpoint` while package `pkg` is loading: the endpoint joins the end of its name's candidates. */
  function CreateEndpoint(lookup: EndpointLookup, pkg: int, name: string, hooks: Hooks, model: Option<string>,
                          inputValidator: Option<PyValue.Value>, schemaOk: PyValue.Value -> bool)
    : (r: Result<EndpointLookup, RegistryError>)
    ensures r.Err? <==> !ValidatorAccepted(inputValidator, schemaOk)
    ensures r.Err? ==> r.error == BadValidator
    ensures r.Ok? ==>
      Dicts.Get(r.value, name) == Some(Candidates(lookup, name) + [Endpoint(name, ModelOrName(model, name), hooks, inputValidator, pkg)])
    ensures r.Ok? ==> forall n :: n != name ==> Dicts.Get(r.value, n) == Dicts.Get(lookup, n)
  {
    if !ValidatorAccepted(inputValidator, schemaOk) then Err(BadValidator)
    else
      var e := Endpoint(name, ModelOrName(model, name), hooks, inputValidator, pkg);
      var updated := Candidates(lookup, name) + [e];
      var r := Dicts.Put(lookup, name, updated);
      assert forall n :: n != name ==> Dicts.Get(r, n) == Dicts.Get(lookup, n) by {
        forall n | n != name
          ensures Dicts.Get(r, n) == Dicts.Get(lookup, n)
        {
          Dicts.GetPut(lookup, name, updated, n);
        }
      }
      Dicts.GetPut(lookup, name, updated, name);
      Ok(r)
  }

  /** The first candidate, in registration order, whose package is active. */
  function FirstActive(candidates: seq<Endpoint>, active: int -> bool): (r: Option<Endpoint>)
    ensures r.None? <==> forall i :: 0 <= i < |candidates| ==> !active(candidates[i].packageId)
    ensures r.Some? ==>
      exists i :: 0 <= i < |candidates| && candidates[i] == r.value && active(r.value.packageId)
        && forall j :: 0 <= j < i ==> !active(candidates[j].packageId)
  {
    if |candidates| == 0 then None
    else if active(candidates[0].packageId) then Some(candidates[0])
    else
      var rest := FirstActive(candidates[1..], active);
      if rest.Some? then
        var i :| 0 <= i < |candidates[1..]| && candidates[1..][i] == rest.value && active(rest.value.packageId)
          && forall j :: 0 <= j < i ==> !active(candidates[1..][j].packageId);
        assert candidates[i + 1] == rest.value;
        assert forall j :: 0 <= j < i + 1 ==> !active(candidates[j].packageId) by {
          forall j | 0 <= j < i + 1
            ensures !active(candidates[j].packageId)
          {
            if j > 0 {
              assert candidates[j] == candidates[1..][j - 1];
            }
          }
        }
        rest
      else
        assert forall i :: 0 <= i < |candidates| ==> !active(candidates[i].packageId) by {
          forall i | 0 <= i < |candidates|
            ensures !active(candidates[i].packageId)
          {
            if i > 0 {
              assert candidates[i] == candidates[1..][i - 1];
            }
          }
        }
        rest
  }

  /** `get_active_endpoint(name)`, with `active` the database's view of each package id. */
  function GetActiveEndpoint(lookup: EndpointLookup, name: string, active: int -> bool): (r: Result<Endpoint, RegistryError>)
    ensures !Dicts.HasKey(lookup, name) ==> r == Err(MissingEndpoint("No active candidate for endpoint " + name, 400))
    ensures Dicts.HasKey(lookup, name) && FirstActive(Candidates(lookup, name), active).None? ==>
      r == Err(MissingEndpoint("All candidates for endpoint " + name + " are disabled", 400))
    ensures r.Ok? <==> FirstActive(Candidates(lookup, name), active).Some?
    ensures r.Ok? ==> Some(r.value) == FirstActive(Candidates(lookup, name), active)
  {
    match Dicts.Get(lookup, name)
    case None => Err(MissingEndpoint("No active candidate for endpoint " + name, 400))
    case Some(candidates) =>
      match FirstActive(candidates, active)
      case None => Err(MissingEndpoint("All candidates for endpoint " + name + " are disabled", 400))
      case Some(e) => Ok(e)
  }

  /** The first active candidate of two lists in a row is the first list's, if it has one. */
  lemma {:induction false} FirstActiveAppend(c: seq<Endpoint>, d: seq<Endpoint>, active: int -> bool)
    ensures FirstActive(c + d, active) == if FirstActive(c, active).Some? then FirstActive(c, active) else FirstActive(d, active)
    decreases |c|
  {
    if |c| > 0 {
      assert (c + d)[0] == c[0];
      assert (c + d)[1..] == c[1..] + d;
      FirstActiveAppend(c[1..], d, active);
    } else {
      assert c + d == d;
    }
  }

  /**
   * Two more packages registering an endpoint name: an active earlier candidate keeps answering;
   * otherwise the earlier of the two answers while its package is active, and the later one takes
   * over once it is disabled.
   */
  lemma EarlierActiveCandidateWins(lookup: EndpointLookup, name: string, p1: int, h1: Hooks, p2: int, h2: Hooks,
                                   active: int -> bool)
    requires active(p2)
    ensures var l1 := CreateEndpoint(lookup, p1, name, h1, None, None, AnySchema).value;
      var l2 := CreateEndpoint(l1, p2, name, h2, None, None, AnySchema).value;
      var earlier := FirstActive(Candidates(lookup, name), active);
      GetActiveEndpoint(l2, name, active) ==
        Ok(if earlier.Some? then earlier.value
           else if active(p1) then Endpoint(name, name, h1, None, p1) else Endpoint(name, name, h2, None, p2))
  {
    var l1 := CreateEndpoint(lookup, p1, name, h1, None, None, AnySchema).value;
    var l2 := CreateEndpoint(l1, p2, name, h2, None, None, AnySchema).value;
    var e1, e2 := Endpoint(name, name, h1, None, p1), Endpoint(name, name, h2, None, p2);
    var c := Candidates(lookup, name);
    assert Candidates(l1, name) == c + [e1];
    assert Candidates(l2, name) == c + [e1] + [e2];
    assert c + [e1] + [e2] == c + [e1, e2];
    FirstActiveAppend(c, [e1, e2], active);
    assert [e1, e2][1..] == [e2];
    assert FirstActive([e2], active) == Some(e2);
    assert FirstActive([e1, e2], active) == Some(if active(p1) then e1 else e2);
  }
}

=== FILE: tensor_validator.dfy ===
/**
 * The `tensor` rule of the daemon's request validator (`CitrineValidator._validate_tensor`): a
 * tensor document is first checked against `tensor_schema`, then its rank, its dimensions and its
 * dtype are compared with what the endpoint expects, and the first failure is the one reported.
 *
 * The schema check is written out for the three fields `tensor_schema` declares, with the
 * validator library's defaults: no field is required, an undeclared field is an error, and a
 * field's value must have the declared type.
 */
module TensorValidator {
  import opened Wrappers
  import Dicts
  import opened PyValue

  /** `np_dtypes`: the dtypes a tensor may carry. */
  const NpDtypes: seq<string> := [
    "int8", "int16", "int32", "int64",
    "uint8", "uint16", "uint32", "uint64",
    "float16", "float32", "float64", "float128"]

  /** What an endpoint expects of a tensor argument; `None` checks nothing. */
  datatype TensorRule = TensorRule(dtype: Option<string>, shape: Option<seq<Option<int>>>)

  datatype TensorError =
    | SchemaError                                   // the document does not fit `tensor_schema`
    | RankMismatch(expectedRank: nat, actualRank: nat)
    | ShapeMismatch(expectedShape: seq<Option<int>>, actualShape: seq<int>)
    | DtypeMismatch(expectedDtype: string, actualDtype: string)

  datatype Verdict =
    | Skipped                 // the value is `None`: nothing is checked or decoded
    | Accepted                // every check passed; the field is replaced by the decoded tensor
    | Rejected(error: TensorError)
    | MissingField(name: string)  // a field the rule needs is absent: `KeyError`

  predicate IsIntList(v: Value)
  {
    v.VList? && forall i :: 0 <= i < |v.items| ==> v.items[i].VInt?
  }

  /** One field of a tensor document against its declaration in `tensor_schema`. */
  predicate FieldFits(key: Key, v: Value)
  {
    match key
    case KStr(name) =>
      if name == "dtype" then v.VStr? && v.s in NpDtypes
      else if name == "data" then v.VStr?
      else if name == "shape" then IsIntList(v)
      else false
    case KInt(_) => false
  }

  /** `cerberus.Validator(schema=tensor_schema).validate(value)`. */
  predicate FitsSchema(v: Value)
  {
    v.VDict? && forall i :: 0 <= i < |v.entries| ==> FieldFits(v.entries[i].0, v.entries[i].1)
  }

  /** The integers of an integer list. */
  function Ints(v: Value): (r: seq<int>)
    requires IsIntList(v)
    ensures |r| == |v.items| && forall i :: 0 <= i < |r| ==> v.items[i] == VInt(r[i])
  {
    seq(|v.items|, i requires 0 <= i < |v.items| => v.items[i].i)
  }

  /** The first position at or after `i` where a fixed expected dimension differs from the actual one. */
  function FirstMismatch(actual: seq<int>, expected: seq<Option<int>>, i: nat): (r: Option<nat>)
    requires |actual| == |expected| && i <= |expected|
    ensures r.Some? ==> i <= r.value < |expected| && expected[r.value].Some? && expected[r.value].value != actual[r.value]
    decreases |expected| - i
  {
    if i == |expected| then None
    else if expected[i].Some? && expected[i].value != actual[i] then Some(i)
    else FirstMismatch(actual, expected, i + 1)
  }

  /** Every expected dimension is either a wildcard or equal to the actual one. */
  predicate DimsMatch(actual: seq<int>, expected: seq<Option<int>>)
    requires |actual| == |expected|
  {
    forall i :: 0 <= i < |expected| ==> expected[i].None? || expected[i].value == actual[i]
  }

  lemma {:induction false} FirstMismatchNone(actual: seq<int>, expected: seq<Option<int>>, i: nat)
    requires |actual| == |expected| && i <= |expected|
    ensures FirstMismatch(actual, expected, i).None? <==>
      forall j :: i <= j < |expected| ==> expected[j].None? || expected[j].value == actual[j]
    decreases |expected| - i
  {
    if i < |expected| {
      FirstMismatchNone(actual, expected, i + 1);
    }
  }

  /** The rank and dimension checks. */
  function CheckShape(field: Value, expected: seq<Option<int>>): Verdict
    requires IsIntList(field)
  {
    var actual := Ints(field);
    if |actual| != |expected| then Rejected(RankMismatch(|expected|, |actual|))
    else if FirstMismatch(actual, expected, 0).Some? then Rejected(ShapeMismatch(expected, actual))
    else Accepted
  }

  /** `_validate_tensor(schema, field, value)`. */
  function Validate(rule: TensorRule, v: Value): (r: Verdict)
    ensures v.VNone? <==> r.Skipped?
    ensures !v.VNone? && !FitsSchema(v) ==> r == Rejected(SchemaError)
  {
    if v.VNone? then Skipped
    else if !FitsSchema(v) then Rejected(SchemaError)
    else
      var shapeVerdict :=
        if rule.shape.None? then Accepted
        else
          match Dicts.Get(v.entries, KStr("shape"))
          case None => MissingField("shape")
          case Some(field) =>
            assert FieldFits(KStr("shape"), field) by {
              var i :| 0 <= i < |v.entries| && v.entries[i] == (KStr("shape"), field);
            }
            CheckShape(field, rule.shape.value);
      if !shapeVerdict.Accepted? then shapeVerdict
      else if rule.dtype.None? then Accepted
      else
        match Dicts.Get(v.entries, KStr("dtype"))
        case None => MissingField("dtype")
        case Some(field) =>
          assert FieldFits(KStr("dtype"), field) by {
            var i :| 0 <= i < |v.entries| && v.entries[i] == (KStr("dtype"), field);
          }
          if field.s != rule.dtype.value then Rejected(DtypeMismatch(rule.dtype.value, field.s))
          else Accepted
  }

  /** A tensor document with the given fields. */
  function TensorDoc(dtype: string, data: string, shape: seq<int>): Value
  {
    VDict([
      (KStr("dtype"), VStr(dtype)),
      (KStr("data"), VStr(data)),
      (KStr("shape"), VList(seq(|shape|, i requires 0 <= i < |shape| => VInt(shape[i]))))])
  }

  /** What the checks after the schema compare, for a complete document. */
  predicate Conforms(rule: TensorRule, dtype: string, shape: seq<int>)
  {
    && (rule.shape.Some? ==> |shape| == |rule.shape.value| && DimsMatch(shape, rule.shape.value))
    && (rule.dtype.Some? ==> dtype == rule.dtype.value)
  }

  lemma TensorDocFields(dtype: string, data: string, shape: seq<int>)
    ensures var d := TensorDoc(dtype, data, shape).entries;
      && Dicts.Get(d, KStr("dtype")) == Some(VStr(dtype))
      && Dicts.Get(d, KStr("shape")).Some?
      && IsIntList(Dicts.Get(d, KStr("shape")).value)
      && Ints(Dicts.Get(d, KStr("shape")).value) == shape
  {
    var d := TensorDoc(dtype, data, shape).entries;
    assert d[1..][1..][0].0 == KStr("shape");
  }

  /**
   * A complete document with an allowed dtype is accepted exactly when its rank, its fixed
   * dimensions and its dtype agree with the rule.
   */
  lemma AcceptedIffConforms(rule: TensorRule, dtype: string, data: string, shape: seq<int>)
    requires dtype in NpDtypes
    ensures Validate(rule, TensorDoc(dtype, data, shape)) == Accepted <==> Conforms(rule, dtype, shape)
  {
    var v := TensorDoc(dtype, data, shape);
    TensorDocFields(dtype, data, shape);
    assert FitsSchema(v) by {
      assert FieldFits(v.entries[2].0, v.entries[2].1);
    }
    if rule.shape.Some? && |shape| == |rule.shape.value| {
      FirstMismatchNone(shape, rule.shape.value, 0);
    }
  }

  /** Each check stops the others: a rank error is reported even when the dtype is also wrong. */
  lemma RankCheckedBeforeDtype(dtype: string, data: string, shape: seq<int>, expected: seq<Option<int>>, wanted: string)
    requires dtype in NpDtypes && |shape| != |expected| && dtype != wanted
    ensures Validate(TensorRule(Some(wanted), Some(expected)), TensorDoc(dtype, data, shape)) ==
      Rejected(RankMismatch(|expected|, |shape|))
  {
    var v := TensorDoc(dtype, data, shape);
    TensorDocFields(dtype, data, shape);
    assert FitsSchema(v) by {
      assert FieldFits(v.entries[2].0, v.entries[2].1);
    }
  }

  /** A wrong fixed dimension is reported as a shape error even when the dtype is also wrong. */
  lemma DimsCheckedBeforeDtype(dtype: string, data: string, shape: seq<int>, expected: seq<Option<int>>, wanted: string, i: nat)
    requires dtype in NpDtypes && |shape| == |expected| && dtype != wanted
    requires i < |expected| && expected[i].Some? && expected[i].value != shape[i]
    ensures Validate(TensorRule(Some(wanted), Some(expected)), TensorDoc(dtype, data, shape)) ==
      Rejected(ShapeMismatch(expected, shape))
  {
    var v := TensorDoc(dtype, data, shape);
    TensorDocFields(dtype, data, shape);
    assert FitsSchema(v) by {
      assert FieldFits(v.entries[2].0, v.entries[2].1);
    }
    FirstMismatchNone(shape, expected, 0);
  }

  /**
   * The schema does not require the fields: a document without `shape` passes it, and then a
   * rule that fixes the shape reads a missing key.
   */
  lemma MissingShapeRaises(dtype: string, expected: seq<Option<int>>)
    requires dtype in NpDtypes
    ensures Validate(TensorRule(None, Some(expected)), VDict([(KStr("dtype"), VStr(dtype))])) == MissingField("shape")
  {
    var v := VDict([(KStr("dtype"), VStr(dtype))]);
    assert FieldFits(v.entries[0].0, v.entries[0].1);
    assert !Dicts.HasKey(v.entries, KStr("shape"));
  }

  /** A dtype outside the twelve allowed names fails the schema, before any other check. */
  lemma UnknownDtypeFailsSchema(rule: TensorRule, dtype: string, data: string, shape: seq<int>)
    requires dtype !in NpDtypes
    ensures Validate(rule, TensorDoc(dtype, data, shape)) == Rejected(SchemaError)
  {
    var v := TensorDoc(dtype, data, shape);
    assert !FieldFits(v.entries[0].0, v.entries[0].1);
  }

  /** With no expectations, every document that fits the schema is accepted. */
  lemma NoExpectationsAcceptsSchemaFits(v: Value)
    requires FitsSchema(v)
    ensures Validate(TensorRule(None, None), v) == Accepted
  {
  }

  /** A `None` dimension is a wildcard: any actual size there is accepted. */
  lemma WildcardDimension(dtype: string, data: string, n: int)
    requires dtype in NpDtypes
    ensures Validate(TensorRule(None, Some([None, Some(3)])), TensorDoc(dtype, data, [n, 3])) == Accepted
  {
    AcceptedIffConforms(TensorRule(None, Some([None, Some(3)])), dtype, data, [n, 3]);
  }
}

=== FILE: text.dfy ===
/**
 * String operations of Python's `str` and `os.path` that the modelled code relies on:
 * `split` on one separator character, `strip`, `startswith`, the `in` substring test,
 * ASCII `lower`, and POSIX `os.path.join`.
 */
module Text {

  /**
   * The ASCII characters Python's `str.isspace` accepts, which `strip()` removes; the non-ASCII
   * whitespace Python also accepts is not modelled.
   */
  predicate IsSpace(c: char)
  {
    c == ' ' || c == '\t' || c == '\n' || c == '\r' || c == '\U{B}' || c == '\U{C}'
    || c == '\U{1C}' || c == '\U{1D}' || c == '\U{1E}' || c == '\U{1F}'
  }

  predicate StartsWith(s: string, prefix: string)
  {
    prefix <= s
  }

  predicate EndsWith(s: string, suffix: string)
  {
    |suffix| <= |s| && s[|s| - |suffix|..] == suffix
  }

  /** Python's `sub in s` on two strings: `sub` occurs somewhere in `s`. */
  predicate Contains(s: string, sub: string)
    decreases |s|
  {
    sub <= s || (|s| > 0 && Contains(s[1..], sub))
  }

  /** `sub` occurs in `s` starting at position `i`. */
  predicate OccursAt(s: string, sub: string, i: nat)
  {
    i + |sub| <= |s| && s[i..i + |sub|] == sub
  }

  /** Position of the first `c` in `s` (Python's `s.find(c)` when `c in s`). */
  function IndexOf(s: string, c: char): (i: nat)
    requires c in s
    ensures i < |s| && s[i] == c && c !in s[..i]
  {
    if s[0] == c then 0 else 1 + IndexOf(s[1..], c)
  }

  /** Python's `sep.join(parts)` for a one-character separator. */
  function Join(parts: seq<string>, sep: char): string
  {
    if |parts| == 0 then ""
    else if |parts| == 1 then parts[0]
    else parts[0] + [sep] + Join(parts[1..], sep)
  }

  /** Python's `s.split(sep)` for a one-character separator. */
  function Split(s: string, sep: char): (parts: seq<string>)
    ensures |parts| >= 1
    ensures forall i :: 0 <= i < |parts| ==> sep !in parts[i]
    ensures Join(parts, sep) == s
    decreases |s|
  {
    if sep !in s then [s]
    else
      var i := IndexOf(s, sep);
      var rest := Split(s[i + 1..], sep);
      assert s == s[..i] + [sep] + s[i + 1..];
      [s[..i]] + rest
  }

  /** The first separator of `a + [sep] + b` is the one after `a` when `a` has none. */
  lemma {:induction false} IndexOfAfterPrefix(a: string, sep: char, b: string)
    requires sep !in a
    ensures sep in a + [sep] + b
    ensures IndexOf(a + [sep] + b, sep) == |a|
    decreases |a|
  {
    var s := a + [sep] + b;
    assert s[|a|] == sep;
    if |a| > 0 {
      assert s[1..] == a[1..] + [sep] + b;
      IndexOfAfterPrefix(a[1..], sep, b);
    }
  }

  /** Splitting the join of separator-free pieces gives the pieces back. */
  lemma {:induction false} SplitJoin(parts: seq<string>, sep: char)
    requires |parts| >= 1
    requires forall i :: 0 <= i < |parts| ==> sep !in parts[i]
    ensures Split(Join(parts, sep), sep) == parts
    decreases |parts|
  {
    if |parts| > 1 {
      var tail := Join(parts[1..], sep);
      var s := parts[0] + [sep] + tail;
      assert Join(parts, sep) == s;
      IndexOfAfterPrefix(parts[0], sep, tail);
      var i := |parts[0]|;
      assert s[..i] == parts[0];
      assert s[i + 1..] == tail;
      SplitJoin(parts[1..], sep);
      assert Split(s, sep) == [parts[0]] + Split(tail, sep);
      assert parts == [parts[0]] + parts[1..];
    }
  }

  /** Joining one more empty piece appends one separator. */
  lemma {:induction false} JoinAppendEmpty(parts: seq<string>, sep: char)
    requires |parts| >= 1
    ensures Join(parts + [""], sep) == Join(parts, sep) + [sep]
    decreases |parts|
  {
    if |parts| > 1 {
      assert (parts + [""])[1..] == parts[1..] + [""];
      JoinAppendEmpty(parts[1..], sep);
    }
  }

  /** A join ends with the last character of its last piece. */
  lemma {:induction false} JoinLastChar(parts: seq<string>, sep: char)
    requires |parts| >= 1 && |parts[|parts| - 1]| > 0
    ensures var j, last := Join(parts, sep), parts[|parts| - 1]; |j| > 0 && j[|j| - 1] == last[|last| - 1]
    decreases |parts|
  {
    if |parts| > 1 {
      JoinLastChar(parts[1..], sep);
    }
  }

  /** `s` with leading whitespace removed. */
  function TrimStart(s: string): (r: string)
    ensures |r| <= |s| && r == s[|s| - |r|..]
    ensures forall i :: 0 <= i < |s| - |r| ==> IsSpace(s[i])
    ensures |r| > 0 ==> !IsSpace(r[0])
    decreases |s|
  {
    if |s| > 0 && IsSpace(s[0]) then TrimStart(s[1..]) else s
  }

  /** `s` with trailing whitespace removed. */
  function TrimEnd(s: string): (r: string)
    ensures |r| <= |s| && r == s[..|r|]
    ensures forall i :: |r| <= i < |s| ==> IsSpace(s[i])
    ensures |r| > 0 ==> !IsSpace(r[|r| - 1])
    decreases |s|
  {
    if |s| > 0 && IsSpace(s[|s| - 1]) then TrimEnd(s[..|s| - 1]) else s
  }

  /** Python's `s.strip()`: the longest infix of `s` with no whitespace at either end. */
  function Strip(s: string): (r: string)
    ensures |r| <= |s|
    ensures |r| > 0 ==> !IsSpace(r[0]) && !IsSpace(r[|r| - 1])
  {
    TrimEnd(TrimStart(s))
  }

  /** A string with no whitespace at either end is its own strip. */
  lemma StripNoSpace(s: string)
    requires |s| > 0 ==> !IsSpace(s[0]) && !IsSpace(s[|s| - 1])
    ensures Strip(s) == s
  {
    assert TrimStart(s) == s;
  }

  /** Stripping twice is stripping once. */
  lemma StripIdempotent(s: string)
    ensures Strip(Strip(s)) == Strip(s)
  {
    StripNoSpace(Strip(s));
  }

  function LowerChar(c: char): char
  {
    if 'A' <= c <= 'Z' then (c as int - 'A' as int + 'a' as int) as char else c
  }

  /** Python's `s.lower()` on ASCII letters; other characters are left as they are. */
  function Lower(s: string): (r: string)
    ensures |r| == |s|
    ensures forall i :: 0 <= i < |s| ==> r[i] == LowerChar(s[i])
  {
    seq(|s|, i requires 0 <= i < |s| => LowerChar(s[i]))
  }

  /** One step of POSIX `os.path.join`: an absolute part replaces what came before. */
  function JoinStep(path: string, part: string): string
  {
    if StartsWith(part, "/") then part
    else if |path| == 0 || path[|path| - 1] == '/' then path + part
    else path + "/" + part
  }

  /** POSIX `os.path.join(first, *parts)`. */
  function PathJoin(first: string, parts: seq<string>): (r: string)
    decreases |parts|
  {
    if |parts| == 0 then first else PathJoin(JoinStep(first, parts[0]), parts[1..])
  }

  /** Joining only parts that are not absolute never drops what came first. */
  lemma {:induction false} PathJoinKeepsPrefix(first: string, parts: seq<string>)
    requires forall i :: 0 <= i < |parts| ==> !StartsWith(parts[i], "/")
    ensures StartsWith(PathJoin(first, parts), first)
    decreases |parts|
  {
    if |parts| > 0 {
      var next := JoinStep(first, parts[0]);
      assert next[..|first|] == first;
      PathJoinKeepsPrefix(next, parts[1..]);
      var r := PathJoin(next, parts[1..]);
      assert r[..|first|] == r[..|next|][..|first|];
    }
  }

  /** A relative, non-empty part without trailing slash. */
  predicate PlainPart(p: string)
  {
    |p| > 0 && p[0] != '/' && p[|p| - 1] != '/'
  }

  /**
   * Joining a base that does not end in `/` with plain relative parts puts exactly one
   * `/` before each part.
   */
  lemma {:induction false} PathJoinPlain(first: string, parts: seq<string>)
    requires |first| > 0 && first[|first| - 1] != '/'
    requires forall i :: 0 <= i < |parts| ==> PlainPart(parts[i])
    ensures |parts| > 0 ==> PathJoin(first, parts) == first + "/" + Join(parts, '/')
    ensures |parts| == 0 ==> PathJoin(first, parts) == first
    decreases |parts|
  {
    if |parts| > 0 {
      var next := JoinStep(first, parts[0]);
      assert next == first + "/" + parts[0] by {
        assert !StartsWith(parts[0], "/") by { assert parts[0][0] != '/'; }
      }
      assert next[|next| - 1] != '/' by { assert next[|next| - 1] == parts[0][|parts[0]| - 1]; }
      PathJoinPlain(next, parts[1..]);
      if |parts| > 1 {
        var rest := Join(parts[1..], '/');
        calc {
          PathJoin(first, parts);
          PathJoin(next, parts[1..]);
          next + "/" + rest;
          { assert next + "/" + rest == first + "/" + (parts[0] + "/" + rest); }
          first + "/" + (parts[0] + "/" + rest);
          first + "/" + Join(parts, '/');
        }
      }
    }
  }
}

=== FILE: truncate.dfy ===
/**
 * `truncate_str(obj, maxlength)`, present in both daemons: render an object as text and cut it
 * to `maxlength` characters, the last three of which become `...`.
 *
 * Rendering calls `str`, then `repr`, then falls back to a fixed message; each attempt is a
 * parameter here (`Attempt`), since what an object's `__str__` does is not part of the model.
 */
module Truncate {
  import opened Wrappers
  import PyInt

  /** Python's `s[:n]`: a negative `n` counts from the end, and the slice never fails. */
  function PrefixSlice(s: string, n: int): (r: string)
    ensures n >= 0 ==> r == s[..if n <= |s| then n else |s|]
    ensures n < 0 ==> r == s[..if |s| + n >= 0 then |s| + n else 0]
  {
    if n >= 0 then (if n <= |s| then s[..n] else s)
    else if |s| + n >= 0 then s[..|s| + n]
    else []
  }

  /** The cut applied to the rendered text. */
  function Cut(s: string, maxlength: int): string
  {
    if |s| > maxlength then PrefixSlice(s, maxlength - 3) + "..." else s
  }

  /** Text no longer than `maxlength` comes back unchanged. */
  lemma ShortTextUnchanged(s: string, maxlength: int)
    requires |s| <= maxlength
    ensures Cut(s, maxlength) == s
  {
  }

  /**
   * With `maxlength >= 3`, as the source assumes, longer text becomes exactly `maxlength`
   * characters: its first `maxlength - 3` characters and `...`.
   */
  lemma LongTextCut(s: string, maxlength: int)
    requires maxlength >= 3 && |s| > maxlength
    ensures var r := Cut(s, maxlength);
      && |r| == maxlength
      && r[..maxlength - 3] == s[..maxlength - 3]
      && r[maxlength - 3..] == "..."
  {
  }

  /** With `maxlength >= 3` the result never exceeds `maxlength`. */
  lemma CutBound(s: string, maxlength: int)
    requires maxlength >= 3
    ensures |Cut(s, maxlength)| <= maxlength
  {
    if |s| > maxlength {
      LongTextCut(s, maxlength);
    }
  }

  /** With `maxlength >= 3`, cutting again with the same bound changes nothing. */
  lemma CutIdempotent(s: string, maxlength: int)
    requires maxlength >= 3
    ensures Cut(Cut(s, maxlength), maxlength) == Cut(s, maxlength)
  {
    CutBound(s, maxlength);
  }

  /**
   * Why the source assumes `maxlength >= 3`: below it the negative slice keeps characters, the
   * result is longer than the bound, and cutting again makes it longer still.
   */
  lemma SmallBoundOverflows()
    ensures Cut("abc", 2) == "ab..."
    ensures Cut(Cut("abc", 1), 1) == "a...." && Cut("abc", 1) == "a..."
  {
    assert "abc"[..2] == "ab";
    assert "abc"[..1] == "a";
    assert "a..."[..2] == "a.";
  }

  /** One attempt to render the object: it produced text, or raised. */
  datatype Attempt =
    | Text(text: string)
    | Raised(citrine: bool)   // whether the exception is one of the daemon's own (`CitrineException`)

  /** The message used when neither `str` nor `repr` works; `noneId` is `id(None)`. */
  function Unrepresentable(noneId: nat): string
  {
    "Unrepresentable object @" + PyInt.Render(noneId)
  }

  /**
   * The first daemon's version: its own exceptions from `str` or `repr` propagate (`None` here),
   * any other exception moves on to the next attempt.
   */
  function CitrineTruncate(str: Attempt, repr: Attempt, noneId: nat, maxlength: int): (r: Option<string>)
    ensures r.None? <==> (str.Raised? && str.citrine) || (str.Raised? && repr.Raised? && repr.citrine)
    ensures str.Text? ==> r == Some(Cut(str.text, maxlength))
    ensures str.Raised? && repr.Text? && !str.citrine ==> r == Some(Cut(repr.text, maxlength))
  {
    match str
    case Text(s) => Some(Cut(s, maxlength))
    case Raised(c) =>
      if c then None
      else
        match repr
        case Text(s) => Some(Cut(s, maxlength))
        case Raised(c2) => if c2 then None else Some(Cut(Unrepresentable(noneId), maxlength))
  }

  /** The second daemon's version: every exception moves on to the next attempt. */
  function HivemindTruncate(str: Attempt, repr: Attempt, noneId: nat, maxlength: int): (r: string)
    ensures str.Text? ==> r == Cut(str.text, maxlength)
    ensures str.Raised? && repr.Text? ==> r == Cut(repr.text, maxlength)
    ensures str.Raised? && repr.Raised? ==> r == Cut(Unrepresentable(noneId), maxlength)
  {
    match str
    case Text(s) => Cut(s, maxlength)
    case Raised(_) =>
      match repr
      case Text(s) => Cut(s, maxlength)
      case Raised(_) => Cut(Unrepresentable(noneId), maxlength)
  }

  /** The two versions agree whenever no daemon exception is involved. */
  lemma VersionsAgree(str: Attempt, repr: Attempt, noneId: nat, maxlength: int)
    requires !(str.Raised? && str.citrine) && !(repr.Raised? && repr.citrine)
    ensures CitrineTruncate(str, repr, noneId, maxlength) == Some(HivemindTruncate(str, repr, noneId, maxlength))
  {
  }
}

=== FILE: ui_config.dfy ===
/**
 * The desktop interface's settings (`hivemind_ui/config.py`): a fixed table of known keys and
 * their types, a persistent `Config` whose `set` coerces the edited text to the key's type, and
 * an in-memory `Transient` store.
 *
 * Values arrive as the text of the settings editor's cell. Writing the settings file after a
 * successful `set` is not modelled.
 */
module UiConfig {
  import opened Wrappers
  import Dicts
  import PyInt
  import opened PyValue

  /** The types of `config_types`. */
  datatype ConfigType = TStr | TInt | TBool

  /** `config_types`: the known keys and their types; `None` for any other key. */
  function TypeOf(k: string): (t: Option<ConfigType>)
    ensures t.Some? <==> k in KnownKeys
  {
    if k == "daemon.server" then Some(TStr)
    else if k == "daemon.port" then Some(TInt)
    else if k == "interface.inspector_port" then Some(TInt)
    else if k == "interface.scale_factor" then Some(TInt)
    else if k == "js_bridge.socket.port" then Some(TInt)
    else if k == "repo.index" then Some(TStr)
    else if k == "repo.package_index" then Some(TStr)
    else if k == "storage.rootpath" then Some(TStr)
    else if k == "ui.hidpi" then Some(TBool)
    else None
  }

  const KnownKeys: seq<string> := [
    "daemon.server", "daemon.port", "interface.inspector_port", "interface.scale_factor",
    "js_bridge.socket.port", "repo.index", "repo.package_index", "storage.rootpath", "ui.hidpi"]

  type Items = Dicts.Dict<string, Value>

  /** A value of type `t`. */
  predicate HasType(v: Value, t: ConfigType)
  {
    match t
    case TStr => v.VStr?
    case TInt => v.VInt?
    case TBool => v.VBool?
  }

  /** Every stored key is known and holds a value of its type. */
  predicate WellTyped(items: Items)
  {
    forall i :: 0 <= i < |items| ==> TypeOf(items[i].0).Some? && HasType(items[i].1, TypeOf(items[i].0).value)
  }

  /** `default_config`, with the platform's storage directory as a parameter. */
  function DefaultConfig(storagePath: string): Items
  {
    [("daemon.server", VStr("127.0.0.1")),
     ("daemon.port", VInt(5402)),
     ("interface.inspector_port", VInt(5404)),
     ("interface.scale_factor", VInt(1)),
     ("js_bridge.socket.port", VInt(5403)),
     ("repo.index", VStr("https://raw.githubusercontent.com/antonpaquin/hivemind-repo/master/ui/index")),
     ("repo.package_index", VStr("https://raw.githubusercontent.com/antonpaquin/hivemind-repo/master/ui/package_interface")),
     ("storage.rootpath", VStr(storagePath)),
     ("ui.hidpi", VBool(false))]
  }

  /** The default settings give every known key, in table order, a value of its type. */
  lemma DefaultConfigWellTyped(storagePath: string)
    ensures WellTyped(DefaultConfig(storagePath))
    ensures Dicts.Keys(DefaultConfig(storagePath)) == KnownKeys
  {
    var d := DefaultConfig(storagePath);
    forall i | 0 <= i < |d|
      ensures TypeOf(d[i].0).Some? && HasType(d[i].1, TypeOf(d[i].0).value)
    {
      if i == 0 { assert d[i].0 == "daemon.server"; }
      else if i == 1 { assert d[i].0 == "daemon.port"; }
      else if i == 2 { assert d[i].0 == "interface.inspector_port"; }
      else if i == 3 { assert d[i].0 == "interface.scale_factor"; }
      else if i == 4 { assert d[i].0 == "js_bridge.socket.port"; }
      else if i == 5 { assert d[i].0 == "repo.index"; }
      else if i == 6 { assert d[i].0 == "repo.package_index"; }
      else if i == 7 { assert d[i].0 == "storage.rootpath"; }
      else { assert d[i].0 == "ui.hidpi"; }
    }
  }

  /** `_coerce_bool`: false exactly for the three spellings of false. */
  predicate CoerceBool(x: string)
  {
    !(x == "0" || x == "False" || x == "false")
  }

  /** The name of the coercion in the error message: bool's coercion is `_coerce_bool`. */
  function CoercionName(t: ConfigType): string
  {
    match t
    case TStr => "str"
    case TInt => "int"
    case TBool => "_coerce_bool"
  }

  /** `t(v)` on the edited text: `None` where the coercion raises `ValueError`. */
  function Coerce(t: ConfigType, v: string): (r: Option<Value>)
    ensures r.Some? ==> HasType(r.value, t)
    ensures t == TStr ==> r == Some(VStr(v))
    ensures t == TBool ==> r == Some(VBool(CoerceBool(v)))
    ensures t == TInt ==> (r.Some? <==> PyInt.Parse(v).Some?)
  {
    match t
    case TStr => Some(VStr(v))
    case TBool => Some(VBool(CoerceBool(v)))
    case TInt =>
      match PyInt.Parse(v)
      case Some(i) => Some(VInt(i))
      case None => None
  }

  /** `ConfigError(message)`. */
  datatype ConfigError = ConfigError(message: string)

  /** `Config.set(k, v)`. */
  function Set(items: Items, k: string, v: string): (r: Result<Items, ConfigError>)
    ensures TypeOf(k).None? ==> r == Err(ConfigError("Unknown config value " + k))
    ensures r.Ok? <==> TypeOf(k).Some? && Coerce(TypeOf(k).value, v).Some?
    ensures TypeOf(k).Some? && r.Err? ==>
      r.error == ConfigError("Value " + v + " is not valid for type " + CoercionName(TypeOf(k).value))
    ensures r.Ok? ==> Dicts.Get(r.value, k) == Coerce(TypeOf(k).value, v)
    ensures r.Ok? ==> forall k' :: k' != k ==> Dicts.Get(r.value, k') == Dicts.Get(items, k')
  {
    match TypeOf(k)
    case None => Err(ConfigError("Unknown config value " + k))
    case Some(t) =>
      match Coerce(t, v)
      case None => Err(ConfigError("Value " + v + " is not valid for type " + CoercionName(t)))
      case Some(x) =>
        var r := Dicts.Put(items, k, x);
        Dicts.GetPut(items, k, x, k);
        assert forall k' :: k' != k ==> Dicts.Get(r, k') == Dicts.Get(items, k') by {
          forall k' | k' != k
            ensures Dicts.Get(r, k') == Dicts.Get(items, k')
          {
            Dicts.GetPut(items, k, x, k');
          }
        }
        Ok(r)
  }

  /** `Config.get(k)`: `dict.get`, so an absent key gives `None`. */
  function Get(items: Items, k: string): (r: Option<Value>)
    ensures r.None? <==> !Dicts.HasKey(items, k)
  {
    Dicts.Get(items, k)
  }

  /** Every entry of `Put(d, k, v)` was in `d` or is the new entry. */
  lemma {:induction false} PutEntries(d: Items, k: string, v: Value, i: nat)
    requires i < |Dicts.Put(d, k, v)|
    ensures Dicts.Put(d, k, v)[i] == (k, v) || Dicts.Put(d, k, v)[i] in d
    decreases |d|
  {
    if |d| > 0 && d[0].0 != k && i > 0 {
      PutEntries(d[1..], k, v, i - 1);
      assert Dicts.Put(d, k, v)[i] == Dicts.Put(d[1..], k, v)[i - 1];
    }
  }

  /** A successful `set` keeps every stored value of its key's type. */
  lemma SetKeepsTypes(items: Items, k: string, v: string)
    requires WellTyped(items)
    requires Set(items, k, v).Ok?
    ensures WellTyped(Set(items, k, v).value)
  {
    var t := TypeOf(k).value;
    var x := Coerce(t, v).value;
    var r := Set(items, k, v).value;
    assert r == Dicts.Put(items, k, x);
    forall i | 0 <= i < |r|
      ensures TypeOf(r[i].0).Some? && HasType(r[i].1, TypeOf(r[i].0).value)
    {
      PutEntries(items, k, x, i);
      if r[i] != (k, x) {
        var j :| 0 <= j < |items| && items[j] == r[i];
      }
    }
  }

  /** The editor's `"0"` turns the flag off; any other text, even `"no"`, turns it on. */
  lemma HidpiCoercion(items: Items)
    ensures Get(Set(items, "ui.hidpi", "0").value, "ui.hidpi") == Some(VBool(false))
    ensures Get(Set(items, "ui.hidpi", "no").value, "ui.hidpi") == Some(VBool(true))
  {
  }

  /** A port that is not a number is refused. */
  lemma NonNumericPortRefused(items: Items)
    ensures Set(items, "daemon.port", "abc").Err?
  {
    PyInt.ParseLetterStart("abc");
  }

  // ----- Transient -----

  /** `Transient._items`: any key, any value, starting empty. */
  type TransientItems = Dicts.Dict<string, Value>

  function TransientSet(items: TransientItems, k: string, v: Value): (r: TransientItems)
    ensures Dicts.HasKey(r, k)
    ensures forall k' :: k' != k ==> Dicts.Get(r, k') == Dicts.Get(items, k')
  {
    var r := Dicts.Put(items, k, v);
    Dicts.GetPut(items, k, v, k);
    assert forall k' :: k' != k ==> Dicts.Get(r, k') == Dicts.Get(items, k') by {
      forall k' | k' != k
        ensures Dicts.Get(r, k') == Dicts.Get(items, k')
      {
        Dicts.GetPut(items, k, v, k');
      }
    }
    r
  }

  function TransientGet(items: TransientItems, k: string): (r: Option<Value>)
    ensures r.None? <==> !Dicts.HasKey(items, k)
  {
    Dicts.Get(items, k)
  }

  /** `Transient.set` then `Transient.get` returns the stored value, whatever was there before. */
  lemma TransientSetGet(items: TransientItems, k: string, v: Value)
    ensures TransientGet(TransientSet(items, k, v), k) == Some(v)
  {
    Dicts.GetPut(items, k, v, k);
  }
}

=== FILE: wrappers.dfy ===
/** Optional values and success-or-error results, shared by every module of the model. */
module Wrappers {

  /** A value that may be absent: Python's `None`, JavaScript's `undefined`. */
  datatype Option<+T> = None | Some(value: T) {

    /** The wrapped value, or `default` when there is none. */
    function GetOr(default: T): T
    {
      match this
      case Some(v) => v
      case None => default
    }

    predicate IsFailure()
    {
      None?
    }

    function PropagateFailure<U>(): Option<U>
      requires None?
    {
      None
    }

    function Extract(): T
      requires Some?
    {
      value
    }
  }

  /** The outcome of an operation that either returns a value or raises an error. */
  datatype Result<+T, +E> = Ok(value: T) | Err(error: E) {

    predicate IsFailure()
    {
      Err?
    }

    function PropagateFailure<U>(): Result<U, E>
      requires Err?
    {
      Err(error)
    }

    function Extract(): T
      requires Ok?
    {
      value
    }
  }
}
